=== FILE: README.md ===
# The-Dan-Times puzzle games, modelled in Dafny

This project models the rule-based cores of the five browser puzzle games in
The-Dan-Times: Strands, Pips, Wordle, Spelling Bee and Connections. The DOM code in
each game sits on top of a small synchronous state machine, and that machine is
written here as immutable datatypes and pure functions. Where a game's algorithm is
a loop, it is written as a Dafny method with loop invariants. A mutable global such
as `currentPath`, `placedDominoes` or `selectedWords` becomes a field of a game
record, and each event handler becomes a function from one record to the next.

`Math.random()` is an oracle. `Random.Oracle` is a function `nat -> nat`, and the
k-th draw scaled to `[0, n)` is `rand(k) % n`. Every operation that draws takes a
cursor `k` and returns the advanced cursor, so any sequence of in-range choices can
be replayed.

The three copies of Fisher–Yates (Strands, Pips, Connections) are modelled once,
as `Random.Shuffle`. It keeps the length and the multiset of its input. Because
sequences are values, "returns a new array and leaves the input alone" holds
automatically.

Modules, one per file:

| file | module | models |
|---|---|---|
| wrappers.dfy | Wrappers | `Option` |
| random.dfy | Random | the oracle, Fisher–Yates, duplicate-freedom and set sizes |
| text.dfy | Text | ASCII upper/lower case, `trim`, `split`, `join`, `indexOf` |
| strands_grid.dfy | StrandsGrid | the 6×8 board, `isAdjacent`, `getNeighbors`, path predicates |
| strands_search.dfy | StrandsSearch | `dfsExtend` and `findPathForWord` |
| strands_layout.dfy | StrandsLayout | `simpleRowLayout` and `generateGridFromWords` |
| strands_play.dfy | StrandsPlay | `startDrag`, `handleMove`, `endDrag`, `isCellFound`, `checkWin` |
| pips_dominoes.dfy | PipsDominoes | the double-six set, `getDominoById`, `createPips`, `rotateDomino` |
| pips_regions.dfy | PipsRegions | `Rules`, `validateRegion`, `basicStairShape`, `BOARD_SHAPES` |
| pips_generator.dfy | PipsGenerator | `getDifficultyConfig`, `createGrid`, `createRegions`, `generateRule`, `solvePuzzle`, the predefined puzzles |
| pips_game.dfy | PipsGame | `startNewGame`, selection, `canPlaceDomino`, `placeDomino`, `removeDomino`, `checkSolution`, `isPuzzleComplete`, `showHint` |
| wordle_score.dfy | WordleScore | the two-pass colouring of `revealGuess` |
| wordle_game.dfy | WordleGame | `loadWords`, `selectRandomWord`, `isValidWord`, `getHint`, key handling, `updateKeyboard`, `resetGame` |
| bee_puzzle.dfy | BeePuzzle | `KNOWN_GOOD_COMBOS`, word parsing, the valid-word filter, pangrams, `maxScore`, `getRandomPuzzle` |
| bee_game.dfy | BeeGame | `addLetter`, `deleteLetter`, `submitWord`, the rank of `updateStats`, keyboard input |
| connections_logic.dfy | ConnectionsLogic | `validateGuess`, `isGameComplete`, `getShuffledWords`, the puzzle lookups |
| connections_game.dfy | ConnectionsGame | `initGame`, `selectWord`, `submitGuess`, the grid filter, `shuffleWords`, `deselectAll`, `endGame` |

## Model

| member | source | states |
|---|---|---|
| Random.Shuffle | strands/js/functions.js:341-347 | Fisher–Yates keeps the length and the multiset of its input (the same routine is at connections/randomize.js:2-9 and pips/puzzle-generator.js:146-151) |
| Random.Draw | pips/puzzle-generator.js:146-151 | a `Math.floor(Math.random() * n)` draw lies in `[0, n)` |
| Text.Split | spelling-bee/randomize.js:39 | `split('\n')` yields at least one piece, no piece holds the separator, and joining the pieces restores the text |
| Text.Trim | wordle/randomize.js:10 | `trim()` removes exactly the leading and trailing white space |
| Text.ToUpperIdempotent | connections/validator.js:5-6 | upper-casing twice is upper-casing once |
| StrandsGrid.AdjacencyFacts | strands/js/functions.js:237-248 | `isAdjacent` is symmetric, is true for a cell and itself, and never wraps across rows |
| StrandsGrid.GetNeighbors | strands/js/functions.js:250-265 | the result holds exactly the on-board cells at a king move from `idx`, never `idx` itself, in increasing order |
| StrandsGrid.ReverseTrail | strands/js/functions.js:120 | a reversed self-avoiding adjacent path is again one, over the same cells |
| StrandsGrid.FullBoard | strands/js/functions.js:98 | a set of 48 board cells is the whole board |
| StrandsSearch.Candidates | strands/js/functions.js:328-329 | the shuffled neighbour list holds exactly the neighbours of `last` that are neither used nor visited |
| StrandsSearch.DfsExtend | strands/js/functions.js:325-339 | on success the path extends the given prefix to a simple adjacent path of `targetLen` cells avoiding `used`; on failure path and visited are the entry values and no such extension exists |
| StrandsSearch.Starts | strands/js/functions.js:308-312 | the start list holds exactly the unused board cells |
| StrandsSearch.NoTrail | strands/js/functions.js:314-322 | when every start is a dead end, no simple adjacent path of that length avoids `used` |
| StrandsSearch.FindPathForWord | strands/js/functions.js:307-323 | null, or a simple adjacent path of exactly `length` cells with none in `used`; null only when no such path exists; null for length 0 |
| StrandsLayout.TotalLettersPermutation | strands/js/functions.js:99 | the letter total does not depend on the order of the words |
| StrandsLayout.RowRunsLetters | strands/js/functions.js:146-154 | the row-wise grid is the concatenated words, cut at the target |
| StrandsLayout.RowRunsSpell | strands/js/functions.js:146-154 | each word's index run reads that word's first letters on the grid |
| StrandsLayout.SimpleRowLayout | strands/js/functions.js:142-157 | the grid has exactly `targetCells` characters: the words' letters in order, padded with 'X'; every word has a run spelling its prefix, and a run is cut short only when the letters overflow the board |
| StrandsLayout.WriteWord | strands/js/functions.js:123-127 | writing a word along a path sets exactly the path's cells to the word's letters |
| StrandsLayout.PlaceKeeps | strands/js/functions.js:115-127 | placing the next word on a path over unused cells keeps the attempt consistent: every placed word is written along its path, the paths are disjoint, and a cell is filled iff it is used |
| StrandsLayout.PlaceWords | strands/js/functions.js:108-128 | a successful attempt places every shuffled word on its own path, consistently |
| StrandsLayout.FinishedAttempt | strands/js/functions.js:130-134 | a finished attempt on 48 letters gives a grid of 48 letters where each word's path spells it |
| StrandsLayout.GenerateGridFromWords | strands/js/functions.js:97-140 | with a letter total other than 48 the result is the row layout; otherwise it is the row layout or a full board where every word has a simple adjacent path spelling it and the paths are disjoint |
| StrandsLayout.SolvedBoardCovers | strands/js/functions.js:107-134 | with distinct words totalling 48 letters, the solution paths of a full board cover all 48 cells |
| StrandsPlay.Start | strands/js/functions.js:53-63 | a new level installs the generated grid and word map with nothing found and no drag |
| StrandsPlay.Spell | strands/js/functions.js:214 | reading the grid along an on-board path gives one letter per cell, in path order |
| StrandsPlay.StartDrag | strands/js/functions.js:161-176 | no hit or a won game leaves the state alone; otherwise dragging starts, with the path restarted at the hit cell unless that cell is found |
| StrandsPlay.HandleMove | strands/js/functions.js:178-207 | no drag, no hit or an empty path changes nothing; a hit on the second-to-last cell pops the last one; otherwise a hit that is adjacent to the last cell, new and not found is appended, and any other hit changes nothing |
| StrandsPlay.Matched | strands/js/functions.js:214-220 | the matched word is a map key equal to the spelled word or its reverse, the spelled word winning when it is a key, and there is none exactly when neither is a key |
| StrandsPlay.EndDrag | strands/js/functions.js:209-233 | ending a drag empties the path and adds the matched word, if any and not empty, to the found set; an empty match or no match leaves the found set alone |
| StrandsPlay.EmptyWordNeverFound | strands/js/functions.js:209-233 | with the empty word in the map, a release never finds it, so the level cannot be won |
| StrandsPlay.StartDragInv | strands/js/functions.js:161-176 | starting a drag keeps the drag path a self-avoiding adjacent path of unfound cells |
| StrandsPlay.HandleMoveInv | strands/js/functions.js:178-207 | moving keeps the drag path a self-avoiding adjacent path of unfound cells |
| StrandsPlay.EndDragInv | strands/js/functions.js:209-233 | ending a drag keeps only map words found and leaves an empty path |
| StrandsPlay.WinMeansAllFound | strands/js/functions.js:395-396 | `checkWin` holds iff every word of the map is found |
| StrandsPlay.UnfoundWordCells | strands/js/functions.js:267-272 | on disjoint paths, no cell of an unfound word counts as found |
| StrandsPlay.DragFindsWord | strands/js/functions.js:161-233 | dragging along an unfound word's stored path finds exactly that word and clears the path |
| PipsDominoes.IdInjective | pips/dominoes.js:11 | the id `${value1}-${value2}` determines both values |
| PipsDominoes.FullSetShape | pips/dominoes.js:7-15 | the set has 28 dominoes, one per pair `i <= j` in 0..6, ordered, with distinct ids |
| PipsDominoes.GetDominoById | pips/dominoes.js:21-23 | the first domino with that id, or none exactly when no domino carries it |
| PipsDominoes.LookupPresent | pips/dominoes.js:21-23 | looking up `i-j` with `i <= j` finds that domino |
| PipsDominoes.LookupReversed | pips/dominoes.js:21-23 | looking up `i-j` with `i > j` finds nothing |
| PipsDominoes.CreatePips | pips/dominoes.js:50-61 | `value` pip children, none for a non-positive value |
| PipsDominoes.Rotate | pips/dominoes.js:63-71 | 'horizontal' becomes 'vertical' and anything else becomes 'horizontal' |
| PipsDominoes.RotateTwice | pips/dominoes.js:63-71 | rotating twice restores a horizontal or vertical orientation |
| PipsRegions.SetSizeDistinct | pips/game.js:393 | the size of `new Set(values)` equals the length iff no value repeats |
| PipsRegions.ValidateRegion | pips/game.js:380-399 | false when the value count differs from the cell count; agrees with the code for every rule but 'zero' |
| PipsRegions.RuleSemantics | pips/game.js:383-397 | sum, match, min, max and different hold exactly as their rule says, and zero holds iff every value is 0 |
| PipsRegions.ZeroRuleUnchecked | pips/game.js:396-397 | the code as written accepts a zero region holding two sixes |
| PipsRegions.SecondCell | pips/game.js:187-195 | the second cell is right of the first for 'horizontal', below it otherwise |
| PipsRegions.BoardShapesFacts | pips/board-shapes.js:42-104 | the stair shape's four regions are disjoint, repeat no cell, lie inside the 5×5 grid and have ids 0..3; easy holds one shape, medium and hard none |
| PipsGenerator.GetDifficultyConfig | pips/puzzle-generator.js:21-28 | any key other than medium or hard gives the easy config, and every config fits its dominoes on its grid |
| PipsGenerator.CreateGrid | pips/puzzle-generator.js:30-43 | rows×cols cells, `grid[r][c]` at row r, column c, with no region and no domino |
| PipsGenerator.GridSquares | pips/puzzle-generator.js:30-43 | the flattened grid has rows·cols cells |
| PipsGenerator.GenerateRule | pips/puzzle-generator.js:96-107 | sum in 10..29, match in 1..6, min and max in 2..5, no value for different; the kind follows the requested type and an unknown type gives none |
| PipsGenerator.MakeRegions | pips/puzzle-generator.js:60-91 | the regions cut the cell list into consecutive pieces whose concatenation is the list |
| PipsGenerator.MakeRegionsShape | pips/puzzle-generator.js:60-91 | region ids count up from the first, colours are `regionColors[id % 7]`, sizes are 2..5 except the last, which may be smaller |
| PipsGenerator.CreateRegionsFacts | pips/puzzle-generator.js:45-94 | the regions cover `dominoCount * 2` distinct cells of the grid, shaped as above |
| PipsGenerator.RegionPairs | pips/puzzle-generator.js:119-141 | a region's cells are paired (0,1), (2,3), …, an odd last cell left out |
| PipsGenerator.PairsWithinRegions | pips/puzzle-generator.js:119-141 | the pairs use region cells only, each at most once |
| PipsGenerator.ProcessExact | pips/puzzle-generator.js:112-141 | on distinct unused cells every pair is placed, in order, each with the next domino popped from the shuffled set |
| PipsGenerator.ShuffledSetIds | pips/puzzle-generator.js:112 | the shuffled copy of the set still has 28 dominoes with distinct ids |
| PipsGenerator.SolvePuzzleDominoes | pips/puzzle-generator.js:109-144 | the solution uses dominoes of the set with no id repeated, at most 28 of them |
| PipsGenerator.SolvePuzzleCells | pips/puzzle-generator.js:119-141 | every placement covers one region pair; no two placements share a cell; 'vertical' iff the rows differ |
| PipsGenerator.SolvePuzzleExact | pips/puzzle-generator.js:109-144 | on regions without repeated cells and at most 28 pairs, every pair gets a placement |
| PipsGenerator.GeneratedPuzzleFacts | pips/puzzle-generator.js:7-19 | a generated puzzle has its config's size, `2 * dominoCount` distinct region cells on the grid, well-shaped regions, and a solution placing distinct dominoes on every region pair |
| PipsGenerator.PredefinedEasyAsWrittenOdd | pips/puzzle-generator.js:155-177 | the predefined easy puzzle has 15 region cells, (0,3) among them |
| PipsGenerator.PredefinedEasyAsWrittenUncovered | pips/puzzle-generator.js:165-173 | no step of its solution covers (0,3) |
| PipsGenerator.PredefinedEasyAsWrittenMissingDomino | pips/puzzle-generator.js:169-170 | its solution names domino '5-4', which the set does not hold |
| PipsGenerator.SetIdPresent | pips/dominoes.js:7-23 | every id `a-b` with digits `a <= b <= 6` names a domino of the set |
| PipsGenerator.PredefinedEasyEven | pips/puzzle-generator.js:155-177 | the corrected easy puzzle has 14 region cells, an even number |
| PipsGenerator.PredefinedEasyCovered | pips/puzzle-generator.js:155-177 | in the corrected easy puzzle a cell is a region cell iff some solution step covers it |
| PipsGenerator.PredefinedEasyDominoes | pips/puzzle-generator.js:165-173 | every domino the corrected solution names is in the set |
| PipsGame.StartNewGame | pips/game.js:64-77 | placements and selection are cleared; easy uses the predefined puzzle, any other difficulty a generated one |
| PipsGame.RotateSelected | pips/game.js:300-304 | a selection still in the tray turns between horizontal and vertical and nothing else changes; without a selection, or with one the tray no longer holds, nothing changes |
| PipsGame.RotateSelectedTwice | pips/game.js:300-304 | rotating the selection twice restores it |
| PipsGame.ActiveCells | pips/game.js:213-217 | a cell is active iff some region lists it |
| PipsGame.PlacementAt | pips/game.js:227-230 | the record holds the clicked cell, the second cell for the orientation, and the selected domino's id and values |
| PipsGame.PlaceDomino | pips/game.js:219-281 | without a selection, or with a cell off the board, nothing changes; otherwise one record is stored under both cells, the selection is cleared and no other key changes |
| PipsGame.ClickCell | pips/game.js:146-150 | the click places exactly when `canPlaceDomino` holds |
| PipsGame.Drop | pips/game.js:139-143 | the guarded drop behaves like the click, and like the unguarded drop whenever the guard holds |
| PipsGame.RemoveDomino | pips/game.js:283-298 | removing deletes exactly the two cells of the clicked placement, keeps every other key, and does nothing on an empty cell; the re-rendered tray leaves a selected domino selected but out of the tray |
| PipsGame.RotateAfterRemove | pips/game.js:283-304 | after a removal the rotate button does nothing until a tray domino is selected again, and then it turns that one |
| PipsGame.StartInv | pips/game.js:64-77 | a new game's board is consistent |
| PipsGame.ClickInv | pips/game.js:146-150 | a click keeps every occupied key paired with its partner in one record on active cells, and a placement adds two keys |
| PipsGame.DropInv | pips/game.js:139-143 | the guarded drop keeps the board consistent |
| PipsGame.RemoveInv | pips/game.js:283-298 | a removal keeps the board consistent |
| PipsGame.DropAsWrittenOverlaps | pips/game.js:139-143 | the unguarded drop can place a domino over an occupied cell, leaving a record whose partner key is gone after a removal |
| PipsGame.RegionValues | pips/game.js:343-357 | each covered cell contributes its placement's value, value1 for the record's first cell and value2 otherwise; a full list means every cell is covered |
| PipsGame.CheckSolutionByRegions | pips/game.js:338-378 | victory holds iff every region is valid on its cells' values, which requires every region cell covered |
| PipsGame.CompleteMeansCovered | pips/game.js:401-404 | on a consistent board with distinct region cells, the key count equals the cell count iff every region cell is covered |
| PipsGame.AsWrittenNeverComplete | pips/game.js:401-404 | no consistent board on the predefined easy puzzle as written, which is every board guarded clicks and removals reach, passes the completeness test |
| PipsGame.AfterMovesInv | pips/game.js:146-150 | seven clicks on the as-written easy puzzle are each allowed by `canPlaceDomino`, keep the board consistent and fill every cell but (0,3) |
| PipsGame.DropCompletesAsWritten | pips/game.js:139-143 | after those clicks, the unguarded drop of a horizontal `3-3` on (0,2) fills all 15 cells, so the completeness test passes, on a board that is no longer consistent |
| PipsGame.FirstUnplaced | pips/game.js:312-335 | the hint is the first solution step whose first cell is free, and there is none iff every step's first cell is occupied |
| WordleScore.FirstPass | wordle/selection.js:91-97 | a position is correct iff the guess and target letters agree there |
| WordleScore.FreeIndex | wordle/selection.js:103-109 | the first unconsumed target index holding the letter, or none when every such index is consumed |
| WordleScore.Score | wordle/selection.js:84-110 | one mark per letter; correct iff the letters agree; a present letter occurs in the target |
| WordleScore.AllCorrect | wordle/selection.js:92-97 | all five marks are correct iff the guess is the target |
| WordleScore.ScoreCount | wordle/selection.js:89-110 | for every letter, the positions marked correct or present number the smaller of its counts in guess and target, so no target index is used twice |
| WordleScore.PresentLeftmost | wordle/selection.js:100-110 | present marks go left to right: after an absent copy of a letter no later copy is present |
| WordleGame.KeepFiveExact | wordle/randomize.js:10 | a word is kept iff it has five letters and is the trimmed, upper-cased form of some line |
| WordleGame.LoadWordsExact | wordle/randomize.js:10 | the word list holds exactly the five-letter trimmed, upper-cased lines of the file |
| WordleGame.SelectRandomWord | wordle/randomize.js:26-31 | a word of the list, drawn exactly when the list is non-empty |
| WordleGame.EveryWordDrawable | wordle/randomize.js:26-28 | every listed word can be drawn |
| WordleGame.ValidIgnoresCase | wordle/randomize.js:34-36 | validity ignores case and, for an upper-case word, is list membership |
| WordleGame.Unrevealed | wordle/randomize.js:53 | the target letters not yet revealed, exactly |
| WordleGame.Revealed | wordle/randomize.js:42-50 | the filled tiles' letters that occur in the target, exactly |
| WordleGame.HintAllRevealed | wordle/randomize.js:55-57 | with every letter revealed the code returns the bare first letter, which the hint button shows without letter or position |
| WordleGame.GetHint | wordle/randomize.js:39-64 | no hint without a target; otherwise a letter and a 1-based position at its first occurrence in the target, unrevealed unless it is the first letter; it differs from the code only in giving position 1 where the code returns a bare letter |
| WordleGame.HintShownNamesTarget | wordle/selection.js:191-200 | the hint button always shows a target letter with its position |
| WordleGame.UpdateKey | wordle/selection.js:140-154 | a key's colour becomes the higher-ranked of its old colour and the new mark |
| WordleGame.UpdateKeyboard | wordle/selection.js:140-154 | only the key of the letter changes |
| WordleGame.ApplyMarksMonotone | wordle/selection.js:113-119 | colouring a row never lowers a key, and leaves each guessed letter's key at least at its mark |
| WordleGame.Load | wordle/randomize.js:6-23 | loading starts at row 0 with an empty guess and draws a target from the list when it is non-empty |
| WordleGame.AddLetter | wordle/selection.js:46-54 | a letter is appended only below five letters, moving the tile cursor |
| WordleGame.DeleteLetter | wordle/selection.js:57-65 | exactly the last letter is removed; nothing happens on an empty guess |
| WordleGame.Submit | wordle/selection.js:68-81 | only a five-letter listed guess is revealed; otherwise nothing changes |
| WordleGame.HandleKey | wordle/selection.js:31-43 | nothing after game over; Enter submits, Backspace deletes, and a single A–Z key is appended below five letters; any other key does nothing |
| WordleGame.ResetGame | wordle/selection.js:209-224 | row, tile, guess and game-over are reset, every key is plain, and the new target is a listed word |
| WordleGame.HintClick | wordle/selection.js:191-200 | no hint after game over; otherwise a target letter with its position |
| WordleGame.HandleKeyInv | wordle/selection.js:31-65 | the tile cursor stays equal to the guess length, at most five, and the row stays below six |
| WordleGame.ResetInv | wordle/selection.js:209-216 | a reset keeps the game invariant |
| WordleGame.SubmitNow | wordle/selection.js:67-136 | Enter on a five-letter listed guess changes nothing at once and leaves one reveal timer holding that guess and its colours |
| WordleGame.FireReveal | wordle/selection.js:122-136 | the timer wins when its guess is the target and otherwise moves on a row, reading the row when it fires |
| WordleGame.SubmitSettles | wordle/selection.js:67-136 | firing the reveal timer at once gives exactly `Submit` |
| WordleGame.DoubleEnterSkipsRow | wordle/selection.js:122-136 | a wrong guess entered twice within the reveal advances the row by two, and on the fifth row ends the game lost |
| WordleGame.RevealOutcome | wordle/selection.js:122-136 | after a reveal the game is won (guess is target), lost (last row), or on the next row with an empty guess; all marks correct iff won |
| BeePuzzle.KnownCombosSeven | spelling-bee/randomize.js:7-28 | the 20 known combos each have seven distinct letters |
| BeePuzzle.ParseWords | spelling-bee/randomize.js:39 | the words are the upper-cased lines of the trimmed file |
| BeePuzzle.ParseWordsJoin | spelling-bee/randomize.js:39 | joining the words again gives the upper-cased trimmed file |
| BeePuzzle.ValidWords | spelling-bee/randomize.js:61-70 | exactly the words with at least four letters, the centre letter and only the puzzle's letters, in order |
| BeePuzzle.Pangrams | spelling-bee/randomize.js:77-80 | exactly the valid words with seven distinct letters |
| BeePuzzle.PangramUsesAll | spelling-bee/randomize.js:77-80 | on a seven-letter combo a valid word is a pangram iff it uses every puzzle letter |
| BeePuzzle.SumPointsAppend | spelling-bee/randomize.js:83-93 | the score total is additive over concatenation |
| BeePuzzle.MakePuzzle | spelling-bee/randomize.js:58-104 | `allLetters` is the centre then the outer letters; the valid words, pangrams and maximum are as above, and the maximum is at least the valid-word count |
| BeePuzzle.TryCombos | spelling-bee/randomize.js:56-106 | a found puzzle is built from one of the combos and has valid words and a positive maximum; none only when every remaining draw gave a combo without valid words |
| BeePuzzle.GetRandomPuzzle | spelling-bee/randomize.js:49-110 | none with no combos, or after 100 barren draws; otherwise a puzzle built from a combo, with valid words |
| BeePuzzle.PuzzleFound | spelling-bee/randomize.js:49-110 | when every combo has a valid word, a puzzle is always found |
| BeeGame.RankScan | spelling-bee/game.js:228-234 | the highest rank whose threshold the score reaches, scanning downward |
| BeeGame.RankFacts | spelling-bee/game.js:8-14 | with a positive maximum a rank is always found, and a higher score never gives a lower rank |
| BeeGame.RankEnds | spelling-bee/game.js:228-234 | the maximum score is Genius and under 15 % is Beginner |
| BeeGame.RankZeroMaximum | spelling-bee/game.js:228-234 | with a zero maximum a positive score is Genius and a zero score keeps the previous rank |
| BeeGame.InitGame | spelling-bee/game.js:30-45 | a new game has an empty word, nothing found and score 0 |
| BeeGame.AddLetter | spelling-bee/game.js:101-109 | exactly one letter is appended |
| BeeGame.DeleteLetter | spelling-bee/game.js:130-135 | exactly the last letter is removed; nothing happens on an empty word |
| BeeGame.SubmitWord | spelling-bee/game.js:152-201 | the four rejections in order (short, no centre, found, not listed) leave the game unchanged; acceptance appends the word, adds its points, clears the word and sets the rank reached by the new score |
| BeeGame.AcceptsExactly | spelling-bee/game.js:157-179 | on a derived puzzle a word is accepted iff it is valid and not yet found |
| BeeGame.HandleKey | spelling-bee/game.js:276-288 | Enter submits, Backspace deletes, a single key whose upper case is one of the puzzle's letters is appended, and every other key leaves the game unchanged |
| BeeGame.SubmitInv | spelling-bee/game.js:169-195 | found words stay distinct and valid, and the score stays their point total |
| BeeGame.HandleKeyInv | spelling-bee/game.js:276-288 | key handling keeps the game invariant |
| BeeGame.ScoreBounded | spelling-bee/game.js:185-195 | the score never exceeds the puzzle's maximum |
| BeeGame.AllFoundScoresMax | spelling-bee/game.js:185-195 | finding every valid word scores exactly the maximum |
| ConnectionsLogic.Matches | connections/validator.js:5-12 | the count of selected words in the category, case-insensitively; all are matched iff every upper-cased word is among the category's |
| ConnectionsLogic.ValidateGuess | connections/validator.js:2-29 | wrong iff no category has 3 or 4 matches; otherwise the first such category decides, correct with that category at 4 and a close call at 3 |
| ConnectionsLogic.CorrectHoldsAll | connections/validator.js:4-15 | a correct result names a category holding all four selected words |
| ConnectionsLogic.ValidateIgnoresCase | connections/validator.js:5-6 | the verdict does not depend on the case of the selection |
| ConnectionsLogic.AllCards | connections/randomize.js:12-20 | one card per (category, word), the count is the sum of the word counts, and each card carries its own category's name and difficulty |
| ConnectionsLogic.AllCardsHas | connections/randomize.js:12-20 | every word of every category has its card |
| ConnectionsLogic.GetShuffledWords | connections/randomize.js:12-21 | the shuffled cards are a permutation of the flattened cards |
| ConnectionsLogic.Lookup | connections/categories.js:6 | the list of the difficulty key, absent exactly when no entry has that key |
| ConnectionsLogic.GetRandomPuzzleByDifficulty | connections/categories.js:5-12 | a puzzle of the lower-cased difficulty's list when it is non-empty; otherwise one of 'medium', and none when 'medium' is missing or empty |
| ConnectionsLogic.GetRandomPuzzle | connections/categories.js:15-19 | a puzzle drawn for one of easy, medium, hard or extreme |
| ConnectionsLogic.GetPuzzlesByDifficulty | connections/categories.js:22-24 | the list of the lower-cased key, or empty for an unknown one |
| ConnectionsLogic.TotalCountFacts | connections/categories.js:27-29 | the total is additive over the library, and no difficulty holds more than the total |
| ConnectionsLogic.CountByDifficulty | connections/categories.js:32-39 | the four list sizes when all four keys exist, and none otherwise |
| ConnectionsGame.AvailableCards | connections/game.js:35-37 | the grid shows exactly the cards whose category is unsolved |
| ConnectionsGame.ClickCard | connections/game.js:44-46 | clicking a shown card selects or deselects its word |
| ConnectionsGame.Unsolved | connections/game.js:247-249 | exactly the categories whose name is not among the solved ones |
| ConnectionsGame.AvailableCardsAppend | connections/game.js:35-37 | the grid filter keeps the cards in their shuffled order: filtering a concatenation filters each part in place |
| ConnectionsGame.UnsolvedAppend | connections/game.js:247-249 | the unsolved categories keep the puzzle's order |
| ConnectionsGame.InitGame | connections/game.js:13-27 | the installed puzzle is the one drawn for the difficulty, and it starts with an empty selection, nothing solved, four mistakes left, the game active and the cards a permutation of its words |
| ConnectionsGame.Remove | connections/game.js:57 | the filter drops exactly the word, shrinking the list when it is present |
| ConnectionsGame.SelectWord | connections/game.js:53-67 | nothing when inactive; a selected word is filtered out and the rest kept in order; a new word is added only below four |
| ConnectionsGame.SubmitGuess | connections/game.js:76-148 | only an active game with four selected words acts; correct appends the category and ends the game when all are solved; otherwise one mistake is spent and the game ends at zero; the selection is cleared |
| ConnectionsGame.ShuffleWords | connections/game.js:191-201 | the cards are permuted and nothing else changes; an inactive game is left alone |
| ConnectionsGame.DeselectAll | connections/game.js:204-210 | only the selection is cleared |
| ConnectionsGame.SelectInv | connections/game.js:53-67 | the selection stays duplicate-free, at most four and of unsolved words |
| ConnectionsGame.ClickInv | connections/game.js:30-67 | clicking a card keeps the game invariant |
| ConnectionsGame.CorrectIsNew | connections/game.js:89-91 | a correct guess names a category not yet solved |
| ConnectionsGame.SubmitInv | connections/game.js:76-148 | a submission keeps the solved categories distinct and from the puzzle, and mistakes within 0..4 |
| ConnectionsGame.CompleteMeansAllSolved | connections/validator.js:32-34 | the solved count never exceeds the categories, and equals it iff every category is solved |
| ConnectionsGame.SubmitNow | connections/game.js:76-147 | the page's submit pushes the category or spends a mistake at once, keeps the selection and leaves the clearing and ending to timers |
| ConnectionsGame.Fire | connections/game.js:101-146 | a timer changes only the selection and whether the game runs; the clear after a correct guess ends a game whose solved list has full length |
| ConnectionsGame.SubmitSettles | connections/game.js:76-147 | firing the timers at once gives exactly `SubmitGuess` |
| ConnectionsGame.DoubleSubmitWins | connections/game.js:89-116 | a correct guess submitted twice with two categories left repeats the category and ends the game won with a category unsolved |
| ConnectionsGame.DoubleMissOverspends | connections/game.js:119-147 | a wrong guess submitted twice with one mistake left leaves -1 mistakes |
| ConnectionsGame.EndGameOutcome | connections/game.js:231-249 | an ended game was lost with no mistakes left, or won with no category unsolved |

## Left out

- DOM rendering, CSS classes, SVG geometry, hit tests and modals. A hit test becomes an `Option` of the cell under the cursor, and a domino element becomes its selection record.
- Timers. Outside the two submission windows listed under Findings, every `setTimeout` transition is taken at once. Those two windows are modelled as written by `ConnectionsGame.SubmitNow` with `Fire`, and by `WordleGame.SubmitNow` with `FireReveal`.
- ConnectionsGame.SubmitGuess: clears the selection in the same step as the guess. That closes the 600 ms (correct) or 500 ms (wrong) window in which the page accepts the same four words again; `SubmitNow`, `DoubleSubmitWins` and `DoubleMissOverspends` model that window.
- ConnectionsGame.CorrectIsNew: holds for the states the corrected submit reaches. With the window open, a second submit names the category just solved.
- ConnectionsGame.SubmitInv: distinct solved names and 0..4 mistakes hold only with the window closed. The double submit as written repeats a category, or leaves -1 mistakes.
- ConnectionsGame.CompleteMeansAllSolved: with the window open, a solved list such as [A, B, C, C] has full length with D unsolved (`DoubleSubmitWins`).
- ConnectionsGame.EndGameOutcome: as written, a double submit reaches `endGame(true)` with a category still unsolved (`DoubleSubmitWins`).
- WordleGame.RevealOutcome: "the next row" holds with the reveal window closed. Enter pressed again during the 1.2 s reveal skips a row (`DoubleEnterSkipsRow`).
- `fetch` and async loading. Only the text-to-list parsing is modelled; the file text is a parameter.
- Upper and lower case are ASCII only. JavaScript's full Unicode case mapping is not modelled.
- String lengths: JavaScript's `.length` counts UTF-16 code units, while `|s|` counts characters. They agree on the ASCII word lists; a character outside the Basic Multilingual Plane counts twice in the code and once here.
- Rank thresholds are hundredths (0, 15, 35, 55, 75) compared by cross-multiplication instead of floats. The progress-bar width is not modelled.
- BeeGame.SubmitWord: appends the found word without the in-place `foundWords.sort()` of `updateFoundWords`. No rule reads the order.
- BeePuzzle.TryCombos: the `maxScore > 0` test is kept, though it always holds once a valid word exists.
- The Spelling Bee honeycomb's random letter order and `shuffleLetters` are display only.
- ConnectionsLogic.GetRandomPuzzleByDifficulty: the endless self-call when 'medium' is missing or empty is modelled as `None`.
- ConnectionsLogic.CountByDifficulty: the `TypeError` from a missing key is modelled as `None`.
- WordleGame.HintClick: uses the corrected `GetHint`, so with every target letter revealed the message names the first target letter at position 1. The page as written shows `undefined` for both, because `getHint` then returns a bare letter; `GetHintAsWritten` and `HintAllRevealed` model that.
- ConnectionsLogic.Lookup: the library holds only its own keys. A difficulty naming a property every JavaScript object inherits (`constructor`, `toString`) finds nothing here, where the code reads the inherited value.
- ConnectionsLogic.GetPuzzlesByDifficulty: for such an inherited name the code returns that value (a function), not `[]`; the model returns `[]`.
- ConnectionsGame.InitInv: takes as a hypothesis that the drawn puzzle's category names are distinct and no word sits in two categories. The data file, connections/connect-4.js, is not part of this model.
- wordle/on-screen-keyboard.js builds DOM only. Its keys reach `HandleKey` as strings.
- WordleGame.Reveal: states only that the list and target stay; RevealOutcome states the row progression.
- The tiles `getHint` reads from the DOM are a parameter (the filled letters).
- PipsGame.StartNewGame: the easy level starts on the corrected predefined puzzle, `PredefinedEasy`, not on the one the code lists. Play on the listed puzzle is described by `AsWrittenNeverComplete`, `AfterMovesInv` and `DropCompletesAsWritten`.
- PipsGame.StartNewGame: the predefined table holds only its own keys. For a level named after an inherited property such as `constructor`, the code reads that property (the `Object` function, of length 1) and installs `undefined` as the puzzle; the model generates a puzzle instead.
- PipsGenerator.GetDifficultyConfig: the settings table holds only its own keys. A level named after an inherited property (`constructor`, `toString`, `__proto__`) gets that truthy value in the code, and `createGrid` then throws on its missing `gridSize`; the model gives such a level the easy settings. The page's buttons only ever pass easy, medium and hard.
- PipsGame.CheckSolutionByRegions: the board check validates the 'zero' rule as documented (only 0-pip halves). The code as written accepts any values there; see `ValidateRegionAsWritten` and `ZeroRuleUnchecked`.
- PipsGame.RotateSelected: the `TypeError` thrown for a selection the tray no longer holds is modelled as no change.
- PipsGame: the `cell.region` field written during region creation and the unused `regionCount` are not modelled.
- The orientation of the selected element is part of the selection record.
- `getAllDominoes` is not a separate member. Sequences are values, so the set itself serves as the copy.
- Strands `hint()` only highlights a cell and is not modelled.
- Strands `finalizeWord` is modelled only as the found-set update; its colouring and line drawing are display.
- The static `data.grid` fallback of `setupLevel` is not modelled.
- StrandsLayout.GenerateGridFromWords: the 40-attempt loop is modelled, but the contract does not say which attempt succeeds.

## Findings

| source | as written | input that shows it | evidently intended | confidence | as-written member | corrected member |
|---|---|---|---|---|---|---|
| pips/puzzle-generator.js:155-177 | The predefined easy puzzle has 4+3+4+4 = 15 region cells, (0,3) among them. Its solution never covers (0,3), and it names domino '5-4', which `generateFullSet` never creates. | the 'easy' difficulty: 15 cells cannot be covered by two-cell dominoes, so `isPuzzleComplete` never holds while every placement is guarded; only the unguarded drop reaches 15 occupied cells, by laying a domino over a placed one | an even region-cell count whose solution covers every cell with dominoes of the set | high (not executed) | PipsGenerator.PredefinedEasyAsWritten, PipsGame.AsWrittenNeverComplete, PipsGame.DropCompletesAsWritten | PipsGenerator.PredefinedEasy, PipsGenerator.PredefinedEasyEven, PipsGenerator.PredefinedEasyCovered, PipsGenerator.PredefinedEasyDominoes |
| pips/game.js:139-143 | The drop handler calls `placeDomino` without the `canPlaceDomino` guard the click handler uses. | selected '1-1' horizontal, dropped on (0,1) after '6-6' was placed on (0,0)–(0,1) | drop placement guarded like click placement | high (not executed) | PipsGame.DropAsWritten, PipsGame.DropAsWrittenOverlaps | PipsGame.Drop |
| pips/game.js:380-399 | `validateRegion` has no 'zero' case, so the default branch accepts any values. | a zero region on (2,1),(2,2) holding two sixes | a zero region holds only 0-pip halves, as its factory's doc comment says (pips/board-shapes.js:33-34) | medium (not executed) | PipsRegions.ValidateRegionAsWritten, PipsRegions.ZeroRuleUnchecked | PipsRegions.ValidateRegion |
| connections/game.js:76-116 | `submitGuess` tests only the selection length and `gameActive`. A correct guess pushes its category at once, but `selectedWords` is emptied and Submit disabled only in a 600 ms timeout; a wrong guess deselects only after 500 ms. | A and B solved, then C's four words submitted twice within 600 ms: `solvedCategories` is [A, B, C, C], `isGameComplete` compares lengths only, and `endGame(true)` runs with D unsolved. A wrong guess submitted twice with one mistake left ends at -1. | one submission per selection: the selection cleared, or Submit disabled, as the guess is handled | high (not executed) | ConnectionsGame.SubmitNow, ConnectionsGame.DoubleSubmitWins, ConnectionsGame.DoubleMissOverspends | ConnectionsGame.SubmitGuess, ConnectionsGame.SubmitSettles, ConnectionsGame.SubmitInv, ConnectionsGame.CompleteMeansAllSolved |
| wordle/selection.js:67-136 | `revealGuess` leaves `currentGuess` and `gameOver` alone until its 1.2 s timer, so Enter in that window reveals the same guess again, and both timers advance `currentRow`. | a wrong listed guess on the first row, Enter pressed twice: the next guess goes on the third row; on the fifth row the game ends lost after five guesses | one reveal per guess, moving on one row | high (not executed) | WordleGame.SubmitNow, WordleGame.DoubleEnterSkipsRow | WordleGame.Submit, WordleGame.SubmitSettles, WordleGame.RevealOutcome |
| wordle/randomize.js:55-57 | When every target letter is revealed, `getHint` returns the bare string `targetWord[0]`, so the hint button shows `undefined` for both letter and position. | target CRANE with all five letters on filled tiles | a `{ letter, position }` hint for the first letter | high (not executed) | WordleGame.GetHintAsWritten, WordleGame.HintAllRevealed | WordleGame.GetHint |

=== FILE: bee_game.dfy ===
/** Spelling Bee play: the letter buffer, `submitWord` with its ordered rejections and
    point rule, the rank shown by `updateStats`, and the keyboard filter. */
module BeeGame {
  import opened Wrappers
  import opened Text
  import opened Random
  import opened BeePuzzle

  /** `currentWord`, `foundWords`, `score` and `currentRank` for the current puzzle. */
  datatype Bee = Bee(puzzle: Puzzle, current: string, found: seq<string>, score: int, rank: string)

  /** What a submission shows: one of the four rejections, or the points won. */
  datatype Outcome = TooShort | NoCenter | AlreadyFound | NotInList | Accepted(points: nat, pangram: bool)

  // ---------------------------------------------------------------- ranks

  /** A rank `{ name, threshold }`, the threshold in hundredths of the maximum score. */
  datatype Rank = Rank(name: string, percent: nat)

  function Ranks(): seq<Rank>
  {
    [Rank("Beginner", 0), Rank("Good", 15), Rank("Great", 35), Rank("Amazing", 55), Rank("Genius", 75)]
  }

  /** `score / maxScore >= threshold`, with the threshold a rational. A zero maximum
      gives Infinity for a positive score, which reaches every threshold, and NaN or
      -Infinity otherwise, which reach none. */
  predicate Reaches(score: int, maxScore: nat, percent: nat)
  {
    if maxScore > 0 then 100 * score >= percent * maxScore else score > 0
  }

  /** The loop from the last rank down: the first index at or below i whose threshold
      the score reaches. */
  function RankScan(score: int, maxScore: nat, i: int): (r: Option<nat>)
    requires i < |Ranks()|
    ensures r.Some? ==> r.value <= i && Reaches(score, maxScore, Ranks()[r.value].percent)
    ensures r.Some? ==> forall m :: r.value < m <= i ==> !Reaches(score, maxScore, Ranks()[m].percent)
    ensures r.None? <==> forall m :: 0 <= m <= i ==> !Reaches(score, maxScore, Ranks()[m].percent)
    decreases i + 1
  {
    if i < 0 then None
    else if Reaches(score, maxScore, Ranks()[i].percent) then Some(i)
    else RankScan(score, maxScore, i - 1)
  }

  /** The rank name `updateStats` leaves: the highest rank reached, or the previous name
      when none is. */
  function UpdateRank(score: int, maxScore: nat, previous: string): (name: string)
  {
    match RankScan(score, maxScore, |Ranks()| - 1)
    case Some(i) => Ranks()[i].name
    case None => previous
  }

  /** With a positive maximum, every score from 0 up reaches the 0 threshold, so a rank is
      always found; and a higher score never gets a lower rank. */
  lemma RankFacts(s1: int, s2: int, maxScore: nat)
    requires maxScore > 0 && 0 <= s1 <= s2
    ensures RankScan(s1, maxScore, 4).Some? && RankScan(s2, maxScore, 4).Some?
    ensures RankScan(s1, maxScore, 4).value <= RankScan(s2, maxScore, 4).value
  {
    assert Reaches(s1, maxScore, Ranks()[0].percent);
    var i1 := RankScan(s1, maxScore, 4).value;
    assert Reaches(s2, maxScore, Ranks()[i1].percent);
  }

  /** A full score reaches Genius; Beginner is what a score below 15 percent gets. */
  lemma RankEnds(score: int, maxScore: nat)
    requires maxScore > 0 && 0 <= score
    ensures score >= maxScore ==> UpdateRank(score, maxScore, "") == "Genius"
    ensures 100 * score < 15 * maxScore ==> UpdateRank(score, maxScore, "") == "Beginner"
  {
    RankFacts(score, score, maxScore);
  }

  /** A zero maximum: a positive score shows Genius and a zero score keeps the old name. */
  lemma RankZeroMaximum(score: int, previous: string)
    ensures score > 0 ==> UpdateRank(score, 0, previous) == "Genius"
    ensures score <= 0 ==> UpdateRank(score, 0, previous) == previous
  {
  }

  // ---------------------------------------------------------------- play

  /** `initGame` for a loaded puzzle: empty word, nothing found, score 0, and the rank
      `updateStats` computes for it. */
  function InitGame(p: Puzzle, previousRank: string): (g: Bee)
    ensures g.current == "" && g.found == [] && g.score == 0 && g.puzzle == p
  {
    Bee(p, "", [], 0, UpdateRank(0, p.maxScore, previousRank))
  }

  /** `addLetter`: the letter goes on the end of the word. */
  function AddLetter(g: Bee, letter: char): (r: Bee)
    ensures r.current == g.current + [letter]
    ensures r.found == g.found && r.score == g.score && r.puzzle == g.puzzle && r.rank == g.rank
  {
    g.(current := g.current + [letter])
  }

  /** `deleteLetter`: drops the last letter of a non-empty word. */
  function DeleteLetter(g: Bee): (r: Bee)
    ensures |g.current| == 0 ==> r == g
    ensures |g.current| > 0 ==> r.current + [g.current[|g.current| - 1]] == g.current
    ensures r.found == g.found && r.score == g.score && r.puzzle == g.puzzle && r.rank == g.rank
  {
    if |g.current| > 0 then g.(current := g.current[..|g.current| - 1]) else g
  }

  /** `submitWord`: too short, no centre letter, already found, not a valid word, each
      rejected in this order without any change; otherwise the word is found, scores its
      points, the input clears and the rank is refreshed. */
  function SubmitWord(g: Bee): (r: (Bee, Outcome))
    ensures !r.1.Accepted? ==> r.0 == g
    ensures r.1 == TooShort <==> |g.current| < 4
    ensures r.1 == NoCenter <==> |g.current| >= 4 && g.puzzle.center !in g.current
    ensures r.1 == AlreadyFound <==>
              |g.current| >= 4 && g.puzzle.center in g.current && g.current in g.found
    ensures r.1.Accepted? ==>
              && r.0.found == g.found + [g.current]
              && r.0.score == g.score + r.1.points
              && r.1.points == Points(g.current, g.puzzle.pangrams)
              && r.1.pangram == (g.current in g.puzzle.pangrams)
              && r.0.current == "" && r.0.puzzle == g.puzzle
    ensures r.1.Accepted? ==> r.0.rank == UpdateRank(r.0.score, g.puzzle.maxScore, g.rank)
  {
    var w := g.current;
    if |w| < 4 then (g, TooShort)
    else if g.puzzle.center !in w then (g, NoCenter)
    else if w in g.found then (g, AlreadyFound)
    else if w !in g.puzzle.validWords then (g, NotInList)
    else
      var points := (if |w| == 4 then 1 else |w|) + (if w in g.puzzle.pangrams then 7 else 0);
      var score := g.score + points;
      (g.(found := g.found + [w], score := score, current := "",
          rank := UpdateRank(score, g.puzzle.maxScore, g.rank)),
       Accepted(points, w in g.puzzle.pangrams))
  }

  /** A puzzle as `getRandomPuzzle` builds it: every valid word passes the filter, the
      pangrams are valid words, and the maximum is the sum of the valid words' points. */
  predicate Derived(p: Puzzle)
  {
    && (forall w :: w in p.validWords ==> |w| >= 4 && p.center in w)
    && (forall w :: w in p.pangrams ==> w in p.validWords)
    && p.maxScore == SumPoints(p.validWords, p.pangrams)
  }

  lemma MadeIsDerived(c: Combo, words: seq<string>)
    ensures Derived(MakePuzzle(c, words))
  {
  }

  /** On a derived puzzle a word is accepted exactly when it is a valid word not yet
      found. */
  lemma AcceptsExactly(g: Bee)
    requires Derived(g.puzzle)
    ensures SubmitWord(g).1.Accepted? <==> g.current in g.puzzle.validWords && g.current !in g.found
  {
  }

  /** `handleKeyPress`: Enter submits, Backspace deletes, a key that is one of the
      puzzle's seven letters (after upper-casing) is typed, and any other key does
      nothing. */
  function HandleKey(g: Bee, key: string): (r: Bee)
    ensures ToUpper(key) == "ENTER" ==> r == SubmitWord(g).0
    ensures ToUpper(key) == "BACKSPACE" ==> r == DeleteLetter(g)
    ensures |key| == 1 && ToUpper(key)[0] in g.puzzle.allLetters ==> r == AddLetter(g, ToUpper(key)[0])
    ensures (ToUpper(key) != "ENTER" && ToUpper(key) != "BACKSPACE"
             && !(|key| == 1 && ToUpper(key)[0] in g.puzzle.allLetters)) ==> r == g
    ensures r.current != g.current && ToUpper(key) != "ENTER" && ToUpper(key) != "BACKSPACE" ==>
              |key| == 1 && r.current == g.current + ToUpper(key) && ToUpper(key)[0] in g.puzzle.allLetters
  {
    var k := ToUpper(key);
    if k == "ENTER" then SubmitWord(g).0
    else if k == "BACKSPACE" then DeleteLetter(g)
    else if |k| == 1 && k[0] in g.puzzle.allLetters then AddLetter(g, k[0])
    else g
  }

  // ---------------------------------------------------------------- the score bound

  /** No word is found twice, only valid words are found, and the score is the sum of the
      found words' points. */
  predicate Inv(g: Bee)
  {
    && Derived(g.puzzle)
    && NoDuplicates(g.found)
    && (forall w :: w in g.found ==> w in g.puzzle.validWords)
    && g.score == SumPoints(g.found, g.puzzle.pangrams)
  }

  /** A new game starts valid, and as Beginner on any puzzle with a positive maximum. */
  lemma InitInv(p: Puzzle, previousRank: string)
    requires Derived(p)
    ensures Inv(InitGame(p, previousRank))
    ensures p.maxScore > 0 ==> InitGame(p, previousRank).rank == "Beginner"
  {
    if p.maxScore > 0 {
      RankEnds(0, p.maxScore);
    }
  }

  lemma SubmitInv(g: Bee)
    requires Inv(g)
    ensures Inv(SubmitWord(g).0)
  {
    var r := SubmitWord(g);
    if r.1.Accepted? {
      var w := g.current;
      SumPointsAppend(g.found, [w], g.puzzle.pangrams);
      assert NoDuplicates(g.found + [w]) by {
        forall i, j | 0 <= i < j < |g.found| + 1
          ensures (g.found + [w])[i] != (g.found + [w])[j]
        {
          if j == |g.found| {
            assert (g.found + [w])[i] == g.found[i] && g.found[i] in g.found;
          }
        }
      }
    }
  }

  lemma HandleKeyInv(g: Bee, key: string)
    requires Inv(g)
    ensures Inv(HandleKey(g, key))
  {
    var k := ToUpper(key);
    if k == "ENTER" {
      SubmitInv(g);
    } else if k == "BACKSPACE" {
      assert HandleKey(g, key) == DeleteLetter(g);
    } else {
      assert HandleKey(g, key).found == g.found && HandleKey(g, key).score == g.score;
    }
  }

  /** Removing one occurrence of x splits off exactly x's points. */
  lemma SumPointsRemove(v: seq<string>, i: nat, pangrams: seq<string>)
    requires i < |v|
    ensures SumPoints(v, pangrams) == Points(v[i], pangrams) + SumPoints(v[..i] + v[i + 1..], pangrams)
  {
    assert v == v[..i] + ([v[i]] + v[i + 1..]);
    SumPointsAppend(v[..i], [v[i]] + v[i + 1..], pangrams);
    SumPointsAppend([v[i]], v[i + 1..], pangrams);
    SumPointsAppend(v[..i], v[i + 1..], pangrams);
  }

  /** Distinct words drawn from a list score no more than the whole list. */
  lemma {:induction false} SumPointsSub(f: seq<string>, v: seq<string>, pangrams: seq<string>)
    requires NoDuplicates(f) && forall w :: w in f ==> w in v
    ensures SumPoints(f, pangrams) <= SumPoints(v, pangrams)
    decreases |f|
  {
    if |f| > 0 {
      var x := f[0];
      assert x in f;
      var i :| 0 <= i < |v| && v[i] == x;
      var v' := v[..i] + v[i + 1..];
      SumPointsRemove(v, i, pangrams);
      forall w | w in f[1..]
        ensures w in v'
      {
        var j :| 0 <= j < |f[1..]| && f[1..][j] == w;
        assert f[j + 1] == w && w != x;
        assert w in v;
        var m :| 0 <= m < |v| && v[m] == w;
        if m < i {
          assert v'[m] == w;
        } else {
          assert v'[m - 1] == w;
        }
      }
      assert NoDuplicates(f[1..]) by {
        forall a, b | 0 <= a < b < |f[1..]| ensures f[1..][a] != f[1..][b] {
          assert f[1..][a] == f[a + 1] && f[1..][b] == f[b + 1];
        }
      }
      SumPointsSub(f[1..], v', pangrams);
    }
  }

  /** The score never passes the maximum score. */
  lemma ScoreBounded(g: Bee)
    requires Inv(g)
    ensures 0 <= g.score <= g.puzzle.maxScore
  {
    SumPointsSub(g.found, g.puzzle.validWords, g.puzzle.pangrams);
  }

  /** Finding every valid word of a list without repeats reaches the maximum exactly. */
  lemma AllFoundScoresMax(g: Bee)
    requires Inv(g) && g.found == g.puzzle.validWords
    ensures g.score == g.puzzle.maxScore
  {
  }
}

=== FILE: bee_puzzle.dfy ===
/** Spelling Bee puzzles: the known letter combinations, the parsed word list, and
    `getRandomPuzzle`, which derives a combination's valid words, pangrams and maximum
    score. */
module BeePuzzle {
  import opened Wrappers
  import opened Text
  import opened Random

  /** A combination `{ center, outer }`. */
  datatype Combo = Combo(center: char, outer: seq<char>)

  /** A puzzle `{ center, outer, allLetters, validWords, pangrams, maxScore }`. */
  datatype Puzzle = Puzzle(center: char, outer: seq<char>, allLetters: seq<char>,
                           validWords: seq<string>, pangrams: seq<string>, maxScore: nat)

  /** `KNOWN_GOOD_COMBOS`. */
  function KnownGoodCombos(): seq<Combo>
  {
    [ Combo('E', ['A', 'R', 'T', 'I', 'N', 'S']),
      Combo('A', ['R', 'E', 'T', 'I', 'N', 'S']),
      Combo('I', ['N', 'G', 'T', 'E', 'R', 'S']),
      Combo('O', ['R', 'T', 'N', 'E', 'S', 'A']),
      Combo('R', ['E', 'A', 'T', 'I', 'N', 'S']),
      Combo('T', ['E', 'R', 'A', 'I', 'N', 'S']),
      Combo('N', ['E', 'R', 'T', 'I', 'A', 'S']),
      Combo('S', ['E', 'R', 'T', 'I', 'A', 'N']),
      Combo('L', ['E', 'A', 'R', 'T', 'I', 'N']),
      Combo('D', ['E', 'A', 'R', 'I', 'N', 'T']),
      Combo('C', ['A', 'R', 'E', 'T', 'I', 'N']),
      Combo('G', ['R', 'E', 'A', 'I', 'N', 'T']),
      Combo('P', ['A', 'R', 'E', 'T', 'I', 'N']),
      Combo('M', ['A', 'R', 'E', 'T', 'I', 'N']),
      Combo('B', ['A', 'R', 'E', 'I', 'N', 'T']),
      Combo('H', ['E', 'A', 'R', 'T', 'I', 'N']),
      Combo('F', ['A', 'R', 'E', 'T', 'I', 'N']),
      Combo('W', ['A', 'R', 'E', 'I', 'N', 'T']),
      Combo('Y', ['E', 'A', 'R', 'I', 'T', 'N']),
      Combo('V', ['E', 'A', 'R', 'I', 'T', 'N']) ]
  }

  /** `[center, ...outer]`. */
  function AllLetters(c: Combo): seq<char>
  {
    [c.center] + c.outer
  }

  /** Seven different upper-case letters. */
  predicate Seven(c: Combo)
  {
    && |c.outer| == 6
    && (forall i :: 0 <= i < 6 ==> IsUpperLetter(c.outer[i]) && c.outer[i] != c.center)
    && (forall i, j :: 0 <= i < j < 6 ==> c.outer[i] != c.outer[j])
    && IsUpperLetter(c.center)
  }

  lemma CombosSeven0()
    ensures Seven(KnownGoodCombos()[0]) && Seven(KnownGoodCombos()[1])
  {
  }

  lemma CombosSeven1()
    ensures Seven(KnownGoodCombos()[2]) && Seven(KnownGoodCombos()[3])
  {
  }

  lemma CombosSeven2()
    ensures Seven(KnownGoodCombos()[4]) && Seven(KnownGoodCombos()[5])
  {
  }

  lemma CombosSeven3()
    ensures Seven(KnownGoodCombos()[6]) && Seven(KnownGoodCombos()[7])
  {
  }

  lemma CombosSeven4()
    ensures Seven(KnownGoodCombos()[8]) && Seven(KnownGoodCombos()[9])
  {
  }

  lemma CombosSeven5()
    ensures Seven(KnownGoodCombos()[10]) && Seven(KnownGoodCombos()[11])
  {
  }

  lemma CombosSeven6()
    ensures Seven(KnownGoodCombos()[12]) && Seven(KnownGoodCombos()[13])
  {
  }

  lemma CombosSeven7()
    ensures Seven(KnownGoodCombos()[14]) && Seven(KnownGoodCombos()[15])
  {
  }

  lemma CombosSeven8()
    ensures Seven(KnownGoodCombos()[16]) && Seven(KnownGoodCombos()[17])
  {
  }

  lemma CombosSeven9()
    ensures Seven(KnownGoodCombos()[18]) && Seven(KnownGoodCombos()[19])
  {
  }

  /** Every known combination has seven different upper-case letters. */
  lemma KnownCombosSeven()
    ensures |KnownGoodCombos()| == 20
    ensures forall c :: c in KnownGoodCombos() ==> Seven(c)
  {
    CombosSeven0();
    CombosSeven1();
    CombosSeven2();
    CombosSeven3();
    CombosSeven4();
    CombosSeven5();
    CombosSeven6();
    CombosSeven7();
    CombosSeven8();
    CombosSeven9();
    forall c | c in KnownGoodCombos() ensures Seven(c) {
      var i :| 0 <= i < 20 && KnownGoodCombos()[i] == c;
    }
  }

  // ---------------------------------------------------------------- the word list

  /** `wordsText.trim().split('\n').map(w => w.toUpperCase())`: the lines of the trimmed
      text, upper-cased but not trimmed one by one. */
  function ParseWords(text: string): (words: seq<string>)
    ensures |words| == |Split(Trim(text), '\n')|
    ensures forall i :: 0 <= i < |words| ==> words[i] == ToUpper(Split(Trim(text), '\n')[i])
  {
    var lines := Split(Trim(text), '\n');
    seq(|lines|, i requires 0 <= i < |lines| => ToUpper(lines[i]))
  }

  /** Joining the parsed words with line breaks gives back the trimmed text, upper-cased. */
  lemma ParseWordsJoin(text: string)
    ensures Join(ParseWords(text), '\n') == ToUpper(Trim(text))
  {
    JoinUpper(Split(Trim(text), '\n'), ParseWords(text));
  }

  lemma {:induction false} JoinUpper(lines: seq<string>, upper: seq<string>)
    requires |upper| == |lines| && forall i :: 0 <= i < |lines| ==> upper[i] == ToUpper(lines[i])
    ensures Join(upper, '\n') == ToUpper(Join(lines, '\n'))
  {
    if |lines| > 1 {
      JoinUpper(lines[1..], upper[1..]);
      var a, b := lines[0] + ['\n'], Join(lines[1..], '\n');
      assert ToUpper(a + b) == ToUpper(a) + ToUpper(b);
      assert ToUpper(lines[0] + ['\n']) == ToUpper(lines[0]) + ['\n'];
    }
  }

  // ---------------------------------------------------------------- deriving a puzzle

  /** The filter of `getRandomPuzzle`: four letters or more, the centre letter among
      them, and only the combination's letters. */
  predicate ValidFor(c: Combo, w: string)
  {
    |w| >= 4 && c.center in w && forall x :: x in w ==> x in AllLetters(c)
  }

  function ValidWords(c: Combo, words: seq<string>): (r: seq<string>)
    ensures |r| <= |words|
    ensures forall w :: w in r <==> w in words && ValidFor(c, w)
  {
    if |words| == 0 then []
    else (if ValidFor(c, words[0]) then [words[0]] else []) + ValidWords(c, words[1..])
  }

  /** The filter keeps order: the valid words of a concatenation are the valid words of
      each part, one after the other. */
  lemma {:induction false} ValidWordsAppend(c: Combo, a: seq<string>, b: seq<string>)
    ensures ValidWords(c, a + b) == ValidWords(c, a) + ValidWords(c, b)
  {
    if |a| > 0 {
      ValidWordsAppend(c, a[1..], b);
      assert (a + b)[1..] == a[1..] + b;
    } else {
      assert a + b == b;
    }
  }

  /** A word with seven different letters. */
  predicate IsPangram(w: string)
  {
    |Elems(w)| == 7
  }

  function Pangrams(valid: seq<string>): (r: seq<string>)
    ensures |r| <= |valid|
    ensures forall w :: w in r <==> w in valid && IsPangram(w)
  {
    if |valid| == 0 then []
    else (if IsPangram(valid[0]) then [valid[0]] else []) + Pangrams(valid[1..])
  }

  /** For a combination of seven different letters, a valid word is a pangram exactly
      when it uses every one of them. */
  lemma PangramUsesAll(c: Combo, w: string)
    requires Seven(c) && ValidFor(c, w)
    ensures IsPangram(w) <==> forall x :: x in AllLetters(c) ==> x in w
  {
    var all := Elems(AllLetters(c));
    assert NoDuplicates(AllLetters(c)) by {
      forall i, j | 0 <= i < j < 7 ensures AllLetters(c)[i] != AllLetters(c)[j] {
        if i > 0 {
          assert AllLetters(c)[i] == c.outer[i - 1];
        }
        assert AllLetters(c)[j] == c.outer[j - 1];
      }
    }
    ElemsCard(AllLetters(c));
    assert Elems(w) <= all;
    SubsetCard(Elems(w), all);
    assert |all| == 7;
    if forall x :: x in AllLetters(c) ==> x in w {
      assert all <= Elems(w);
      assert Elems(w) == all;
    }
    if IsPangram(w) {
      assert Elems(w) == all;
      forall x | x in AllLetters(c) ensures x in w {
        assert x in all;
      }
    }
  }

  /** The points of a word: 1 for four letters, else its length, plus 7 for a pangram. */
  function Points(w: string, pangrams: seq<string>): (p: nat)
    ensures |w| >= 4 ==> p >= 1
    ensures p == (if |w| == 4 then 1 else |w|) + (if w in pangrams then 7 else 0)
  {
    (if |w| == 4 then 1 else |w|) + (if w in pangrams then 7 else 0)
  }

  /** The points of all the words of a list. */
  function SumPoints(ws: seq<string>, pangrams: seq<string>): nat
  {
    if |ws| == 0 then 0 else Points(ws[0], pangrams) + SumPoints(ws[1..], pangrams)
  }

  lemma {:induction false} SumPointsAppend(a: seq<string>, b: seq<string>, pangrams: seq<string>)
    ensures SumPoints(a + b, pangrams) == SumPoints(a, pangrams) + SumPoints(b, pangrams)
  {
    if |a| > 0 {
      SumPointsAppend(a[1..], b, pangrams);
      assert (a + b)[1..] == a[1..] + b;
    } else {
      assert a + b == b;
    }
  }

  /** A list of words of four letters or more scores at least one point a word. */
  lemma {:induction false} SumPointsAtLeast(ws: seq<string>, pangrams: seq<string>)
    requires forall w :: w in ws ==> |w| >= 4
    ensures SumPoints(ws, pangrams) >= |ws|
  {
    if |ws| > 0 {
      assert forall w :: w in ws[1..] ==> w in ws;
      SumPointsAtLeast(ws[1..], pangrams);
    }
  }

  /** The puzzle a combination gives: its letters, valid words, pangrams and the sum of
      every valid word's points. */
  function MakePuzzle(c: Combo, words: seq<string>): (p: Puzzle)
    ensures p.center == c.center && p.outer == c.outer && p.allLetters == [c.center] + c.outer
    ensures forall w :: w in p.validWords <==> w in words && ValidFor(c, w)
    ensures forall w :: w in p.pangrams <==> w in p.validWords && IsPangram(w)
    ensures p.maxScore == SumPoints(p.validWords, p.pangrams)
    ensures p.maxScore >= |p.validWords|
  {
    var valid := ValidWords(c, words);
    var pangrams := Pangrams(valid);
    SumPointsAtLeast(valid, pangrams);
    Puzzle(c.center, c.outer, AllLetters(c), valid, pangrams, SumPoints(valid, pangrams))
  }

  /** The combination of the j-th draw has no valid word. */
  predicate Barren(combos: seq<Combo>, words: seq<string>, rand: Oracle, j: nat)
    requires |combos| > 0
  {
    ValidWords(combos[Draw(rand, j, |combos|)], words) == []
  }

  /** The attempts `attempt`, ..., 99 of the loop, drawing a combination each time. */
  function TryCombos(combos: seq<Combo>, words: seq<string>, rand: Oracle, k: nat, attempt: nat)
    : (r: (Option<Puzzle>, nat))
    requires |combos| > 0
    ensures r.0.Some? ==> exists c :: c in combos && r.0.value == MakePuzzle(c, words)
    ensures r.0.Some? ==> |r.0.value.validWords| > 0 && r.0.value.maxScore > 0
    ensures r.0.None? ==> forall j :: k <= j < k + (100 - attempt) ==> Barren(combos, words, rand, j)
    decreases 100 - attempt
  {
    if attempt >= 100 then (None, k)
    else
      var c := combos[Draw(rand, k, |combos|)];
      var p := MakePuzzle(c, words);
      // The `maxScore > 0` test always passes here: each valid word scores at least 1.
      if |p.validWords| == 0 then TryCombos(combos, words, rand, k + 1, attempt + 1)
      else (Some(p), k + 1)
  }

  /** `getRandomPuzzle`: null without combinations, else the first of up to 100 drawn
      combinations that has a valid word; null if none of them has. */
  function GetRandomPuzzle(combos: seq<Combo>, words: seq<string>, rand: Oracle, k: nat)
    : (r: (Option<Puzzle>, nat))
    ensures |combos| == 0 ==> r.0.None?
    ensures r.0.Some? ==> exists c :: c in combos && r.0.value == MakePuzzle(c, words)
    ensures r.0.Some? ==> |r.0.value.validWords| > 0 && r.0.value.maxScore > 0
    ensures |combos| > 0 && r.0.None? ==> forall j :: k <= j < k + 100 ==> Barren(combos, words, rand, j)
  {
    if |combos| == 0 then (None, k) else TryCombos(combos, words, rand, k, 0)
  }

  /** When every combination has a valid word, the first draw succeeds. */
  lemma PuzzleFound(combos: seq<Combo>, words: seq<string>, rand: Oracle, k: nat)
    requires |combos| > 0 && forall c :: c in combos ==> exists w :: w in words && ValidFor(c, w)
    ensures GetRandomPuzzle(combos, words, rand, k).0.Some?
  {
    var c := combos[Draw(rand, k, |combos|)];
    assert c in combos;
    var w :| w in words && ValidFor(c, w);
    assert w in ValidWords(c, words);
  }
}

=== FILE: connections_game.dfy ===
/** The Connections game state and its handlers (`initGame`, `selectWord`, `submitGuess`
    with its correct and incorrect branches, `shuffleWords`, `deselectAll`, `endGame`).
    The delayed effects of the handlers take place at once; the window a submission
    leaves open before its timers fire is modelled as written at the end of the module. */
module ConnectionsGame {
  import opened Wrappers
  import opened Text
  import opened Random
  import opened ConnectionsLogic

  const StartingMistakes: nat := 4
  const GroupSize: nat := 4

  /** The module-level state of the page. */
  datatype ConnGame = ConnGame(puzzle: ConnPuzzle, selected: seq<string>, solved: seq<Category>,
                               mistakes: int, active: bool, shuffled: seq<WordCard>, difficulty: string)

  function Names(cats: seq<Category>): (r: seq<string>)
    ensures |r| == |cats| && forall i :: 0 <= i < |cats| ==> r[i] == cats[i].name
  {
    seq(|cats|, i requires 0 <= i < |cats| => cats[i].name)
  }

  /** `solvedCategories.some(cat => cat.name === name)`. */
  predicate IsSolved(solved: seq<Category>, name: string)
  {
    name in Names(solved)
  }

  /** The cards still on the grid: those whose category is not solved. */
  function AvailableCards(cards: seq<WordCard>, solved: seq<Category>): (r: seq<WordCard>)
    ensures |r| <= |cards|
    ensures forall e :: e in r <==> e in cards && !IsSolved(solved, e.category)
  {
    if |cards| == 0 then []
    else if IsSolved(solved, cards[0].category) then AvailableCards(cards[1..], solved)
    else [cards[0]] + AvailableCards(cards[1..], solved)
  }

  /** The categories of the puzzle not yet solved, shown when the game is lost. */
  function Unsolved(cats: seq<Category>, solved: seq<Category>): (r: seq<Category>)
    ensures |r| <= |cats|
    ensures forall c :: c in r <==> c in cats && !IsSolved(solved, c.name)
  {
    if |cats| == 0 then []
    else if IsSolved(solved, cats[0].name) then Unsolved(cats[1..], solved)
    else [cats[0]] + Unsolved(cats[1..], solved)
  }

  /** Both filters keep the order of what they keep: filtering a concatenation filters
      each part in place. */
  lemma {:induction false} AvailableCardsAppend(a: seq<WordCard>, b: seq<WordCard>, solved: seq<Category>)
    ensures AvailableCards(a + b, solved) == AvailableCards(a, solved) + AvailableCards(b, solved)
  {
    if |a| > 0 {
      assert (a + b)[0] == a[0] && (a + b)[1..] == a[1..] + b;
      AvailableCardsAppend(a[1..], b, solved);
    } else {
      assert a + b == b;
    }
  }

  lemma {:induction false} UnsolvedAppend(a: seq<Category>, b: seq<Category>, solved: seq<Category>)
    ensures Unsolved(a + b, solved) == Unsolved(a, solved) + Unsolved(b, solved)
  {
    if |a| > 0 {
      assert (a + b)[0] == a[0] && (a + b)[1..] == a[1..] + b;
      UnsolvedAppend(a[1..], b, solved);
    } else {
      assert a + b == b;
    }
  }

  /** `initGame`: a drawn puzzle of the difficulty and a fresh state; None when the
      puzzle lookup does not end. */
  function InitGame(lib: seq<Shelf>, difficulty: string, rand: Oracle, k: nat): (r: (Option<ConnGame>, nat))
    ensures r.0.Some? ==> var g := r.0.value;
      g.selected == [] && g.solved == [] && g.mistakes == StartingMistakes && g.active
      && g.difficulty == difficulty && multiset(g.shuffled) == multiset(AllCards(g.puzzle.categories))
    ensures r.0.Some? <==> GetRandomPuzzleByDifficulty(lib, difficulty, rand, k).0.Some?
    ensures r.0.Some? ==> r.0.value.puzzle == GetRandomPuzzleByDifficulty(lib, difficulty, rand, k).0.value
  {
    var (p, k1) := GetRandomPuzzleByDifficulty(lib, difficulty, rand, k);
    match p
    case None => (None, k1)
    case Some(puzzle) =>
      var cards := GetShuffledWords(puzzle, rand, k1);
      (Some(ConnGame(puzzle, [], [], StartingMistakes, true, cards, difficulty)),
       k1 + ShuffleDraws(|AllCards(puzzle.categories)|))
  }

  /** `selectedWords.filter(w => w !== word)`. */
  function Remove(s: seq<string>, w: string): (r: seq<string>)
    ensures |r| <= |s| && multiset(r) <= multiset(s)
    ensures forall x :: x in r <==> x in s && x != w
    ensures w in s ==> |r| < |s|
  {
    if |s| == 0 then []
    else
      assert s == [s[0]] + s[1..];
      if s[0] == w then Remove(s[1..], w)
      else [s[0]] + Remove(s[1..], w)
  }

  /** `selectWord`: nothing when the game is over; a selected word is deselected, and
      another is added while fewer than four are selected. */
  function SelectWord(g: ConnGame, w: string): (r: ConnGame)
    ensures r == g.(selected := r.selected)
    ensures !g.active ==> r == g
    ensures g.active && w in g.selected ==> w !in r.selected && |r.selected| < |g.selected|
    ensures g.active && w in g.selected ==> r.selected == Remove(g.selected, w)
    ensures g.active && w !in g.selected && |g.selected| < GroupSize ==> r.selected == g.selected + [w]
    ensures g.active && w !in g.selected && |g.selected| >= GroupSize ==> r == g
  {
    if !g.active then g
    else if w in g.selected then
      assert multiset(g.selected)[w] > 0;
      g.(selected := Remove(g.selected, w))
    else if |g.selected| < GroupSize then g.(selected := g.selected + [w])
    else g
  }

  /** A click on the i-th card of the grid. */
  function ClickCard(g: ConnGame, i: nat): (r: ConnGame)
    ensures var cards := AvailableCards(g.shuffled, g.solved);
      r == if i < |cards| then SelectWord(g, cards[i].word) else g
  {
    var cards := AvailableCards(g.shuffled, g.solved);
    if i < |cards| then SelectWord(g, cards[i].word) else g
  }

  /** `submitGuess`: only with four words selected in a running game. A correct guess
      solves its category and ends a complete game won; a wrong one costs a mistake and
      ends the game at zero. Either way the selection is cleared. */
  function SubmitGuess(g: ConnGame): (r: ConnGame)
    ensures |g.selected| != GroupSize || !g.active ==> r == g
    ensures |g.selected| == GroupSize && g.active ==>
      var v := ValidateGuess(g.selected, g.puzzle.categories);
      && r.selected == [] && r.puzzle == g.puzzle && r.shuffled == g.shuffled
      && (v.Correct? ==> (r.solved == g.solved + [v.category] && r.mistakes == g.mistakes
            && (r.active <==> !IsGameComplete(r.solved, |g.puzzle.categories|))))
      && (!v.Correct? ==> (r.solved == g.solved && r.mistakes == g.mistakes - 1
            && (r.active <==> r.mistakes != 0)))
  {
    if |g.selected| != GroupSize || !g.active then g
    else
      match ValidateGuess(g.selected, g.puzzle.categories)
      case Correct(c) =>
        var solved := g.solved + [c];
        g.(solved := solved, selected := [], active := !IsGameComplete(solved, |g.puzzle.categories|))
      case _ =>
        var m := g.mistakes - 1;
        g.(mistakes := m, selected := [], active := m != 0)
  }

  /** `shuffleWords`: the cards reordered while the game runs. */
  function ShuffleWords(g: ConnGame, rand: Oracle, k: nat): (r: (ConnGame, nat))
    ensures r.0 == g.(shuffled := r.0.shuffled)
    ensures multiset(r.0.shuffled) == multiset(g.shuffled)
    ensures !g.active ==> r.0 == g
  {
    if !g.active then (g, k)
    else (g.(shuffled := Shuffle(g.shuffled, rand, k)), k + ShuffleDraws(|g.shuffled|))
  }

  /** `deselectAll`. */
  function DeselectAll(g: ConnGame): (r: ConnGame)
    ensures r == g.(selected := [])
  {
    g.(selected := [])
  }

  // ---------------------------------------------------------------- the invariant

  /** The upper-cased word is one of the i-th category's words. */
  predicate WordOf(cats: seq<Category>, w: string, i: int)
  {
    0 <= i < |cats| && ToUpper(w) in Upper(cats[i].words)
  }

  /** Puzzle data as shipped: category names differ, and no word (ignoring case) belongs
      to two categories. */
  ghost predicate WellFormed(p: ConnPuzzle)
  {
    NoDuplicates(Names(p.categories))
    && forall w, i, j :: WordOf(p.categories, w, i) && WordOf(p.categories, w, j) ==> i == j
  }

  /** A word of a category still on the grid. */
  ghost predicate Open(g: ConnGame, w: string)
  {
    exists i :: 0 <= i < |g.puzzle.categories| && w in g.puzzle.categories[i].words
      && !IsSolved(g.solved, g.puzzle.categories[i].name)
  }

  ghost predicate Inv(g: ConnGame)
  {
    && WellFormed(g.puzzle)
    && multiset(g.shuffled) == multiset(AllCards(g.puzzle.categories))
    && NoDuplicates(g.selected) && |g.selected| <= GroupSize
    && (forall w :: w in g.selected ==> Open(g, w))
    && (forall c :: c in g.solved ==> c in g.puzzle.categories)
    && NoDuplicates(Names(g.solved))
    && 0 <= g.mistakes <= StartingMistakes
    && (g.active ==> g.mistakes > 0)
    && (!g.active ==> g.mistakes == 0 || IsGameComplete(g.solved, |g.puzzle.categories|))
  }

  lemma InitInv(lib: seq<Shelf>, difficulty: string, rand: Oracle, k: nat)
    requires var r := InitGame(lib, difficulty, rand, k); r.0.Some? ==> WellFormed(r.0.value.puzzle)
    ensures var r := InitGame(lib, difficulty, rand, k); r.0.Some? ==> Inv(r.0.value)
  {
  }

  lemma SelectInv(g: ConnGame, w: string)
    requires Inv(g) && Open(g, w)
    ensures Inv(SelectWord(g, w))
  {
    var r := SelectWord(g, w);
    if g.active && w in g.selected {
      NoDuplicatesSub(g.selected, r.selected);
    } else if g.active && w !in g.selected && |g.selected| < GroupSize {
      assert forall x :: x in r.selected ==> x in g.selected || x == w;
    }
  }

  /** A card on the grid carries a word of an unsolved category. */
  lemma CardIsOpen(g: ConnGame, i: nat)
    requires Inv(g) && i < |AvailableCards(g.shuffled, g.solved)|
    ensures Open(g, AvailableCards(g.shuffled, g.solved)[i].word)
  {
    var e := AvailableCards(g.shuffled, g.solved)[i];
    assert e in g.shuffled;
    assert multiset(g.shuffled)[e] > 0;
    assert e in AllCards(g.puzzle.categories);
    var j, a :| 0 <= j < |g.puzzle.categories| && 0 <= a < |g.puzzle.categories[j].words|
      && e == WordCard(g.puzzle.categories[j].words[a], g.puzzle.categories[j].name, g.puzzle.categories[j].difficulty);
    assert e.word in g.puzzle.categories[j].words;
  }

  lemma ClickInv(g: ConnGame, i: nat)
    requires Inv(g)
    ensures Inv(ClickCard(g, i))
  {
    var cards := AvailableCards(g.shuffled, g.solved);
    if i < |cards| {
      CardIsOpen(g, i);
      SelectInv(g, cards[i].word);
    }
  }

  /** A correct guess names a category that is not solved yet: its words are all
      selected, and selected words belong to unsolved categories. */
  lemma CorrectIsNew(g: ConnGame)
    requires Inv(g) && |g.selected| == GroupSize
    requires ValidateGuess(g.selected, g.puzzle.categories).Correct?
    ensures var c := ValidateGuess(g.selected, g.puzzle.categories).category;
      c in g.puzzle.categories && !IsSolved(g.solved, c.name)
  {
    var cats := g.puzzle.categories;
    var m :| 0 <= m < |cats| && Decisive(g.selected, cats[m])
      && (forall j :: 0 <= j < m ==> !Decisive(g.selected, cats[j]))
      && Matches(g.selected, cats[m]) == 4
      && ValidateGuess(g.selected, cats).category == cats[m];
    var w := g.selected[0];
    assert WordOf(cats, w, m);
    assert Open(g, w);
    var i :| 0 <= i < |cats| && w in cats[i].words && !IsSolved(g.solved, cats[i].name);
    assert ToUpper(w) in Upper(cats[i].words) by {
      var a :| 0 <= a < |cats[i].words| && cats[i].words[a] == w;
      assert Upper(cats[i].words)[a] == ToUpper(w);
    }
    assert WordOf(cats, w, i);
  }

  lemma {:induction false} NamesAppend(a: seq<Category>, c: Category)
    ensures Names(a + [c]) == Names(a) + [c.name]
  {
  }

  lemma SubmitInv(g: ConnGame)
    requires Inv(g)
    ensures Inv(SubmitGuess(g))
  {
    if |g.selected| == GroupSize && g.active {
      var v := ValidateGuess(g.selected, g.puzzle.categories);
      if v.Correct? {
        CorrectIsNew(g);
        NamesAppend(g.solved, v.category);
        var r := SubmitGuess(g);
        assert Names(r.solved) == Names(g.solved) + [v.category.name];
        assert v.category.name !in Names(g.solved);
        assert NoDuplicates(Names(r.solved)) by {
          forall i, j | 0 <= i < j < |Names(r.solved)|
            ensures Names(r.solved)[i] != Names(r.solved)[j]
          {
            if j == |Names(g.solved)| {
              assert Names(r.solved)[i] == Names(g.solved)[i];
            }
          }
        }
      }
    }
  }

  lemma ShuffleInv(g: ConnGame, rand: Oracle, k: nat)
    requires Inv(g)
    ensures Inv(ShuffleWords(g, rand, k).0)
  {
    var r := ShuffleWords(g, rand, k).0;
    assert forall w :: Open(g, w) ==> Open(r, w);
  }

  lemma DeselectInv(g: ConnGame)
    requires Inv(g)
    ensures Inv(DeselectAll(g))
  {
  }

  // ---------------------------------------------------------------- outcomes

  lemma {:induction false} SolvedNamesIn(g: ConnGame)
    requires Inv(g)
    ensures Elems(Names(g.solved)) <= Elems(Names(g.puzzle.categories))
  {
    forall n | n in Elems(Names(g.solved))
      ensures n in Elems(Names(g.puzzle.categories))
    {
      var i :| 0 <= i < |g.solved| && Names(g.solved)[i] == n;
      var c := g.solved[i];
      assert c in g.puzzle.categories;
      var j :| 0 <= j < |g.puzzle.categories| && g.puzzle.categories[j] == c;
      assert Names(g.puzzle.categories)[j] == n;
    }
  }

  /** No more categories are solved than the puzzle has, and the game is complete
      exactly when every category of the puzzle is solved. */
  lemma CompleteMeansAllSolved(g: ConnGame)
    requires Inv(g)
    ensures |g.solved| <= |g.puzzle.categories|
    ensures IsGameComplete(g.solved, |g.puzzle.categories|)
      <==> forall c :: c in g.puzzle.categories ==> IsSolved(g.solved, c.name)
  {
    var cats := g.puzzle.categories;
    SolvedNamesIn(g);
    ElemsCard(Names(g.solved));
    ElemsCard(Names(cats));
    SubsetCard(Elems(Names(g.solved)), Elems(Names(cats)));
    if forall c :: c in cats ==> IsSolved(g.solved, c.name) {
      assert Elems(Names(cats)) <= Elems(Names(g.solved)) by {
        forall n | n in Elems(Names(cats))
          ensures n in Elems(Names(g.solved))
        {
          var j :| 0 <= j < |cats| && Names(cats)[j] == n;
          assert cats[j] in cats;
        }
      }
      assert Elems(Names(cats)) == Elems(Names(g.solved));
    }
    if IsGameComplete(g.solved, |cats|) {
      forall c | c in cats
        ensures IsSolved(g.solved, c.name)
      {
        var j :| 0 <= j < |cats| && cats[j] == c;
        assert Names(cats)[j] in Elems(Names(cats));
      }
    }
  }

  lemma {:induction false} UnsolvedNone(cats: seq<Category>, solved: seq<Category>)
    requires forall c :: c in cats ==> IsSolved(solved, c.name)
    ensures Unsolved(cats, solved) == []
  {
    if |cats| > 0 {
      assert cats[0] in cats;
      UnsolvedNone(cats[1..], solved);
    }
  }

  /** The game stops exactly at a win or when the mistakes run out; a lost game shows
      the categories left unsolved, and a won game has none left. */
  lemma EndGameOutcome(g: ConnGame)
    requires Inv(g) && !g.active
    ensures g.mistakes == 0 || Unsolved(g.puzzle.categories, g.solved) == []
  {
    if g.mistakes != 0 {
      CompleteMeansAllSolved(g);
      UnsolvedNone(g.puzzle.categories, g.solved);
    }
  }

  // ---------------------------------------------------------------- the pending window, as written

  /** The timers a submission leaves behind: the 600 ms clear after a correct guess
      (which ends a complete game won), the 500 ms deselect after a wrong one, and the
      1000 ms `endGame(false)` scheduled when the mistakes reach exactly zero. */
  datatype Timer = ClearSolved | ClearMissed | EndLost

  /** `submitGuess` as written, before its timers fire: the category is pushed or a
      mistake spent at once, but `selectedWords` is emptied (and Submit disabled) only
      by a timer, so the same four words can be submitted again in the meantime. */
  function SubmitNow(g: ConnGame): (r: (ConnGame, seq<Timer>))
    ensures |g.selected| != GroupSize || !g.active ==> r == (g, [])
    ensures r.0.selected == g.selected && r.0.active == g.active
    ensures r.0.puzzle == g.puzzle && r.0.shuffled == g.shuffled
    ensures |g.selected| == GroupSize && g.active ==>
      var v := ValidateGuess(g.selected, g.puzzle.categories);
      && (v.Correct? ==> r.0.solved == g.solved + [v.category] && r.0.mistakes == g.mistakes
                         && r.1 == [ClearSolved])
      && (!v.Correct? ==> r.0.solved == g.solved && r.0.mistakes == g.mistakes - 1
                          && r.1 == [ClearMissed] + (if g.mistakes == 1 then [EndLost] else []))
  {
    if |g.selected| != GroupSize || !g.active then (g, [])
    else
      match ValidateGuess(g.selected, g.puzzle.categories)
      case Correct(c) => (g.(solved := g.solved + [c]), [ClearSolved])
      case _ =>
        var m := g.mistakes - 1;
        (g.(mistakes := m), [ClearMissed] + (if m == 0 then [EndLost] else []))
  }

  /** One timer firing. The clear after a correct guess re-checks `isGameComplete`, which
      compares lengths only, and the win it triggers is taken at once. */
  function Fire(g: ConnGame, t: Timer): (r: ConnGame)
    ensures r.puzzle == g.puzzle && r.solved == g.solved && r.mistakes == g.mistakes
    ensures r.shuffled == g.shuffled && (r.active ==> g.active)
  {
    match t
    case ClearSolved =>
      g.(selected := [], active := g.active && !IsGameComplete(g.solved, |g.puzzle.categories|))
    case ClearMissed => g.(selected := [])
    case EndLost => g.(active := false)
  }

  /** The timers firing in order. */
  function FireAll(g: ConnGame, ts: seq<Timer>): (r: ConnGame)
    ensures r.puzzle == g.puzzle && r.solved == g.solved && r.mistakes == g.mistakes
    ensures r.shuffled == g.shuffled && (r.active ==> g.active)
    decreases |ts|
  {
    if |ts| == 0 then g else FireAll(Fire(g, ts[0]), ts[1..])
  }

  /** With nothing clicked between a submission and its timers, the program as written
      ends where `SubmitGuess` does: the corrected model is the as-written one with the
      window closed. */
  lemma SubmitSettles(g: ConnGame)
    ensures FireAll(SubmitNow(g).0, SubmitNow(g).1) == SubmitGuess(g)
  {
    var (h, ts) := SubmitNow(g);
    if |g.selected| == GroupSize && g.active {
      if ValidateGuess(g.selected, g.puzzle.categories).Correct? {
        assert FireAll(h, ts) == FireAll(Fire(h, ClearSolved), []);
      } else if g.mistakes == 1 {
        assert ts == [ClearMissed, EndLost] && ts[1..] == [EndLost];
        assert FireAll(h, ts) == FireAll(Fire(h, ClearMissed), [EndLost]);
        assert FireAll(Fire(h, ClearMissed), [EndLost]) == FireAll(Fire(Fire(h, ClearMissed), EndLost), []);
      } else {
        assert FireAll(h, ts) == FireAll(Fire(h, ClearMissed), []);
      }
    }
  }

  /** At most as many distinct names as solved entries, plus one for a repeated push. */
  lemma {:induction false} RepeatedNames(solved: seq<Category>, c: Category)
    ensures |Elems(Names(solved + [c, c]))| <= |solved| + 1
  {
    NamesAppend(solved, c);
    NamesAppend(solved + [c], c);
    assert solved + [c, c] == (solved + [c]) + [c];
    assert Elems(Names(solved + [c, c])) == Elems(Names(solved)) + {c.name};
    ElemsCard(Names(solved));
  }

  /** With distinct category names, fewer distinct solved names than categories leaves
      some category unsolved. */
  lemma SomeCategoryOpen(cats: seq<Category>, solved: seq<Category>)
    requires NoDuplicates(Names(cats)) && |Elems(Names(solved))| < |cats|
    ensures exists d :: d in cats && !IsSolved(solved, d.name)
  {
    ElemsCard(Names(cats));
    if forall d :: d in cats ==> IsSolved(solved, d.name) {
      assert Elems(Names(cats)) <= Elems(Names(solved)) by {
        forall n | n in Elems(Names(cats))
          ensures n in Elems(Names(solved))
        {
          var j :| 0 <= j < |cats| && Names(cats)[j] == n;
          assert cats[j] in cats;
        }
      }
      SubsetCard(Elems(Names(cats)), Elems(Names(solved)));
      assert false;
    }
  }

  /** The double submit, as written: with two categories left, the correct guess sent
      twice inside the 600 ms window pushes its category twice, the length test then
      reports the game complete and `endGame(true)` runs, with mistakes to spare and a
      category still unsolved. No state the corrected model reaches looks like this. */
  lemma DoubleSubmitWins(g: ConnGame)
    requires Inv(g) && g.active && |g.selected| == GroupSize
    requires ValidateGuess(g.selected, g.puzzle.categories).Correct?
    requires |g.solved| + 2 == |g.puzzle.categories|
    ensures var c := ValidateGuess(g.selected, g.puzzle.categories).category;
      var first := SubmitNow(g);
      var second := SubmitNow(first.0);
      var r := FireAll(second.0, first.1 + second.1);
      && r.solved == g.solved + [c, c] && !r.active && r.mistakes > 0
      && (exists d :: d in g.puzzle.categories && !IsSolved(r.solved, d.name))
      && Unsolved(g.puzzle.categories, r.solved) != []
      && !Inv(r)
  {
    var cats := g.puzzle.categories;
    var c := ValidateGuess(g.selected, cats).category;
    var first := SubmitNow(g);
    var second := SubmitNow(first.0);
    assert first.1 + second.1 == [ClearSolved, ClearSolved];
    var h := Fire(second.0, ClearSolved);
    assert FireAll(second.0, first.1 + second.1) == FireAll(Fire(h, ClearSolved), []);
    var r := FireAll(second.0, first.1 + second.1);
    assert first.0.solved == g.solved + [c];
    assert r.solved == (g.solved + [c]) + [c] == g.solved + [c, c];
    RepeatedNames(g.solved, c);
    SomeCategoryOpen(cats, r.solved);
    var d :| d in cats && !IsSolved(r.solved, d.name);
    assert d in Unsolved(cats, r.solved);
    if Inv(r) {
      EndGameOutcome(r);
      assert false;
    }
  }

  /** The double miss, as written: one mistake left and a wrong guess sent twice inside
      the 500 ms window spends two, leaving -1 once the timers have fired. */
  lemma DoubleMissOverspends(g: ConnGame)
    requires Inv(g) && g.active && |g.selected| == GroupSize
    requires !ValidateGuess(g.selected, g.puzzle.categories).Correct?
    requires g.mistakes == 1
    ensures var first := SubmitNow(g);
      var second := SubmitNow(first.0);
      && second.0.active && second.0.mistakes == -1
      && FireAll(second.0, first.1 + second.1).mistakes == -1
      && !Inv(FireAll(second.0, first.1 + second.1))
  {
  }
}

=== FILE: connections_logic.dfy ===
/** Connections puzzles and the pure logic around them: `validateGuess`, `isGameComplete`,
    the shuffled word cards of `getShuffledWords`, and the puzzle lookups by difficulty. */
module ConnectionsLogic {
  import opened Wrappers
  import opened Text
  import opened Random

  /** A category `{ name, words, difficulty }`. */
  datatype Category = Category(name: string, words: seq<string>, difficulty: int)

  /** A puzzle `{ id, categories }`. */
  datatype ConnPuzzle = ConnPuzzle(id: string, categories: seq<Category>)

  /** What `validateGuess` returns: correct with the category, "One away..." or wrong. */
  datatype GuessResult = Correct(category: Category) | CloseCall | Wrong

  // ---------------------------------------------------------------- validateGuess

  /** `words.map(w => w.toUpperCase())`. */
  function Upper(ws: seq<string>): (r: seq<string>)
    ensures |r| == |ws| && forall i :: 0 <= i < |ws| ==> r[i] == ToUpper(ws[i])
  {
    seq(|ws|, i requires 0 <= i < |ws| => ToUpper(ws[i]))
  }

  /** How many selected words, upper-cased, are among the category's upper-cased words. */
  function Matches(selected: seq<string>, c: Category): (n: nat)
    ensures n <= |selected|
    ensures n == |selected| <==> forall i :: 0 <= i < |selected| ==> ToUpper(selected[i]) in Upper(c.words)
  {
    if |selected| == 0 then 0
    else (if ToUpper(selected[0]) in Upper(c.words) then 1 else 0) + Matches(selected[1..], c)
  }

  /** A category that ends the scan: three or four matches. */
  predicate Decisive(selected: seq<string>, c: Category)
  {
    Matches(selected, c) == 3 || Matches(selected, c) == 4
  }

  /** `validateGuess`: the first category with four matches is correct, the first with
      three is a close call, and with neither the guess is wrong. */
  function ValidateGuess(selected: seq<string>, cats: seq<Category>): (r: GuessResult)
    ensures r.Wrong? <==> forall i :: 0 <= i < |cats| ==> !Decisive(selected, cats[i])
    ensures !r.Wrong? ==> exists i :: (0 <= i < |cats| && Decisive(selected, cats[i])
              && (forall j :: 0 <= j < i ==> !Decisive(selected, cats[j]))
              && (r.Correct? <==> Matches(selected, cats[i]) == 4)
              && (r.Correct? ==> r.category == cats[i]))
  {
    if |cats| == 0 then Wrong
    else if Matches(selected, cats[0]) == 4 then Correct(cats[0])
    else if Matches(selected, cats[0]) == 3 then CloseCall
    else
      var r := ValidateGuess(selected, cats[1..]);
      assert forall i :: 1 <= i < |cats| ==> cats[i] == cats[1..][i - 1];
      r
  }

  /** A correct answer to four selected words names a category holding every one of them,
      whatever their case. */
  lemma CorrectHoldsAll(selected: seq<string>, cats: seq<Category>)
    requires |selected| == 4 && ValidateGuess(selected, cats).Correct?
    ensures var c := ValidateGuess(selected, cats).category;
      c in cats && forall w :: w in selected ==> ToUpper(w) in Upper(c.words)
  {
  }

  lemma {:induction false} MatchesIgnoresCase(selected: seq<string>, c: Category)
    ensures Matches(Upper(selected), c) == Matches(selected, c)
  {
    if |selected| > 0 {
      ToUpperIdempotent(selected[0]);
      assert Upper(selected)[1..] == Upper(selected[1..]);
      MatchesIgnoresCase(selected[1..], c);
    }
  }

  /** The comparison ignores case: upper-casing the selection first changes nothing. */
  lemma {:induction false} ValidateIgnoresCase(selected: seq<string>, cats: seq<Category>)
    ensures ValidateGuess(Upper(selected), cats) == ValidateGuess(selected, cats)
  {
    if |cats| > 0 {
      MatchesIgnoresCase(selected, cats[0]);
      ValidateIgnoresCase(selected, cats[1..]);
    }
  }

  /** `isGameComplete`. */
  predicate IsGameComplete(solved: seq<Category>, total: nat)
  {
    |solved| == total
  }

  // ---------------------------------------------------------------- the word cards

  /** A card `{ word, category, difficulty }`, naming its category. */
  datatype WordCard = WordCard(word: string, category: string, difficulty: int)

  function CardsOf(c: Category): (r: seq<WordCard>)
    ensures |r| == |c.words| && forall i :: 0 <= i < |r| ==> r[i] == WordCard(c.words[i], c.name, c.difficulty)
  {
    seq(|c.words|, i requires 0 <= i < |c.words| => WordCard(c.words[i], c.name, c.difficulty))
  }

  /** The total word count of the categories. */
  function WordCount(cats: seq<Category>): nat
  {
    if |cats| == 0 then 0 else |cats[0].words| + WordCount(cats[1..])
  }

  /** The `flatMap`: one card per (category, word), category by category. */
  function AllCards(cats: seq<Category>): (r: seq<WordCard>)
    ensures |r| == WordCount(cats)
    ensures forall e :: e in r ==> exists i, a :: (0 <= i < |cats| && 0 <= a < |cats[i].words|
              && e == WordCard(cats[i].words[a], cats[i].name, cats[i].difficulty))
  {
    if |cats| == 0 then []
    else
      var rest := AllCards(cats[1..]);
      assert forall e :: e in rest ==> exists i, a :: (1 <= i < |cats| && 0 <= a < |cats[i].words|
        && e == WordCard(cats[i].words[a], cats[i].name, cats[i].difficulty)) by {
        forall e | e in rest
          ensures exists i, a :: (1 <= i < |cats| && 0 <= a < |cats[i].words|
            && e == WordCard(cats[i].words[a], cats[i].name, cats[i].difficulty))
        {
          var i, a :| 0 <= i < |cats[1..]| && 0 <= a < |cats[1..][i].words|
            && e == WordCard(cats[1..][i].words[a], cats[1..][i].name, cats[1..][i].difficulty);
          assert cats[1..][i] == cats[i + 1];
        }
      }
      CardsOf(cats[0]) + rest
  }

  /** Every word of every category has its card. */
  lemma {:induction false} AllCardsHas(cats: seq<Category>, i: nat, a: nat)
    requires i < |cats| && a < |cats[i].words|
    ensures WordCard(cats[i].words[a], cats[i].name, cats[i].difficulty) in AllCards(cats)
  {
    if i == 0 {
      assert CardsOf(cats[0])[a] == WordCard(cats[i].words[a], cats[i].name, cats[i].difficulty);
    } else {
      assert cats[1..][i - 1] == cats[i];
      AllCardsHas(cats[1..], i - 1, a);
    }
  }

  /** `getShuffledWords`: the cards in a shuffled order, none lost or added. */
  function GetShuffledWords(p: ConnPuzzle, rand: Oracle, k: nat): (r: seq<WordCard>)
    ensures |r| == WordCount(p.categories)
    ensures multiset(r) == multiset(AllCards(p.categories))
  {
    Shuffle(AllCards(p.categories), rand, k)
  }

  // ---------------------------------------------------------------- the puzzle library

  /** One entry of `allPuzzles`: a difficulty key and its list. */
  datatype Shelf = Shelf(key: string, puzzles: seq<ConnPuzzle>)

  /** `allPuzzles[key]`: the list of the first entry with that key, or undefined. */
  function Lookup(lib: seq<Shelf>, key: string): (r: Option<seq<ConnPuzzle>>)
    ensures r.None? <==> forall i :: 0 <= i < |lib| ==> lib[i].key != key
    ensures r.Some? ==> exists i :: 0 <= i < |lib| && lib[i].key == key && lib[i].puzzles == r.value
  {
    if |lib| == 0 then None
    else if lib[0].key == key then Some(lib[0].puzzles)
    else
      var r := Lookup(lib[1..], key);
      assert forall i :: 1 <= i < |lib| ==> lib[i] == lib[1..][i - 1];
      r
  }

  /** `getRandomPuzzleByDifficulty`: a drawn puzzle of the lower-cased difficulty; a
      missing or empty list falls back to 'medium', and when 'medium' is missing or empty
      too the fallback calls itself forever (None). */
  function GetRandomPuzzleByDifficulty(lib: seq<Shelf>, difficulty: string, rand: Oracle, k: nat)
    : (r: (Option<ConnPuzzle>, nat))
    ensures var own := Lookup(lib, ToLower(difficulty));
      own.Some? && |own.value| > 0 ==> r.0.Some? && r.0.value in own.value
    ensures var own := Lookup(lib, ToLower(difficulty));
      var medium := Lookup(lib, "medium");
      !(own.Some? && |own.value| > 0) ==>
        (r.0.Some? <==> medium.Some? && |medium.value| > 0)
        && (r.0.Some? ==> r.0.value in medium.value)
  {
    var own := Lookup(lib, ToLower(difficulty));
    if own.Some? && |own.value| > 0 then (Some(own.value[Draw(rand, k, |own.value|)]), k + 1)
    else
      var medium := Lookup(lib, "medium");
      if medium.Some? && |medium.value| > 0 then (Some(medium.value[Draw(rand, k, |medium.value|)]), k + 1)
      else (None, k)
  }

  /** The four difficulty keys, in the order `getRandomPuzzle` lists them. */
  function Difficulties(): seq<string>
  {
    ["easy", "medium", "hard", "extreme"]
  }

  /** `getRandomPuzzle`: a drawn difficulty among the four, then a puzzle of it. */
  function GetRandomPuzzle(lib: seq<Shelf>, rand: Oracle, k: nat): (r: (Option<ConnPuzzle>, nat))
    ensures exists d :: d in Difficulties() && r == GetRandomPuzzleByDifficulty(lib, d, rand, k + 1)
  {
    var ds := Difficulties();
    var d := ds[Draw(rand, k, 4)];
    assert d in ds;
    GetRandomPuzzleByDifficulty(lib, d, rand, k + 1)
  }

  /** `getPuzzlesByDifficulty`: the list of the lower-cased key, or []. */
  function GetPuzzlesByDifficulty(lib: seq<Shelf>, difficulty: string): (r: seq<ConnPuzzle>)
    ensures Lookup(lib, ToLower(difficulty)).None? ==> r == []
    ensures Lookup(lib, ToLower(difficulty)).Some? ==> r == Lookup(lib, ToLower(difficulty)).value
  {
    match Lookup(lib, ToLower(difficulty))
    case None => []
    case Some(ps) => ps
  }

  /** `getTotalPuzzleCount`: the sum of all list lengths. */
  function TotalPuzzleCount(lib: seq<Shelf>): nat
  {
    if |lib| == 0 then 0 else |lib[0].puzzles| + TotalPuzzleCount(lib[1..])
  }

  /** `getPuzzleCountByDifficulty`: the sizes of the four lists; a missing one throws
      (None). */
  function CountByDifficulty(lib: seq<Shelf>): (r: Option<seq<nat>>)
    ensures r.Some? <==> forall d :: d in Difficulties() ==> Lookup(lib, d).Some?
    ensures r.Some? ==> (|r.value| == 4
      && forall i :: 0 <= i < 4 ==> r.value[i] == |GetPuzzlesByDifficulty(lib, Difficulties()[i])|)
  {
    var ds := Difficulties();
    assert forall i :: 0 <= i < 4 ==> ToLower(ds[i]) == ds[i];
    if forall d :: d in ds ==> Lookup(lib, d).Some? then
      assert forall i :: 0 <= i < 4 ==> Lookup(lib, ds[i]).Some?;
      Some(seq(4, i requires 0 <= i < 4 => |Lookup(lib, ds[i]).value|))
    else None
  }

  /** The total adds up over any split of the library, and no difficulty holds more
      puzzles than the total. */
  lemma {:induction false} TotalCountFacts(a: seq<Shelf>, b: seq<Shelf>, d: string)
    ensures TotalPuzzleCount(a + b) == TotalPuzzleCount(a) + TotalPuzzleCount(b)
    ensures |GetPuzzlesByDifficulty(a, d)| <= TotalPuzzleCount(a)
  {
    if |a| > 0 {
      assert (a + b)[1..] == a[1..] + b;
      TotalCountFacts(a[1..], b, d);
    } else {
      assert a + b == b;
    }
  }
}

=== FILE: pips_dominoes.dfy ===
/** The double-six domino set of Pips (`DominoSet`) and the two pieces of
    `DominoRenderer` that carry logic: pip count and the orientation toggle. */
module PipsDominoes {
  import opened Wrappers

  /** A domino `{ value1, value2, id }`. */
  datatype Domino = Domino(value1: nat, value2: nat, id: string)

  /** The decimal digit of a value 0..9. */
  function Digit(v: nat): (c: char)
    requires v <= 9
    ensures '0' <= c <= '9'
  {
    (('0' as int) + v) as char
  }

  /** The id `${value1}-${value2}`. */
  function DominoId(a: nat, b: nat): (id: string)
    requires a <= 9 && b <= 9
    ensures |id| == 3 && id[1] == '-'
  {
    [Digit(a), '-', Digit(b)]
  }

  /** Different value pairs get different ids. */
  lemma IdInjective(a: nat, b: nat, c: nat, d: nat)
    requires a <= 9 && b <= 9 && c <= 9 && d <= 9
    ensures DominoId(a, b) == DominoId(c, d) <==> a == c && b == d
  {
    if DominoId(a, b) == DominoId(c, d) {
      assert DominoId(a, b)[0] == DominoId(c, d)[0];
      assert DominoId(a, b)[2] == DominoId(c, d)[2];
    }
  }

  /** Pairs in the order the nested loops produce them. */
  predicate Before(d: Domino, e: Domino)
  {
    d.value1 < e.value1 || (d.value1 == e.value1 && d.value2 < e.value2)
  }

  /** A piece of the set: values within 0..6, the smaller first, and the id they name. */
  predicate WellFormed(d: Domino)
  {
    d.value1 <= d.value2 <= 6 && d.id == DominoId(d.value1, d.value2)
  }

  /** The inner loop for outer value i: `i-i`, `i-(i+1)`, ..., `i-6`. */
  function Row(i: nat): (r: seq<Domino>)
    requires i <= 6
    ensures |r| == 7 - i
    ensures forall x :: 0 <= x < |r| ==> r[x] == Domino(i, i + x, DominoId(i, i + x))
  {
    seq(7 - i, x requires 0 <= x < 7 - i => Domino(i, i + x, DominoId(i, i + x)))
  }

  /** 0 + 1 + ... + n. */
  function Triangle(n: nat): nat
  {
    if n == 0 then 0 else n + Triangle(n - 1)
  }

  /** The outer loop from value i on. */
  function {:induction false} FullFrom(i: nat): (r: seq<Domino>)
    requires i <= 7
    ensures |r| == Triangle(7 - i)
    ensures forall x :: 0 <= x < |r| ==> WellFormed(r[x]) && i <= r[x].value1
    ensures forall x, y :: 0 <= x < y < |r| ==> Before(r[x], r[y])
    decreases 7 - i
  {
    if i == 7 then []
    else
      var rest := FullFrom(i + 1);
      var r := Row(i) + rest;
      assert forall x :: 0 <= x < |r| ==> r[x] == if x < 7 - i then Row(i)[x] else rest[x - (7 - i)];
      r
  }

  /** `generateFullSet`. */
  function FullSet(): seq<Domino>
  {
    FullFrom(0)
  }

  /** Every pair i <= j from value `from` on appears in the set. */
  lemma {:induction false} FullFromHas(from: nat, i: nat, j: nat)
    requires from <= i <= j <= 6
    ensures Domino(i, j, DominoId(i, j)) in FullFrom(from)
    decreases i - from
  {
    if from == i {
      assert Row(i)[j - i] == Domino(i, j, DominoId(i, j));
    } else {
      FullFromHas(from + 1, i, j);
    }
  }

  /** The double-six set: 28 dominoes, each a pair 0 <= value1 <= value2 <= 6 with its id,
      every such pair present, listed in strictly increasing order, so no pair and no id
      repeats. */
  lemma FullSetShape()
    ensures |FullSet()| == 28
    ensures forall d :: d in FullSet() ==> WellFormed(d)
    ensures forall i, j :: 0 <= i <= j <= 6 ==> Domino(i, j, DominoId(i, j)) in FullSet()
    ensures forall x, y :: 0 <= x < y < |FullSet()| ==> Before(FullSet()[x], FullSet()[y])
    ensures forall x, y :: 0 <= x < y < |FullSet()| ==> FullSet()[x].id != FullSet()[y].id
  {
    forall i, j | 0 <= i <= j <= 6
      ensures Domino(i, j, DominoId(i, j)) in FullSet()
    {
      FullFromHas(0, i, j);
    }
    forall x, y | 0 <= x < y < |FullSet()|
      ensures FullSet()[x].id != FullSet()[y].id
    {
      var d, e := FullSet()[x], FullSet()[y];
      IdInjective(d.value1, d.value2, e.value1, e.value2);
    }
  }

  /** `getDominoById`: `find` returns the first domino with that id, or undefined. */
  function GetDominoById(ds: seq<Domino>, id: string): (r: Option<Domino>)
    ensures r.Some? ==> r.value in ds && r.value.id == id
    ensures r.None? <==> forall d :: d in ds ==> d.id != id
    ensures |ds| > 0 && ds[0].id == id ==> r == Some(ds[0])
    ensures r.Some? ==> exists i :: 0 <= i < |ds| && ds[i] == r.value && forall j :: 0 <= j < i ==> ds[j].id != id
  {
    if |ds| == 0 then None
    else if ds[0].id == id then Some(ds[0])
    else GetDominoById(ds[1..], id)
  }

  /** Looking up `i-j` with i <= j finds that very domino. */
  lemma LookupPresent(i: nat, j: nat)
    requires i <= j <= 6
    ensures GetDominoById(FullSet(), DominoId(i, j)) == Some(Domino(i, j, DominoId(i, j)))
  {
    FullSetShape();
    var r := GetDominoById(FullSet(), DominoId(i, j));
    assert r.Some?;
    IdInjective(r.value.value1, r.value.value2, i, j);
  }

  /** An id with the larger value first, such as `5-4`, names no domino of the set. */
  lemma LookupReversed(i: nat, j: nat)
    requires j < i <= 6
    ensures GetDominoById(FullSet(), DominoId(i, j)) == None
  {
    FullSetShape();
    forall d | d in FullSet()
      ensures d.id != DominoId(i, j)
    {
      IdInjective(d.value1, d.value2, i, j);
    }
  }

  /** `createPips`: one pip element per loop step `i < value`. */
  method CreatePips(value: int) returns (pips: seq<string>)
    ensures |pips| == if value > 0 then value else 0
    ensures forall i :: 0 <= i < |pips| ==> pips[i] == "pip"
  {
    pips := [];
    var i := 0;
    while i < value
      invariant |pips| == i && i == (if value > 0 then i else 0) && i <= (if value > 0 then value else 0)
      invariant forall m :: 0 <= m < |pips| ==> pips[m] == "pip"
    {
      pips := pips + ["pip"];
      i := i + 1;
    }
  }

  /** `rotateDomino`: 'horizontal' turns 'vertical', anything else turns 'horizontal'. */
  function Rotate(orientation: string): (r: string)
    ensures r == "vertical" <==> orientation == "horizontal"
    ensures r == "horizontal" || r == "vertical"
  {
    if orientation == "horizontal" then "vertical" else "horizontal"
  }

  /** Two turns restore either orientation; from any other value one turn gives
      'horizontal' and the second 'vertical'. */
  lemma RotateTwice(o: string)
    ensures o == "horizontal" || o == "vertical" ==> Rotate(Rotate(o)) == o
    ensures Rotate(Rotate(o)) == (if o == "horizontal" then "horizontal" else "vertical")
  {
  }
}

=== FILE: pips_game.dfy ===
/** The Pips game (`PipsGame`): starting a game, selecting and rotating a domino of the
    tray, placing it by click or by drop, removing it, the hint, and checking the board. */
module PipsGame {
  import opened Wrappers
  import opened Random
  import opened PipsDominoes
  import opened PipsRegions
  import opened PipsGenerator

  /** What the selected domino element carries: id, values and orientation, and whether
      the element still sits in the tray (`dominoes-container`). Re-rendering the tray
      builds new elements, so the selected one is left detached. */
  datatype Selection = Selection(id: string, value1: int, value2: int, orientation: string,
                                 inTray: bool)

  /** A `placedDominoes` entry `{ dominoId, cells: [cell1, cell2], value1, value2 }`; the
      board element is not modelled. */
  datatype Placement = Placement(dominoId: string, cell1: Cell, cell2: Cell, value1: int, value2: int)

  /** `currentPuzzle`, `selectedDomino`, `placedDominoes` (keyed by cell) and `difficulty`. */
  datatype Game = Game(puzzle: Puzzle, selected: Option<Selection>, placed: map<Cell, Placement>,
                       difficulty: string)

  /** `startNewGame`: the level's first predefined puzzle if it has one, a generated
      puzzle otherwise; no domino on the board and none selected. */
  function StartNewGame(difficulty: string, rand: Oracle, k: nat): (r: (Game, nat))
    ensures r.0.placed == map[] && r.0.selected.None? && r.0.difficulty == difficulty
    ensures difficulty == "easy" ==> r.0.puzzle == PredefinedEasy() && r.1 == k
    ensures difficulty != "easy" ==> r.0.puzzle == GeneratePuzzle(difficulty, rand, k).0
  {
    var predefined := PredefinedPuzzles();
    var p := if difficulty in predefined && |predefined[difficulty]| > 0
             then (predefined[difficulty][0], k)
             else GeneratePuzzle(difficulty, rand, k);
    (Game(p.0, None, map[], difficulty), p.1)
  }

  /** Clicking a tray domino, or starting to drag one, selects it with the orientation
      its element shows at that moment. */
  function Select(g: Game, d: Domino, orientation: string): Game
  {
    g.(selected := Some(Selection(d.id, d.value1, d.value2, orientation, true)))
  }

  /** `rotateSelected`: turns the selected domino when it is still in the tray; without
      a selection, or with one whose element the tray no longer holds, nothing happens
      (the property access on the detached element's missing parent throws, and the
      exception is not modelled). Only the orientation ever changes. */
  function RotateSelected(g: Game): (r: Game)
    ensures r.placed == g.placed && r.puzzle == g.puzzle && r.selected.Some? == g.selected.Some?
    ensures (g.selected.None? || !g.selected.value.inTray) ==> r == g
    ensures g.selected.Some? && g.selected.value.inTray ==>
              r.selected.value == g.selected.value.(orientation := r.selected.value.orientation)
              && (g.selected.value.orientation == "horizontal" ==> r.selected.value.orientation == "vertical")
              && (g.selected.value.orientation != "horizontal" ==> r.selected.value.orientation == "horizontal")
  {
    if g.selected.Some? && g.selected.value.inTray
    then g.(selected := Some(g.selected.value.(orientation := Rotate(g.selected.value.orientation))))
    else g
  }

  /** Two turns give back a horizontal or vertical selection. */
  lemma RotateSelectedTwice(g: Game)
    requires g.selected.Some? ==> g.selected.value.orientation in {"horizontal", "vertical"}
    ensures RotateSelected(RotateSelected(g)) == g
  {
    if g.selected.Some? {
      RotateTwice(g.selected.value.orientation);
    }
  }

  /** `isCellActive`: some region lists the cell. */
  predicate IsCellActive(p: Puzzle, c: Cell)
  {
    exists i :: 0 <= i < |p.regions| && c in p.regions[i].cells
  }

  /** The active cells are exactly the cells of the regions. */
  lemma {:induction false} ActiveCells(regions: seq<Region>, c: Cell)
    ensures (exists i :: 0 <= i < |regions| && c in regions[i].cells) <==> c in RegionCells(regions)
  {
    if |regions| > 0 {
      ActiveCells(regions[1..], c);
      if c in RegionCells(regions[1..]) {
        var i :| 0 <= i < |regions[1..]| && c in regions[1..][i].cells;
        assert c in regions[i + 1].cells;
      }
      if exists i :: 0 <= i < |regions| && c in regions[i].cells {
        var i :| 0 <= i < |regions| && c in regions[i].cells;
        if i > 0 {
          assert c in regions[1..][i - 1].cells;
        }
      }
    }
  }

  /** `getCell` finds a board cell. */
  predicate OnBoard(p: Puzzle, c: Cell)
  {
    c.row < p.size.rows && c.col < p.size.cols
  }

  /** `canPlaceDomino`: a domino is selected, its second cell is inside the grid, both
      cells are active and neither holds a domino. */
  predicate CanPlace(g: Game, row: nat, col: nat)
  {
    && g.selected.Some?
    && var c1 := Cell(row, col);
    var c2 := SecondCell(c1, g.selected.value.orientation);
    && OnBoard(g.puzzle, c2)
    && IsCellActive(g.puzzle, c1) && IsCellActive(g.puzzle, c2)
    && c1 !in g.placed && c2 !in g.placed
  }

  /** The record a placement of the selection at (row, col) stores under both cells. */
  function PlacementAt(s: Selection, row: nat, col: nat): (r: Placement)
    ensures r.cell1 == Cell(row, col) && r.cell2 == SecondCell(Cell(row, col), s.orientation)
    ensures r.cell1 != r.cell2
    ensures r.dominoId == s.id && r.value1 == s.value1 && r.value2 == s.value2
  {
    Placement(s.id, Cell(row, col), SecondCell(Cell(row, col), s.orientation), s.value1, s.value2)
  }

  /** `placeDomino`, which does not consult `canPlaceDomino`: without a selection, or
      when a cell is off the board, nothing happens; otherwise both cells map to the
      new record, whatever they held, and the selection is cleared. */
  function PlaceDomino(g: Game, row: nat, col: nat): (r: Game)
    ensures r.puzzle == g.puzzle && r.difficulty == g.difficulty
    ensures g.selected.None? ==> r == g
    ensures (g.selected.Some? && !(OnBoard(g.puzzle, Cell(row, col))
              && OnBoard(g.puzzle, SecondCell(Cell(row, col), g.selected.value.orientation)))) ==> r == g
    ensures (g.selected.Some? && OnBoard(g.puzzle, Cell(row, col))
              && OnBoard(g.puzzle, SecondCell(Cell(row, col), g.selected.value.orientation))) ==> (
      && r.selected.None?
      && var rec := PlacementAt(g.selected.value, row, col);
      && r.placed.Keys == g.placed.Keys + {rec.cell1, rec.cell2}
      && r.placed[rec.cell1] == rec && r.placed[rec.cell2] == rec
      && forall c :: c in g.placed && c != rec.cell1 && c != rec.cell2 ==> r.placed[c] == g.placed[c])
    ensures r != g ==> (
      && r.selected.None?
      && var rec := PlacementAt(g.selected.value, row, col);
      && r.placed.Keys == g.placed.Keys + {rec.cell1, rec.cell2}
      && r.placed[rec.cell1] == rec && r.placed[rec.cell2] == rec
      && forall c :: c in g.placed && c != rec.cell1 && c != rec.cell2 ==> r.placed[c] == g.placed[c])
  {
    if g.selected.None? then g
    else
      var rec := PlacementAt(g.selected.value, row, col);
      if !OnBoard(g.puzzle, rec.cell1) || !OnBoard(g.puzzle, rec.cell2) then g
      else g.(placed := g.placed[rec.cell1 := rec][rec.cell2 := rec], selected := None)
  }

  /** A click on a board cell: only active cells listen, and they place the selected
      domino only when `canPlaceDomino` allows it. */
  function ClickCell(g: Game, row: nat, col: nat): (r: Game)
    ensures !CanPlace(g, row, col) ==> r == g
    ensures CanPlace(g, row, col) ==> r == PlaceDomino(g, row, col) && r.selected.None?
  {
    if IsCellActive(g.puzzle, Cell(row, col)) && g.selected.Some? && CanPlace(g, row, col)
    then PlaceDomino(g, row, col)
    else g
  }

  /** A drop on a board cell as written: active cells call `placeDomino` directly,
      without `canPlaceDomino`. */
  function DropAsWritten(g: Game, row: nat, col: nat): Game
  {
    if IsCellActive(g.puzzle, Cell(row, col)) then PlaceDomino(g, row, col) else g
  }

  /** A drop guarded like a click: the behaviour the highlight on `dragenter` (which
      does consult `canPlaceDomino`) promises. */
  function Drop(g: Game, row: nat, col: nat): (r: Game)
    ensures r == ClickCell(g, row, col)
    ensures CanPlace(g, row, col) ==> r == DropAsWritten(g, row, col)
  {
    if IsCellActive(g.puzzle, Cell(row, col)) && CanPlace(g, row, col) then PlaceDomino(g, row, col) else g
  }

  /** The selection after the tray is re-rendered: the same domino, no longer in the tray. */
  function Detach(s: Option<Selection>): Option<Selection>
  {
    if s.Some? then Some(s.value.(inTray := false)) else None
  }

  /** `removeDomino`: an empty cell changes nothing; otherwise both cells of the record
      found there are cleared and the tray is re-rendered, which leaves a selected
      domino selected but out of the tray. */
  function RemoveDomino(g: Game, row: nat, col: nat): (r: Game)
    ensures r.puzzle == g.puzzle && r.selected.Some? == g.selected.Some?
    ensures Cell(row, col) !in g.placed ==> r == g
    ensures Cell(row, col) in g.placed ==>
              r.placed.Keys == g.placed.Keys - {g.placed[Cell(row, col)].cell1, g.placed[Cell(row, col)].cell2}
    ensures Cell(row, col) in g.placed && r.selected.Some? ==>
              !r.selected.value.inTray && r.selected.value.(inTray := true) == g.selected.value.(inTray := true)
    ensures forall c :: c in r.placed ==> c in g.placed && r.placed[c] == g.placed[c]
  {
    var c := Cell(row, col);
    if c !in g.placed then g
    else
      var rec := g.placed[c];
      g.(placed := g.placed - {rec.cell1, rec.cell2}, selected := Detach(g.selected))
  }

  /** After a domino is taken off the board, the rotate button does nothing until a tray
      domino is selected again, and selecting one makes it rotatable. */
  lemma RotateAfterRemove(g: Game, row: nat, col: nat, d: Domino, orientation: string)
    requires Cell(row, col) in g.placed
    ensures RotateSelected(RemoveDomino(g, row, col)) == RemoveDomino(g, row, col)
    ensures RotateSelected(Select(RemoveDomino(g, row, col), d, orientation)).selected.value.orientation
              == Rotate(orientation)
  {
  }

  // ---------------------------------------------------------------- the board invariant

  /** Cell c holds a record that covers c and another cell, both stored with it, and c
      is active. */
  predicate Paired(g: Game, c: Cell)
  {
    && c in g.placed
    && var rec := g.placed[c];
    && (c == rec.cell1 || c == rec.cell2) && rec.cell1 != rec.cell2
    && rec.cell1 in g.placed && rec.cell2 in g.placed
    && g.placed[rec.cell1] == rec && g.placed[rec.cell2] == rec
    && IsCellActive(g.puzzle, c)
  }

  /** Every occupied cell is paired. */
  ghost predicate Consistent(g: Game)
  {
    forall c {:trigger Paired(g, c)} :: c in g.placed ==> Paired(g, c)
  }

  /** The board invariant: consistent records and an even number of occupied cells. */
  ghost predicate Inv(g: Game)
  {
    Consistent(g) && |g.placed.Keys| % 2 == 0
  }

  lemma EmptyInv(g: Game)
    requires g.placed == map[]
    ensures Inv(g)
  {
    assert g.placed.Keys == {};
  }

  lemma StartInv(difficulty: string, rand: Oracle, k: nat)
    ensures Inv(StartNewGame(difficulty, rand, k).0)
  {
    EmptyInv(StartNewGame(difficulty, rand, k).0);
  }

  lemma SelectInv(g: Game, d: Domino, orientation: string)
    requires Inv(g)
    ensures Inv(Select(g, d, orientation)) && Inv(RotateSelected(g))
  {
    var s := Select(g, d, orientation);
    assert forall c :: Paired(g, c) ==> Paired(s, c);
    var t := RotateSelected(g);
    assert forall c :: Paired(g, c) ==> Paired(t, c);
  }

  /** Two new keys add two to the count. */
  lemma StoreCount(g: Game, rec: Placement)
    requires rec.cell1 != rec.cell2 && rec.cell1 !in g.placed && rec.cell2 !in g.placed
    ensures |g.placed[rec.cell1 := rec][rec.cell2 := rec].Keys| == |g.placed.Keys| + 2
  {
    var m := g.placed[rec.cell1 := rec][rec.cell2 := rec];
    assert m.Keys == g.placed.Keys + {rec.cell1, rec.cell2};
  }

  /** Storing one record under both its free active cells keeps every cell paired. */
  lemma StoreInv(g: Game, rec: Placement)
    requires Consistent(g)
    requires rec.cell1 != rec.cell2 && rec.cell1 !in g.placed && rec.cell2 !in g.placed
    requires IsCellActive(g.puzzle, rec.cell1) && IsCellActive(g.puzzle, rec.cell2)
    ensures Consistent(g.(placed := g.placed[rec.cell1 := rec][rec.cell2 := rec], selected := None))
    ensures |g.placed[rec.cell1 := rec][rec.cell2 := rec].Keys| == |g.placed.Keys| + 2
  {
    StoreCount(g, rec);
    var m := g.placed[rec.cell1 := rec][rec.cell2 := rec];
    var r := g.(placed := m, selected := None);
    forall c | c in m
      ensures Paired(r, c)
    {
      if c == rec.cell1 || c == rec.cell2 {
        StoreNew(g, rec, c);
      } else {
        StoreOld(g, rec, c);
      }
    }
  }

  lemma StoreNew(g: Game, rec: Placement, c: Cell)
    requires rec.cell1 != rec.cell2
    requires IsCellActive(g.puzzle, rec.cell1) && IsCellActive(g.puzzle, rec.cell2)
    requires c == rec.cell1 || c == rec.cell2
    ensures Paired(g.(placed := g.placed[rec.cell1 := rec][rec.cell2 := rec], selected := None), c)
  {
  }

  lemma StoreOld(g: Game, rec: Placement, c: Cell)
    requires Paired(g, c)
    requires rec.cell1 !in g.placed && rec.cell2 !in g.placed
    ensures Paired(g.(placed := g.placed[rec.cell1 := rec][rec.cell2 := rec], selected := None), c)
  {
  }

  /** A guarded placement keeps the invariant and occupies two more cells. */
  lemma ClickInv(g: Game, row: nat, col: nat)
    requires Inv(g)
    ensures Inv(ClickCell(g, row, col))
    ensures CanPlace(g, row, col) ==> |ClickCell(g, row, col).placed.Keys| == |g.placed.Keys| + 2
  {
    if CanPlace(g, row, col) {
      var rec := PlacementAt(g.selected.value, row, col);
      StoreInv(g, rec);
      assert ClickCell(g, row, col) == g.(placed := g.placed[rec.cell1 := rec][rec.cell2 := rec], selected := None);
    }
  }

  /** The guarded drop keeps the invariant too. */
  lemma DropInv(g: Game, row: nat, col: nat)
    requires Inv(g)
    ensures Inv(Drop(g, row, col))
  {
    ClickInv(g, row, col);
  }

  /** Clearing both cells of a stored record keeps the board consistent and frees two
      cells: no other record names either of them. */
  lemma ClearInv(g: Game, rec: Placement)
    requires Consistent(g) && rec.cell1 in g.placed && g.placed[rec.cell1] == rec
    ensures Consistent(g.(placed := g.placed - {rec.cell1, rec.cell2}, selected := Detach(g.selected)))
    ensures |(g.placed - {rec.cell1, rec.cell2}).Keys| == |g.placed.Keys| - 2
  {
    assert Paired(g, rec.cell1);
    var r := g.(placed := g.placed - {rec.cell1, rec.cell2}, selected := Detach(g.selected));
    assert g.placed.Keys == r.placed.Keys + {rec.cell1, rec.cell2};
    forall x | x in r.placed
      ensures Paired(r, x)
    {
      assert Paired(g, x);
      var rx := g.placed[x];
      assert Paired(g, rx.cell1) && Paired(g, rx.cell2);
    }
  }

  /** Removing keeps the invariant. */
  lemma RemoveInv(g: Game, row: nat, col: nat)
    requires Inv(g)
    ensures Inv(RemoveDomino(g, row, col))
  {
    var c := Cell(row, col);
    if c in g.placed {
      var rec := g.placed[c];
      assert Paired(g, c);
      ClearInv(g, rec);
    }
  }

  // ---------------------------------------------------------------- the unguarded drop

  /** The state after the first domino of the counterexample: `6-6` across (0,0)-(0,1)
      of the easy board. */
  function SixSixPlaced(): Game
  {
    var g := StartNewGame("easy", _ => 0, 0).0;
    ClickCell(Select(g, Domino(6, 6, "6-6"), "horizontal"), 0, 0)
  }

  /** The first move of the counterexample is a legal click: it keeps the invariant and
      fills (0,0) and (0,1) with the `6-6`. */
  lemma SixSixPlacedInv()
    ensures Inv(SixSixPlaced())
    ensures SixSixPlaced().puzzle == PredefinedEasy() && SixSixPlaced().selected.None?
    ensures SixSixPlaced().placed.Keys == {Cell(0, 0), Cell(0, 1)}
    ensures SixSixPlaced().placed[Cell(0, 0)].cell2 == Cell(0, 1)
  {
    var g0 := StartNewGame("easy", _ => 0, 0).0;
    var s0 := Select(g0, Domino(6, 6, "6-6"), "horizontal");
    assert Cell(0, 0) in g0.puzzle.regions[0].cells && Cell(0, 1) in g0.puzzle.regions[0].cells;
    assert CanPlace(s0, 0, 0);
    StartInv("easy", _ => 0, 0);
    SelectInv(g0, Domino(6, 6, "6-6"), "horizontal");
    ClickInv(s0, 0, 0);
  }

  /** Dropping `1-1` horizontally on (0,1) as written overlaps the `6-6`: (0,0) still
      names (0,1) as its partner cell, which now holds the other record, and three cells
      are occupied. Removing the `6-6` then leaves (0,2) holding a record whose other
      cell is empty. The guarded drop refuses the move. */
  lemma DropAsWrittenOverlaps()
    ensures var g := Select(SixSixPlaced(), Domino(1, 1, "1-1"), "horizontal");
      && Inv(SixSixPlaced())
      && !Inv(DropAsWritten(g, 0, 1))
      && |DropAsWritten(g, 0, 1).placed.Keys| == 3
      && var after := RemoveDomino(DropAsWritten(g, 0, 1), 0, 0);
      && Cell(0, 2) in after.placed && after.placed[Cell(0, 2)].cell1 !in after.placed
      && Drop(g, 0, 1) == g
  {
    SixSixPlacedInv();
    var g := Select(SixSixPlaced(), Domino(1, 1, "1-1"), "horizontal");
    assert Cell(0, 1) in g.puzzle.regions[0].cells;
    assert Cell(0, 2) in g.puzzle.regions[1].cells;
    var d := DropAsWritten(g, 0, 1);
    assert d.placed.Keys == {Cell(0, 0), Cell(0, 1), Cell(0, 2)};
    assert d.placed[Cell(0, 0)].cell2 == Cell(0, 1) && d.placed[Cell(0, 1)].cell1 == Cell(0, 1);
    assert |d.placed.Keys| == 3;
    var after := RemoveDomino(d, 0, 0);
    assert after.placed.Keys == {Cell(0, 2)};
    assert !CanPlace(g, 0, 1);
  }

  /** Selecting a tray domino and clicking a board cell. */
  function Click(g: Game, d: Domino, orientation: string, row: nat, col: nat): Game
  {
    ClickCell(Select(g, d, orientation), row, col)
  }

  /** A click that `canPlaceDomino` allows keeps the invariant and occupies exactly the
      two cells of the new record. */
  lemma ClickStep(g: Game, d: Domino, orientation: string, row: nat, col: nat)
    requires Inv(g) && CanPlace(Select(g, d, orientation), row, col)
    ensures Inv(Click(g, d, orientation, row, col))
    ensures Click(g, d, orientation, row, col).placed.Keys
              == g.placed.Keys + {Cell(row, col), SecondCell(Cell(row, col), orientation)}
    ensures Click(g, d, orientation, row, col).puzzle == g.puzzle
  {
    SelectInv(g, d, orientation);
    ClickInv(Select(g, d, orientation), row, col);
  }

  /** One click of a play: the domino selected, its orientation and the cell clicked. */
  datatype Move = Move(d: Domino, orientation: string, at: Cell)

  /** Seven legal clicks on the as-written easy board, filling every cell but (0,3). */
  const SevenMoves: seq<Move> := [
    Move(Domino(6, 6, "6-6"), "horizontal", Cell(0, 0)),
    Move(Domino(1, 1, "1-1"), "horizontal", Cell(1, 0)),
    Move(Domino(3, 3, "3-3"), "vertical", Cell(0, 2)),
    Move(Domino(4, 5, "4-5"), "vertical", Cell(2, 0)),
    Move(Domino(5, 5, "5-5"), "vertical", Cell(2, 1)),
    Move(Domino(2, 6, "2-6"), "vertical", Cell(2, 2)),
    Move(Domino(3, 5, "3-5"), "vertical", Cell(2, 3))
  ]

  /** The as-written easy board after the first n of the seven clicks. */
  function AfterMoves(n: nat): Game
    requires n <= |SevenMoves|
  {
    if n == 0 then Game(PredefinedEasyAsWritten(), None, map[], "easy")
    else
      var m := SevenMoves[n - 1];
      Click(AfterMoves(n - 1), m.d, m.orientation, m.at.row, m.at.col)
  }

  /** The cells the first n clicks cover. */
  function MovedCells(n: nat): set<Cell>
    requires n <= |SevenMoves|
  {
    if n == 0 then {}
    else MovedCells(n - 1) + {SevenMoves[n - 1].at, SecondCell(SevenMoves[n - 1].at, SevenMoves[n - 1].orientation)}
  }

  /** The n-th click is allowed: both its cells lie in one region and the earlier clicks
      left them empty. */
  lemma MoveLegal(n: nat)
    requires 1 <= n <= |SevenMoves|
    ensures var m := SevenMoves[n - 1];
      var c2 := SecondCell(m.at, m.orientation);
      && OnBoard(PredefinedEasyAsWritten(), c2)
      && IsCellActive(PredefinedEasyAsWritten(), m.at) && IsCellActive(PredefinedEasyAsWritten(), c2)
      && m.at !in MovedCells(n - 1) && c2 !in MovedCells(n - 1)
  {
    var p := PredefinedEasyAsWritten();
    if n <= 2 {
      MoveActive(p, n, 0);
    } else if n == 3 {
      MoveActive(p, n, 1);
    } else if n <= 5 {
      MoveActive(p, n, 2);
    } else {
      MoveActive(p, n, 3);
    }
    MoveFree(n);
  }

  lemma MoveActive(p: Puzzle, n: nat, i: nat)
    requires 1 <= n <= |SevenMoves| && i < |p.regions|
    requires SevenMoves[n - 1].at in p.regions[i].cells
    requires SecondCell(SevenMoves[n - 1].at, SevenMoves[n - 1].orientation) in p.regions[i].cells
    ensures IsCellActive(p, SevenMoves[n - 1].at)
    ensures IsCellActive(p, SecondCell(SevenMoves[n - 1].at, SevenMoves[n - 1].orientation))
  {
  }

  /** The cells of the n-th click are still empty when it is made. */
  lemma MoveFree(n: nat)
    requires 1 <= n <= |SevenMoves|
    ensures SevenMoves[n - 1].at !in MovedCells(n - 1)
    ensures SecondCell(SevenMoves[n - 1].at, SevenMoves[n - 1].orientation) !in MovedCells(n - 1)
  {
    if n <= 3 {
      MoveFreeEarly(n);
    } else if n <= 5 {
      MoveFreeLate(n);
    } else {
      MoveFreeLast(n);
    }
  }

  lemma MoveFreeEarly(n: nat)
    requires 1 <= n <= 3
    ensures SevenMoves[n - 1].at !in MovedCells(n - 1)
    ensures SecondCell(SevenMoves[n - 1].at, SevenMoves[n - 1].orientation) !in MovedCells(n - 1)
  {
    if n == 1 {
      MoveFreeAt1();
    } else if n == 2 {
      MoveFreeAt2();
    } else {
      MoveFreeAt3();
    }
  }

  lemma MoveFreeLate(n: nat)
    requires 4 <= n <= 5
    ensures SevenMoves[n - 1].at !in MovedCells(n - 1)
    ensures SecondCell(SevenMoves[n - 1].at, SevenMoves[n - 1].orientation) !in MovedCells(n - 1)
  {
    if n == 4 {
      MoveFreeAt4();
    } else {
      MoveFreeAt5();
    }
  }

  lemma MoveFreeLast(n: nat)
    requires 6 <= n <= 7
    ensures SevenMoves[n - 1].at !in MovedCells(n - 1)
    ensures SecondCell(SevenMoves[n - 1].at, SevenMoves[n - 1].orientation) !in MovedCells(n - 1)
  {
    if n == 6 {
      MoveFreeAt6();
    } else {
      MoveFreeAt7();
    }
  }

  lemma MoveFreeAt1()
    ensures SevenMoves[0].at == Cell(0, 0) && SecondCell(SevenMoves[0].at, SevenMoves[0].orientation) == Cell(0, 1)
    ensures MovedCells(0) == {}
  {
  }

  lemma MoveFreeAt2()
    ensures SevenMoves[1].at == Cell(1, 0) && SecondCell(SevenMoves[1].at, SevenMoves[1].orientation) == Cell(1, 1)
    ensures MovedCells(1) == {Cell(0, 0), Cell(0, 1)}
  {
  }

  lemma MoveFreeAt3()
    ensures SevenMoves[2].at == Cell(0, 2) && SecondCell(SevenMoves[2].at, SevenMoves[2].orientation) == Cell(1, 2)
    ensures MovedCells(2) == {Cell(0, 0), Cell(0, 1), Cell(1, 0), Cell(1, 1)}
  {
  }

  lemma MoveFreeAt4()
    ensures SevenMoves[3].at == Cell(2, 0) && SecondCell(SevenMoves[3].at, SevenMoves[3].orientation) == Cell(3, 0)
    ensures MovedCells(3) == {Cell(0, 0), Cell(0, 1), Cell(1, 0), Cell(1, 1), Cell(0, 2), Cell(1, 2)}
  {
  }

  lemma MoveFreeAt5()
    ensures SevenMoves[4].at == Cell(2, 1) && SecondCell(SevenMoves[4].at, SevenMoves[4].orientation) == Cell(3, 1)
    ensures MovedCells(4) == {Cell(0, 0), Cell(0, 1), Cell(1, 0), Cell(1, 1), Cell(0, 2), Cell(1, 2),
              Cell(2, 0), Cell(3, 0)}
  {
  }

  lemma MoveFreeAt6()
    ensures SevenMoves[5].at == Cell(2, 2) && SecondCell(SevenMoves[5].at, SevenMoves[5].orientation) == Cell(3, 2)
    ensures MovedCells(5) == {Cell(0, 0), Cell(0, 1), Cell(1, 0), Cell(1, 1), Cell(0, 2), Cell(1, 2),
              Cell(2, 0), Cell(3, 0), Cell(2, 1), Cell(3, 1)}
  {
  }

  lemma MoveFreeAt7()
    ensures SevenMoves[6].at == Cell(2, 3) && SecondCell(SevenMoves[6].at, SevenMoves[6].orientation) == Cell(3, 3)
    ensures MovedCells(6) == {Cell(0, 0), Cell(0, 1), Cell(1, 0), Cell(1, 1), Cell(0, 2), Cell(1, 2),
              Cell(2, 0), Cell(3, 0), Cell(2, 1), Cell(3, 1), Cell(2, 2), Cell(3, 2)}
  {
  }

  /** Every prefix of the clicks is legal, so the board keeps the invariant and holds
      exactly the covered cells. */
  lemma {:induction false} AfterMovesInv(n: nat)
    requires n <= |SevenMoves|
    ensures Inv(AfterMoves(n)) && AfterMoves(n).puzzle == PredefinedEasyAsWritten()
    ensures AfterMoves(n).placed.Keys == MovedCells(n)
  {
    if n == 0 {
      EmptyInv(AfterMoves(0));
    } else {
      AfterMovesInv(n - 1);
      AfterMovesStep(n);
    }
  }

  /** The n-th click, made on the board the earlier clicks left. */
  lemma AfterMovesStep(n: nat)
    requires 1 <= n <= |SevenMoves|
    requires Inv(AfterMoves(n - 1)) && AfterMoves(n - 1).puzzle == PredefinedEasyAsWritten()
    requires AfterMoves(n - 1).placed.Keys == MovedCells(n - 1)
    ensures Inv(AfterMoves(n)) && AfterMoves(n).puzzle == PredefinedEasyAsWritten()
    ensures AfterMoves(n).placed.Keys == MovedCells(n)
  {
    MoveLegal(n);
    var g := AfterMoves(n - 1);
    var m := SevenMoves[n - 1];
    MoveStep(g, m);
    assert AfterMoves(n) == Click(g, m.d, m.orientation, m.at.row, m.at.col);
  }

  /** A move onto two free active cells inside the grid keeps the invariant and occupies
      exactly its two cells. */
  lemma MoveStep(g: Game, m: Move)
    requires Inv(g)
    requires OnBoard(g.puzzle, SecondCell(m.at, m.orientation))
    requires IsCellActive(g.puzzle, m.at) && IsCellActive(g.puzzle, SecondCell(m.at, m.orientation))
    requires m.at !in g.placed && SecondCell(m.at, m.orientation) !in g.placed
    ensures Inv(Click(g, m.d, m.orientation, m.at.row, m.at.col))
    ensures Click(g, m.d, m.orientation, m.at.row, m.at.col).placed.Keys
              == g.placed.Keys + {m.at, SecondCell(m.at, m.orientation)}
    ensures Click(g, m.d, m.orientation, m.at.row, m.at.col).puzzle == g.puzzle
  {
    assert CanPlace(Select(g, m.d, m.orientation), m.at.row, m.at.col);
    ClickStep(g, m.d, m.orientation, m.at.row, m.at.col);
  }

  /** Each click covers two cells no earlier click covered. */
  lemma {:induction false} MovedCellsCard(n: nat)
    requires n <= |SevenMoves|
    ensures |MovedCells(n)| == 2 * n
  {
    if n > 0 {
      MovedCellsCard(n - 1);
      MoveFree(n);
      var m := SevenMoves[n - 1];
      assert MovedCells(n) == MovedCells(n - 1) + {m.at} + {SecondCell(m.at, m.orientation)};
    }
  }

  /** The seven clicks cover (0,2) and leave (0,3) empty. */
  lemma MovedCellsAll()
    ensures Cell(0, 2) in MovedCells(7) && Cell(0, 3) !in MovedCells(7)
  {
    MoveFreeAt7();
  }

  /** On the as-written easy board with 14 occupied cells, among them (0,2) but not
      (0,3), dropping a `3-3` across (0,2)-(0,3) occupies all 15 cells. */
  lemma DropStray(s: Game)
    requires s.puzzle == PredefinedEasyAsWritten() && |s.placed.Keys| == 14
    requires Cell(0, 2) in s.placed && Cell(0, 3) !in s.placed
    ensures IsPuzzleComplete(DropAsWritten(Select(s, Domino(3, 3, "3-3"), "horizontal"), 0, 2))
    ensures !Inv(DropAsWritten(Select(s, Domino(3, 3, "3-3"), "horizontal"), 0, 2))
  {
    var g := Select(s, Domino(3, 3, "3-3"), "horizontal");
    assert Cell(0, 2) in g.puzzle.regions[1].cells;
    var d := DropAsWritten(g, 0, 2);
    assert d.placed.Keys == s.placed.Keys + {Cell(0, 3)};
    assert |d.placed.Keys| == 15;
    PredefinedEasyAsWrittenOdd();
  }

  /** The as-written easy board can be completed by the unguarded drop: after the seven
      clicks (n of them, all there are), dropping a `3-3` across (0,2)-(0,3) overwrites
      (0,2) and fills the stray cell, so all 15 cells are occupied and `isPuzzleComplete`
      holds, on a board that breaks the invariant. */
  lemma DropCompletesAsWritten(n: nat)
    requires n == |SevenMoves|
    ensures var g := Select(AfterMoves(n), Domino(3, 3, "3-3"), "horizontal");
      && Inv(AfterMoves(n))
      && !IsPuzzleComplete(AfterMoves(n))
      && IsPuzzleComplete(DropAsWritten(g, 0, 2))
      && !Inv(DropAsWritten(g, 0, 2))
  {
    AfterMovesInv(n);
    MovedCellsCard(n);
    MovedCellsAll();
    AsWrittenNeverComplete(AfterMoves(n));
    DropStray(AfterMoves(n));
  }

  // ---------------------------------------------------------------- checking the board

  /** The value a placed record shows on cell c: `value1` on its first cell, `value2`
      elsewhere. */
  function ValueAt(placed: map<Cell, Placement>, c: Cell): int
    requires c in placed
  {
    if placed[c].cell1 == c then placed[c].value1 else placed[c].value2
  }

  /** The inner loop of `checkSolution`: the values on the region's occupied cells, in
      order; empty cells are skipped. */
  function RegionValues(placed: map<Cell, Placement>, cells: seq<Cell>): (vs: seq<int>)
    ensures |vs| <= |cells|
    ensures |vs| == |cells| <==> forall c :: c in cells ==> c in placed
    ensures (forall c :: c in cells ==> c in placed) ==>
              forall i :: 0 <= i < |cells| ==> vs[i] == ValueAt(placed, cells[i])
  {
    if |cells| == 0 then []
    else
      var rest := RegionValues(placed, cells[1..]);
      assert forall c :: c in cells[1..] ==> c in cells;
      (if cells[0] in placed then [ValueAt(placed, cells[0])] else []) + rest
  }

  /** Every region cell holds a domino. */
  predicate Covered(g: Game)
  {
    forall i, c :: 0 <= i < |g.puzzle.regions| && c in g.puzzle.regions[i].cells ==> c in g.placed
  }

  /** `checkSolution`: correct when no region cell is empty and every region passes
      validation (the 'zero' rule checked as documented). */
  predicate CheckSolution(g: Game)
  {
    Covered(g)
    && forall i :: 0 <= i < |g.puzzle.regions| ==>
         ValidateRegion(g.puzzle.regions[i], RegionValues(g.placed, g.puzzle.regions[i].cells))
  }

  /** The empty-cell flag is redundant: validation already fails on a region with an
      empty cell, so the board checks out exactly when every region validates. */
  lemma CheckSolutionByRegions(g: Game)
    ensures CheckSolution(g) <==>
              forall i :: 0 <= i < |g.puzzle.regions| ==>
                ValidateRegion(g.puzzle.regions[i], RegionValues(g.placed, g.puzzle.regions[i].cells))
  {
    if forall i :: 0 <= i < |g.puzzle.regions| ==>
         ValidateRegion(g.puzzle.regions[i], RegionValues(g.placed, g.puzzle.regions[i].cells)) {
      forall i, c | 0 <= i < |g.puzzle.regions| && c in g.puzzle.regions[i].cells
        ensures c in g.placed
      {
        var vs := RegionValues(g.placed, g.puzzle.regions[i].cells);
        assert ValidateRegion(g.puzzle.regions[i], vs);
      }
    }
  }

  /** `isPuzzleComplete`: as many occupied cells as the regions have cells. */
  predicate IsPuzzleComplete(g: Game)
  {
    |g.placed.Keys| == |RegionCells(g.puzzle.regions)|
  }

  lemma {:induction false} CellsCard(s: seq<Cell>)
    requires NoRepeatedCells(s)
    ensures |set c | c in s| == |s|
  {
    if |s| > 0 {
      var q := s[..|s| - 1];
      CellsCard(q);
      assert (set c | c in s) == (set c | c in q) + {s[|s| - 1]};
      assert s[|s| - 1] !in q;
    }
  }

  /** On a consistent board whose regions share no cell, the completeness test holds
      exactly when every region cell holds a domino. */
  lemma CompleteMeansCovered(g: Game)
    requires Consistent(g) && NoRepeatedCells(RegionCells(g.puzzle.regions))
    ensures IsPuzzleComplete(g) <==> Covered(g)
  {
    var cells := RegionCells(g.puzzle.regions);
    var all := set c | c in cells;
    CellsCard(cells);
    forall c | c in g.placed
      ensures c in all
    {
      assert Paired(g, c);
      ActiveCells(g.puzzle.regions, c);
    }
    forall i, c | 0 <= i < |g.puzzle.regions| && c in g.puzzle.regions[i].cells
      ensures c in all
    {
      assert c in g.puzzle.regions[i].cells;
      ActiveCells(g.puzzle.regions, c);
    }
    if IsPuzzleComplete(g) {
      var rest := all - g.placed.Keys;
      assert all == g.placed.Keys + rest && g.placed.Keys * rest == {};
      assert |all| == |g.placed.Keys| + |rest|;
      assert rest == {};
    }
    if Covered(g) {
      forall c | c in all
        ensures c in g.placed
      {
        ActiveCells(g.puzzle.regions, c);
      }
      assert g.placed.Keys == all;
    }
  }

  /** The predefined easy puzzle as written can never be completed: it has 15 cells
      while a consistent board always has an even number occupied. */
  lemma AsWrittenNeverComplete(g: Game)
    requires Inv(g) && g.puzzle == PredefinedEasyAsWritten()
    ensures !IsPuzzleComplete(g)
  {
    PredefinedEasyAsWrittenOdd();
  }

  // ---------------------------------------------------------------- the hint

  /** `showHint`: the first solution step whose first cell is still empty, or None
      when the puzzle has no solution or every such cell holds a domino. */
  function Hint(g: Game): (r: Option<SolutionStep>)
    ensures r.Some? ==> r.value in g.puzzle.solution && r.value.cell1 !in g.placed
    ensures r.None? <==> forall j :: 0 <= j < |g.puzzle.solution| ==> g.puzzle.solution[j].cell1 in g.placed
  {
    FirstUnplaced(g.puzzle.solution, g.placed)
  }

  function FirstUnplaced(steps: seq<SolutionStep>, placed: map<Cell, Placement>): (r: Option<SolutionStep>)
    ensures r.Some? ==> r.value in steps && r.value.cell1 !in placed
    ensures r.Some? ==> exists j :: (0 <= j < |steps| && steps[j] == r.value
              && forall i :: 0 <= i < j ==> steps[i].cell1 in placed)
    ensures r.None? <==> forall j :: 0 <= j < |steps| ==> steps[j].cell1 in placed
  {
    if |steps| == 0 then None
    else if steps[0].cell1 !in placed then Some(steps[0])
    else
      var r := FirstUnplaced(steps[1..], placed);
      if r.Some? then
        var j :| 0 <= j < |steps[1..]| && steps[1..][j] == r.value
                 && forall i :: 0 <= i < j ==> steps[1..][i].cell1 in placed;
        assert steps[j + 1] == r.value;
        r
      else r
  }
}

=== FILE: pips_generator.dfy ===
/** The Pips puzzle generator (`PuzzleGenerator`): difficulty settings, the empty grid,
    random regions with random rules, the demonstration solver that pairs region cells
    with dominoes of a shuffled set, and the predefined puzzles. */
module PipsGenerator {
  import opened Wrappers
  import opened Random
  import opened PipsDominoes
  import opened PipsRegions

  const RuleTypes: seq<string> := ["sum", "match", "min", "max", "different", "none"]
  const RegionColors: seq<string> := ["pink", "blue", "orange", "green", "purple", "yellow", "gray"]

  /** A difficulty level's settings. `regionCount` is carried but never consulted. */
  datatype Config = Config(size: GridSize, regionCount: nat, dominoCount: nat)

  const EasyConfig := Config(GridSize(5, 7), 4, 10)

  /** `getDifficultyConfig`: 5x7 with 10 dominoes, 6x8 with 15, 7x10 with 21; any other
      level gets the easy settings. Every level's grid has room for the cells of all its
      dominoes, and no level asks for more dominoes than the set holds. */
  function GetDifficultyConfig(difficulty: string): (c: Config)
    ensures difficulty != "medium" && difficulty != "hard" ==> c == EasyConfig
    ensures c.size.rows >= 1 && c.size.cols >= 1
    ensures 2 * c.dominoCount <= c.size.rows * c.size.cols
    ensures c.dominoCount <= 28
  {
    if difficulty == "medium" then Config(GridSize(6, 8), 6, 15)
    else if difficulty == "hard" then Config(GridSize(7, 10), 8, 21)
    else EasyConfig
  }

  // ---------------------------------------------------------------- the grid

  /** A grid square `{ row, col, region, domino }`. */
  datatype GridCell = GridCell(row: nat, col: nat, region: Option<nat>, domino: Option<string>)

  /** Rows `base`, `base + 1`, ... of empty squares, `width` to a row. */
  predicate Indexed(g: seq<seq<GridCell>>, base: nat, width: nat)
  {
    forall r :: 0 <= r < |g| ==>
      |g[r]| == width && forall c :: 0 <= c < width ==> g[r][c] == GridCell(base + r, c, None, None)
  }

  /** `createGrid`; its flattening lists rows * cols squares. */
  function CreateGrid(size: GridSize): (g: seq<seq<GridCell>>)
    ensures |g| == size.rows && Indexed(g, 0, size.cols)
  {
    seq(size.rows, r requires 0 <= r => seq(size.cols, c requires 0 <= c => GridCell(r, c, None, None)))
  }

  /** The flattening loop of `createRegions`: row after row. */
  function Flatten(g: seq<seq<GridCell>>): seq<GridCell>
  {
    if |g| == 0 then [] else g[0] + Flatten(g[1..])
  }

  /** Flattening an empty grid lists each of its squares once, rows*cols of them, all
      inside the grid and all empty. */
  lemma {:induction false} FlattenIndexed(g: seq<seq<GridCell>>, base: nat, width: nat)
    requires Indexed(g, base, width)
    ensures NoDuplicates(Flatten(g))
    ensures forall x :: x in Flatten(g) ==>
              base <= x.row < base + |g| && x.col < width && x.region.None? && x.domino.None?
  {
    if |g| > 0 {
      var a, b := g[0], Flatten(g[1..]);
      assert Indexed(g[1..], base + 1, width);
      FlattenIndexed(g[1..], base + 1, width);
      forall i, j | 0 <= i < j < |a + b|
        ensures (a + b)[i] != (a + b)[j]
      {
        if j < |a| {
          assert a[i].col == i && a[j].col == j;
        } else if i < |a| {
          assert (a + b)[j] in b;
        }
      }
      forall x | x in a
        ensures x.row == base && x.col < width
      {
        var c :| 0 <= c < |a| && a[c] == x;
      }
    }
  }

  /** `cells.map(c => ({ row: c.row, col: c.col }))`. */
  function Positions(cells: seq<GridCell>): (r: seq<Cell>)
    ensures |r| == |cells| && forall i :: 0 <= i < |cells| ==> r[i] == Cell(cells[i].row, cells[i].col)
  {
    seq(|cells|, i requires 0 <= i < |cells| => Cell(cells[i].row, cells[i].col))
  }

  /** Distinct empty squares of a rows x width grid. */
  predicate Fresh(cells: seq<GridCell>, rows: nat, width: nat)
  {
    NoDuplicates(cells)
    && forall x :: x in cells ==> x.row < rows && x.col < width && x.region.None? && x.domino.None?
  }

  /** Drawing squares without reuse from fresh ones gives fresh ones. */
  lemma FreshSub(a: seq<GridCell>, b: seq<GridCell>, rows: nat, width: nat)
    requires Fresh(a, rows, width) && multiset(b) <= multiset(a)
    ensures Fresh(b, rows, width)
  {
    NoDuplicatesSub(a, b);
    forall x | x in b
      ensures x in a
    {
      assert x in multiset(b);
    }
  }

  /** Distinct empty squares sit at distinct positions of the grid. */
  lemma PositionsDistinct(cells: seq<GridCell>, rows: nat, width: nat)
    requires Fresh(cells, rows, width)
    ensures NoRepeatedCells(Positions(cells))
    ensures forall c :: c in Positions(cells) ==> c.row < rows && c.col < width
  {
    forall i, j | 0 <= i < j < |cells|
      ensures Positions(cells)[i] != Positions(cells)[j]
    {
      assert cells[i] in cells && cells[j] in cells;
    }
    forall c | c in Positions(cells)
      ensures c.row < rows && c.col < width
    {
      var i :| 0 <= i < |cells| && Positions(cells)[i] == c;
      assert cells[i] in cells;
    }
  }

  // ---------------------------------------------------------------- regions and rules

  /** What a generated rule can be: a sum target 10..29, a match value 1..6, a min or a
      max bound 2..5, or 'different' and 'none' without a value. */
  predicate RuleInRange(rule: Rule)
  {
    match rule.kind
    case Sum => rule.value.Some? && 10 <= rule.value.value <= 29
    case Match => rule.value.Some? && 1 <= rule.value.value <= 6
    case Min => rule.value.Some? && 2 <= rule.value.value <= 5
    case Max => rule.value.Some? && 2 <= rule.value.value <= 5
    case Different => rule.value.None?
    case NoRule => rule.value.None?
    case Zero => false
  }

  /** `generateRule`: the rule table draws a sum, a match, a min and a max value, in
      that order, whatever the type, then the entry of the type is taken; an unknown
      type gets 'none'. The region size is not consulted. */
  function GenerateRule(ruleType: string, rand: Oracle, k: nat): (r: Rule)
    ensures RuleInRange(r)
    ensures r.kind == Sum <==> ruleType == "sum"
    ensures r.kind == Match <==> ruleType == "match"
    ensures r.kind == Min <==> ruleType == "min"
    ensures r.kind == Max <==> ruleType == "max"
    ensures r.kind == Different <==> ruleType == "different"
  {
    var sum := Draw(rand, k, 20) + 10;
    var match_ := Draw(rand, k + 1, 6) + 1;
    var min := Draw(rand, k + 2, 4) + 2;
    var max := Draw(rand, k + 3, 4) + 2;
    if ruleType == "sum" then Rule(Sum, Some(sum))
    else if ruleType == "match" then Rule(Match, Some(match_))
    else if ruleType == "min" then Rule(Min, Some(min))
    else if ruleType == "max" then Rule(Max, Some(max))
    else if ruleType == "different" then Rule(Different, None)
    else Rule(NoRule, None)
  }

  /** The region loop of `createRegions` over the cells not yet processed, the next
      region getting id `id`: a size drawn from 2..5 (cut short when the cells run out),
      a rule type, the four rule values, and the colour of the id. The regions cut the
      cells into consecutive pieces, and each region consumes six draws. */
  function MakeRegions(cells: seq<GridCell>, id: nat, rand: Oracle, k: nat): (r: (seq<Region>, nat))
    ensures RegionCells(r.0) == Positions(cells)
    ensures r.1 == k + 6 * |r.0|
    decreases |cells|
  {
    if |cells| == 0 then ([], k)
    else
      var size := Smaller(Draw(rand, k, 4) + 2, |cells|);
      var ruleType := RuleTypes[Draw(rand, k + 1, 6)];
      var region := Region(id, Positions(cells[..size]), GenerateRule(ruleType, rand, k + 2),
                           RegionColors[id % 7]);
      var rest := MakeRegions(cells[size..], id + 1, rand, k + 6);
      assert ([region] + rest.0)[1..] == rest.0;
      assert Positions(cells) == Positions(cells[..size]) + Positions(cells[size..]);
      ([region] + rest.0, rest.1)
  }

  /** Regions with ids id, id + 1, ... and colours in palette order, each with 1..5 cells
      and a rule in range, only the last possibly with fewer than 2 cells. */
  predicate Shaped(r: seq<Region>, id: nat)
  {
    && (forall i :: 0 <= i < |r| ==> r[i].id == id + i && r[i].color == RegionColors[(id + i) % 7])
    && (forall i :: 0 <= i < |r| ==> 1 <= |r[i].cells| <= 5 && RuleInRange(r[i].rule))
    && (forall i :: 0 <= i < |r| - 1 ==> 2 <= |r[i].cells|)
  }

  lemma {:induction false} MakeRegionsShape(cells: seq<GridCell>, id: nat, rand: Oracle, k: nat)
    ensures Shaped(MakeRegions(cells, id, rand, k).0, id)
    decreases |cells|
  {
    if |cells| > 0 {
      var size := Smaller(Draw(rand, k, 4) + 2, |cells|);
      var ruleType := RuleTypes[Draw(rand, k + 1, 6)];
      var head := Region(id, Positions(cells[..size]), GenerateRule(ruleType, rand, k + 2),
                         RegionColors[id % 7]);
      var rest := MakeRegions(cells[size..], id + 1, rand, k + 6).0;
      MakeRegionsShape(cells[size..], id + 1, rand, k + 6);
      assert MakeRegions(cells, id, rand, k).0 == [head] + rest;
      if size < 2 {
        assert |cells[size..]| == 0;
      }
      ShapedCons(head, rest, id);
    }
  }

  lemma ShapedCons(head: Region, rest: seq<Region>, id: nat)
    requires Shaped(rest, id + 1)
    requires head.id == id && head.color == RegionColors[id % 7]
    requires 1 <= |head.cells| <= 5 && RuleInRange(head.rule)
    requires |rest| > 0 ==> 2 <= |head.cells|
    ensures Shaped([head] + rest, id)
  {
    var r := [head] + rest;
    assert forall i :: 1 <= i < |r| ==> r[i] == rest[i - 1];
  }

  /** `dominoCells`: the first 2 * dominoCount squares of the shuffled, flattened grid
      (all of them if the grid is smaller). */
  function DominoCells(grid: seq<seq<GridCell>>, config: Config, rand: Oracle, k: nat): seq<GridCell>
  {
    var shuffled := Shuffle(Flatten(grid), rand, k);
    shuffled[..Smaller(2 * config.dominoCount, |shuffled|)]
  }

  /** `createRegions`: cut the domino cells into regions. */
  function CreateRegions(grid: seq<seq<GridCell>>, config: Config, rand: Oracle, k: nat)
    : (r: (seq<Region>, nat))
  {
    MakeRegions(DominoCells(grid, config, rand, k), 0, rand, k + ShuffleDraws(|Flatten(grid)|))
  }

  /** On an empty grid the domino cells are as many distinct squares of the grid as
      asked for, or all of them. */
  lemma DominoCellsOfGrid(grid: seq<seq<GridCell>>, width: nat, config: Config, rand: Oracle, k: nat)
    requires Indexed(grid, 0, width)
    ensures NoRepeatedCells(Positions(DominoCells(grid, config, rand, k)))
    ensures |DominoCells(grid, config, rand, k)| == Smaller(2 * config.dominoCount, |Flatten(grid)|)
    ensures forall c :: c in Positions(DominoCells(grid, config, rand, k)) ==>
              c.row < |grid| && c.col < width
  {
    var all := Flatten(grid);
    FlattenIndexed(grid, 0, width);
    assert Fresh(all, |grid|, width);
    var shuffled := Shuffle(all, rand, k);
    FreshSub(all, shuffled, |grid|, width);
    var chosen := DominoCells(grid, config, rand, k);
    assert shuffled == chosen + shuffled[|chosen|..];
    FreshSub(shuffled, chosen, |grid|, width);
    PositionsDistinct(chosen, |grid|, width);
  }

  lemma {:induction false} FlattenLength(g: seq<seq<GridCell>>, width: nat)
    requires forall r :: 0 <= r < |g| ==> |g[r]| == width
    ensures |Flatten(g)| == |g| * width
  {
    if |g| > 0 {
      FlattenLength(g[1..], width);
      assert |Flatten(g)| == width + (|g| - 1) * width;
    }
  }

  lemma GridSquares(size: GridSize)
    ensures |Flatten(CreateGrid(size))| == size.rows * size.cols
  {
    FlattenLength(CreateGrid(size), size.cols);
  }

  /** On a fresh grid the regions cover exactly that many distinct squares of the grid,
      with ids 0, 1, ..., colours in palette order, 2..5 cells each except possibly
      the last, and rules in range. */
  lemma CreateRegionsFacts(grid: seq<seq<GridCell>>, width: nat, config: Config, rand: Oracle, k: nat)
    requires Indexed(grid, 0, width)
    ensures NoRepeatedCells(RegionCells(CreateRegions(grid, config, rand, k).0))
    ensures |RegionCells(CreateRegions(grid, config, rand, k).0)|
            == Smaller(2 * config.dominoCount, |Flatten(grid)|)
    ensures forall c :: c in RegionCells(CreateRegions(grid, config, rand, k).0) ==>
              InGrid(c, GridSize(|grid|, width))
    ensures Shaped(CreateRegions(grid, config, rand, k).0, 0)
  {
    var cells := DominoCells(grid, config, rand, k);
    DominoCellsOfGrid(grid, width, config, rand, k);
    MakeRegionsShape(cells, 0, rand, k + ShuffleDraws(|Flatten(grid)|));
    assert RegionCells(CreateRegions(grid, config, rand, k).0) == Positions(cells);
  }

  // ---------------------------------------------------------------- the solver

  /** The cell pairs `solvePuzzle` visits in one region: cells 0 and 1, 2 and 3, and so
      on; an odd region's last cell is in no pair. */
  function RegionPairs(cells: seq<Cell>): (ps: seq<(Cell, Cell)>)
    ensures |ps| == |cells| / 2
    ensures forall j :: 0 <= j < |ps| ==> ps[j] == (cells[2 * j], cells[2 * j + 1])
    decreases |cells|
  {
    if |cells| < 2 then []
    else
      var rest := RegionPairs(cells[2..]);
      assert forall j :: 1 <= j < 1 + |rest| ==> rest[j - 1] == (cells[2 * j], cells[2 * j + 1]);
      [(cells[0], cells[1])] + rest
  }

  /** The pairs of all regions, region by region. */
  function Pairs(regions: seq<Region>): seq<(Cell, Cell)>
  {
    if |regions| == 0 then [] else RegionPairs(regions[0].cells) + Pairs(regions[1..])
  }

  /** The cells of a list of pairs, in order. */
  function PairCells(ps: seq<(Cell, Cell)>): seq<Cell>
  {
    if |ps| == 0 then [] else [ps[0].0, ps[0].1] + PairCells(ps[1..])
  }

  lemma {:induction false} PairCellsAppend(a: seq<(Cell, Cell)>, b: seq<(Cell, Cell)>)
    ensures PairCells(a + b) == PairCells(a) + PairCells(b)
  {
    if |a| == 0 {
      assert a + b == b;
    } else {
      assert (a + b)[1..] == a[1..] + b;
      PairCellsAppend(a[1..], b);
    }
  }

  /** A region's pairs cover its cells but the last of an odd region, in order. */
  lemma {:induction false} RegionPairCells(cells: seq<Cell>)
    ensures PairCells(RegionPairs(cells)) == cells[..2 * (|cells| / 2)]
    decreases |cells|
  {
    if |cells| >= 2 {
      RegionPairCells(cells[2..]);
      assert RegionPairs(cells)[1..] == RegionPairs(cells[2..]);
      assert cells[2..][..2 * (|cells[2..]| / 2)] == cells[2..2 * (|cells| / 2)];
      assert cells[..2 * (|cells| / 2)] == [cells[0], cells[1]] + cells[2..2 * (|cells| / 2)];
    }
  }

  /** The paired cells are region cells, none used more often than it occurs, and
      there are at most half as many pairs as region cells. */
  lemma RegionPairsWithin(cells: seq<Cell>)
    ensures multiset(PairCells(RegionPairs(cells))) <= multiset(cells)
    ensures 2 * |RegionPairs(cells)| <= |cells|
  {
    RegionPairCells(cells);
    var m := 2 * (|cells| / 2);
    assert cells == cells[..m] + cells[m..];
  }

  lemma {:induction false} PairsWithinRegions(regions: seq<Region>)
    ensures multiset(PairCells(Pairs(regions))) <= multiset(RegionCells(regions))
    ensures 2 * |Pairs(regions)| <= |RegionCells(regions)|
  {
    if |regions| > 0 {
      var cells := regions[0].cells;
      var ps := RegionPairs(cells);
      var rest := regions[1..];
      PairsWithinRegions(rest);
      RegionPairsWithin(cells);
      PairCellsAppend(ps, Pairs(rest));
      assert multiset(PairCells(Pairs(regions)))
             == multiset(PairCells(ps)) + multiset(PairCells(Pairs(rest)));
      assert multiset(RegionCells(regions)) == multiset(cells) + multiset(RegionCells(rest));
    }
  }

  /** The solver's state: the dominoes still in the shuffled stack, the placements so
      far and the keys of the cells they use. */
  datatype Solver = Solver(available: seq<Domino>, placed: seq<SolutionStep>, used: set<Cell>)

  /** `Math.abs(cell1.row - cell2.row) > 0 ? 'vertical' : 'horizontal'`. */
  function Orientation(c1: Cell, c2: Cell): string
  {
    if c1.row != c2.row then "vertical" else "horizontal"
  }

  /** One pair: when neither cell is used and a domino is left, the top of the stack
      (`pop`) goes on the two cells; otherwise nothing changes. */
  function Step(s: Solver, pair: (Cell, Cell)): Solver
  {
    var c1 := pair.0;
    var c2 := pair.1;
    if c1 !in s.used && c2 !in s.used && |s.available| > 0 then
      var d := s.available[|s.available| - 1];
      Solver(s.available[..|s.available| - 1],
             s.placed + [SolutionStep(d.id, c1, c2, Orientation(c1, c2))],
             s.used + {c1, c2})
    else s
  }

  function Process(ps: seq<(Cell, Cell)>, s: Solver): Solver
    decreases |ps|
  {
    if |ps| == 0 then s else Process(ps[1..], Step(s, ps[0]))
  }

  /** Different placements share no cell. */
  predicate StepsApart(steps: seq<SolutionStep>)
  {
    forall j, l :: 0 <= j < l < |steps| ==>
      steps[l].cell1 != steps[j].cell1 && steps[l].cell1 != steps[j].cell2
      && steps[l].cell2 != steps[j].cell1 && steps[l].cell2 != steps[j].cell2
  }

  /** The solver state with respect to the shuffled stack `initial`: the stack is a
      prefix of it, the j-th placement took its (j+1)-th domino from the top, the used
      keys include every placed cell, placements share no cell and are oriented by
      their rows. */
  ghost predicate SolverInv(s: Solver, initial: seq<Domino>)
  {
    |s.available| + |s.placed| == |initial|
    && s.available == initial[..|s.available|]
    && (forall j :: 0 <= j < |s.placed| ==> s.placed[j].domino == initial[|initial| - 1 - j].id)
    && (forall j :: 0 <= j < |s.placed| ==> s.placed[j].cell1 in s.used && s.placed[j].cell2 in s.used)
    && (forall j :: 0 <= j < |s.placed| ==>
          s.placed[j].orientation == Orientation(s.placed[j].cell1, s.placed[j].cell2))
    && StepsApart(s.placed)
  }

  lemma StepInv(s: Solver, pair: (Cell, Cell), initial: seq<Domino>)
    requires SolverInv(s, initial)
    ensures SolverInv(Step(s, pair), initial)
    ensures |Step(s, pair).placed| >= |s.placed| && Step(s, pair).placed[..|s.placed|] == s.placed
    ensures forall j :: |s.placed| <= j < |Step(s, pair).placed| ==>
              (Step(s, pair).placed[j].cell1, Step(s, pair).placed[j].cell2) == pair
  {
    var t := Step(s, pair);
    if t != s {
      var n := |s.available|;
      assert t.available == initial[..n - 1];
      assert t.placed[|s.placed|].domino == initial[n - 1].id;
    }
  }

  /** Walking the pairs keeps the invariant; every new placement covers one of the
      pairs walked. */
  lemma {:induction false} ProcessInv(ps: seq<(Cell, Cell)>, s: Solver, initial: seq<Domino>)
    requires SolverInv(s, initial)
    ensures SolverInv(Process(ps, s), initial)
    ensures |Process(ps, s).placed| >= |s.placed| && Process(ps, s).placed[..|s.placed|] == s.placed
    ensures forall j :: |s.placed| <= j < |Process(ps, s).placed| ==>
              (Process(ps, s).placed[j].cell1, Process(ps, s).placed[j].cell2) in ps
    decreases |ps|
  {
    if |ps| > 0 {
      var t := Step(s, ps[0]);
      StepInv(s, ps[0], initial);
      ProcessInv(ps[1..], t, initial);
      var r := Process(ps[1..], t);
      assert r.placed[..|t.placed|][..|s.placed|] == r.placed[..|s.placed|];
      forall j | |s.placed| <= j < |r.placed|
        ensures (r.placed[j].cell1, r.placed[j].cell2) in ps
      {
        if j < |t.placed| {
          assert r.placed[j] == t.placed[j];
        } else {
          assert (r.placed[j].cell1, r.placed[j].cell2) in ps[1..];
        }
      }
    }
  }

  /** The placements the solver makes when every pair gets a domino: pair j takes the
      (j+1)-th domino from the top of the stack. */
  function Placements(ps: seq<(Cell, Cell)>, available: seq<Domino>): (r: seq<SolutionStep>)
    requires |ps| <= |available|
    ensures |r| == |ps|
  {
    seq(|ps|, j requires 0 <= j < |ps| =>
      SolutionStep(available[|available| - 1 - j].id, ps[j].0, ps[j].1, Orientation(ps[j].0, ps[j].1)))
  }

  /** When the pairs' cells are all different and unused and the stack is tall enough,
      every pair is placed, in order. */
  lemma {:induction false} ProcessExact(ps: seq<(Cell, Cell)>, s: Solver)
    requires NoDuplicates(PairCells(ps)) && |ps| <= |s.available|
    requires forall c :: c in PairCells(ps) ==> c !in s.used
    ensures Process(ps, s).placed == s.placed + Placements(ps, s.available)
    decreases |ps|
  {
    if |ps| == 0 {
      assert Placements(ps, s.available) == [];
    } else {
      var cs := PairCells(ps);
      assert cs == [ps[0].0, ps[0].1] + PairCells(ps[1..]);
      assert cs[0] in cs && cs[1] in cs;
      var t := Step(s, ps[0]);
      assert t.placed == s.placed + [Placements(ps, s.available)[0]];
      assert NoDuplicates(PairCells(ps[1..])) by {
        assert forall i :: 0 <= i < |PairCells(ps[1..])| ==> PairCells(ps[1..])[i] == cs[i + 2];
      }
      forall c | c in PairCells(ps[1..])
        ensures c !in t.used
      {
        var i :| 0 <= i < |PairCells(ps[1..])| && PairCells(ps[1..])[i] == c;
        assert cs[i + 2] == c && cs[0] != cs[i + 2] && cs[1] != cs[i + 2];
      }
      ProcessExact(ps[1..], t);
      assert Placements(ps, s.available) == [Placements(ps, s.available)[0]] + Placements(ps[1..], t.available);
    }
  }

  /** The top-level solver's starting state. */
  function SolverStart(available: seq<Domino>): (s: Solver)
    ensures SolverInv(s, available)
  {
    Solver(available, [], {})
  }

  /** `solvePuzzle`: pairs region cells with dominoes popped off a shuffled full set. */
  function SolvePuzzle(regions: seq<Region>, rand: Oracle, k: nat): (r: (seq<SolutionStep>, nat))
  {
    (Process(Pairs(regions), SolverStart(Shuffle(FullSet(), rand, k))).placed,
     k + ShuffleDraws(|FullSet()|))
  }

  /** Distinct dominoes of the set have distinct ids, shuffled or not. */
  lemma ShuffledSetIds(rand: Oracle, k: nat)
    ensures var a := Shuffle(FullSet(), rand, k);
      |a| == 28 && (forall d :: d in a ==> d in FullSet())
      && forall x, y :: 0 <= x < y < |a| ==> a[x].id != a[y].id
  {
    FullSetShape();
    var a := Shuffle(FullSet(), rand, k);
    NoDuplicatesSub(FullSet(), a);
    forall d | d in a
      ensures d in FullSet()
    {
      assert d in multiset(a);
    }
    forall x, y | 0 <= x < y < |a|
      ensures a[x].id != a[y].id
    {
      assert a[x] in a && a[y] in a;
      IdInjective(a[x].value1, a[x].value2, a[y].value1, a[y].value2);
    }
  }

  /** Ids of dominoes of the set, none twice. */
  predicate SetDominoes(sol: seq<SolutionStep>)
  {
    && (forall j :: 0 <= j < |sol| ==> GetDominoById(FullSet(), sol[j].domino).Some?)
    && (forall j, l :: 0 <= j < l < |sol| ==> sol[j].domino != sol[l].domino)
  }

  /** Every placement covers one of the pairs, oriented by its rows. */
  predicate OnPairs(sol: seq<SolutionStep>, ps: seq<(Cell, Cell)>)
  {
    forall j :: 0 <= j < |sol| ==>
      (sol[j].cell1, sol[j].cell2) in ps && sol[j].orientation == Orientation(sol[j].cell1, sol[j].cell2)
  }

  /** Placement j covers pair j, for every pair. */
  predicate AllPairs(sol: seq<SolutionStep>, ps: seq<(Cell, Cell)>)
  {
    |sol| == |ps| && forall j :: 0 <= j < |sol| ==> (sol[j].cell1, sol[j].cell2) == ps[j]
  }

  /** Whatever the regions, the solution uses at most one of each domino of the set. */
  lemma SolvePuzzleDominoes(regions: seq<Region>, rand: Oracle, k: nat)
    ensures SetDominoes(SolvePuzzle(regions, rand, k).0)
    ensures |SolvePuzzle(regions, rand, k).0| <= 28
    ensures SolvePuzzle(regions, rand, k).1 == k + 27
  {
    FullSetShape();
    var initial := Shuffle(FullSet(), rand, k);
    ShuffledSetIds(rand, k);
    ProcessInv(Pairs(regions), SolverStart(initial), initial);
    var sol := SolvePuzzle(regions, rand, k).0;
    forall j | 0 <= j < |sol|
      ensures GetDominoById(FullSet(), sol[j].domino).Some?
    {
      assert initial[27 - j] in initial;
    }
  }

  /** Whatever the regions, no two placements share a cell and each covers a pair of
      cells the walk visits, oriented by its rows. */
  lemma SolvePuzzleCells(regions: seq<Region>, rand: Oracle, k: nat)
    ensures StepsApart(SolvePuzzle(regions, rand, k).0)
    ensures OnPairs(SolvePuzzle(regions, rand, k).0, Pairs(regions))
  {
    var initial := Shuffle(FullSet(), rand, k);
    ProcessInv(Pairs(regions), SolverStart(initial), initial);
  }

  /** When no region cell repeats and there are at most 28 pairs, every pair is
      covered, in order. */
  lemma SolvePuzzleExact(regions: seq<Region>, rand: Oracle, k: nat)
    requires NoRepeatedCells(RegionCells(regions)) && |Pairs(regions)| <= 28
    ensures AllPairs(SolvePuzzle(regions, rand, k).0, Pairs(regions))
  {
    FullSetShape();
    var initial := Shuffle(FullSet(), rand, k);
    PairsWithinRegions(regions);
    NoDuplicatesSub(RegionCells(regions), PairCells(Pairs(regions)));
    ProcessExact(Pairs(regions), SolverStart(initial));
  }

  // ---------------------------------------------------------------- whole puzzles

  /** `generatePuzzle`. */
  function GeneratePuzzle(difficulty: string, rand: Oracle, k: nat): (r: (Puzzle, nat))
  {
    var config := GetDifficultyConfig(difficulty);
    var regions := CreateRegions(CreateGrid(config.size), config, rand, k);
    var placement := SolvePuzzle(regions.0, rand, regions.1);
    (Puzzle(config.size, regions.0, placement.0, difficulty), placement.1)
  }

  /** A generated puzzle: its regions cover 2 * dominoCount distinct squares of its
      grid, and its solution covers every pair of region cells the solver walks, in
      order, each with a domino of the set, no domino twice. */
  lemma GeneratedPuzzleFacts(difficulty: string, rand: Oracle, k: nat)
    ensures GeneratePuzzle(difficulty, rand, k).0.size == GetDifficultyConfig(difficulty).size
    ensures NoRepeatedCells(RegionCells(GeneratePuzzle(difficulty, rand, k).0.regions))
    ensures |RegionCells(GeneratePuzzle(difficulty, rand, k).0.regions)|
            == 2 * GetDifficultyConfig(difficulty).dominoCount
    ensures forall c :: c in RegionCells(GeneratePuzzle(difficulty, rand, k).0.regions) ==>
              InGrid(c, GeneratePuzzle(difficulty, rand, k).0.size)
    ensures Shaped(GeneratePuzzle(difficulty, rand, k).0.regions, 0)
    ensures AllPairs(GeneratePuzzle(difficulty, rand, k).0.solution,
                     Pairs(GeneratePuzzle(difficulty, rand, k).0.regions))
    ensures SetDominoes(GeneratePuzzle(difficulty, rand, k).0.solution)
  {
    var config := GetDifficultyConfig(difficulty);
    var regions := CreateRegions(CreateGrid(config.size), config, rand, k);
    CreateRegionsFacts(CreateGrid(config.size), config.size.cols, config, rand, k);
    GridSquares(config.size);
    PairsWithinRegions(regions.0);
    SolvePuzzleDominoes(regions.0, rand, regions.1);
    SolvePuzzleExact(regions.0, rand, regions.1);
  }

  // ---------------------------------------------------------------- predefined puzzles

  function Easy(): GridSize
  {
    GridSize(5, 7)
  }

  /** `PREDEFINED_PUZZLES.easy[0]` as written. */
  function PredefinedEasyAsWritten(): Puzzle
  {
    Puzzle(Easy(), [
      Region(0, [Cell(0, 0), Cell(0, 1), Cell(1, 0), Cell(1, 1)], RuleSum(14), "pink"),
      Region(1, [Cell(0, 2), Cell(0, 3), Cell(1, 2)], RuleMatch(3), "blue"),
      Region(2, [Cell(2, 0), Cell(2, 1), Cell(3, 0), Cell(3, 1)], RuleMin(4), "orange"),
      Region(3, [Cell(2, 2), Cell(2, 3), Cell(3, 2), Cell(3, 3)], RuleDifferent(), "green")
    ], [
      SolutionStep("6-6", Cell(0, 0), Cell(0, 1), "horizontal"),
      SolutionStep("1-1", Cell(1, 0), Cell(1, 1), "horizontal"),
      SolutionStep("3-3", Cell(0, 2), Cell(1, 2), "vertical"),
      SolutionStep("5-4", Cell(2, 0), Cell(3, 0), "vertical"),
      SolutionStep("4-5", Cell(2, 1), Cell(3, 1), "vertical"),
      SolutionStep("2-6", Cell(2, 2), Cell(3, 2), "vertical"),
      SolutionStep("3-5", Cell(2, 3), Cell(3, 3), "vertical")
    ], "easy")
  }

  /** The easy puzzle as evidently intended: the blue match-3 region without its
      stray cell (0,3), which no domino of the solution covers and which would leave
      an odd number of cells, and the set's `4-5` and `5-5` on the orange min-4 region
      instead of `5-4` (no such domino) and a second `4-5`. */
  function PredefinedEasy(): Puzzle
  {
    Puzzle(Easy(), [
      Region(0, [Cell(0, 0), Cell(0, 1), Cell(1, 0), Cell(1, 1)], RuleSum(14), "pink"),
      Region(1, [Cell(0, 2), Cell(1, 2)], RuleMatch(3), "blue"),
      Region(2, [Cell(2, 0), Cell(2, 1), Cell(3, 0), Cell(3, 1)], RuleMin(4), "orange"),
      Region(3, [Cell(2, 2), Cell(2, 3), Cell(3, 2), Cell(3, 3)], RuleDifferent(), "green")
    ], [
      SolutionStep("6-6", Cell(0, 0), Cell(0, 1), "horizontal"),
      SolutionStep("1-1", Cell(1, 0), Cell(1, 1), "horizontal"),
      SolutionStep("3-3", Cell(0, 2), Cell(1, 2), "vertical"),
      SolutionStep("4-5", Cell(2, 0), Cell(3, 0), "vertical"),
      SolutionStep("5-5", Cell(2, 1), Cell(3, 1), "vertical"),
      SolutionStep("2-6", Cell(2, 2), Cell(3, 2), "vertical"),
      SolutionStep("3-5", Cell(2, 3), Cell(3, 3), "vertical")
    ], "easy")
  }

  /** `PREDEFINED_PUZZLES`, with the corrected easy puzzle. */
  function PredefinedPuzzles(): map<string, seq<Puzzle>>
  {
    map["easy" := [PredefinedEasy()]]
  }

  /** The easy puzzle as written has 15 cells, an odd number that dominoes cannot
      fill, among them (0,3). */
  lemma PredefinedEasyAsWrittenOdd()
    ensures |RegionCells(PredefinedEasyAsWritten().regions)| == 15
    ensures Cell(0, 3) in RegionCells(PredefinedEasyAsWritten().regions)
  {
    var r := PredefinedEasyAsWritten().regions;
    assert RegionCells(r) == r[0].cells + (r[1].cells + (r[2].cells + (r[3].cells + [])));
    assert r[1].cells[1] == Cell(0, 3);
  }

  /** Its solution covers no domino on (0,3). */
  lemma PredefinedEasyAsWrittenUncovered()
    ensures forall j :: 0 <= j < |PredefinedEasyAsWritten().solution| ==>
              PredefinedEasyAsWritten().solution[j].cell1 != Cell(0, 3)
              && PredefinedEasyAsWritten().solution[j].cell2 != Cell(0, 3)
  {
  }

  /** Its solution names `5-4`, which the set does not hold. */
  lemma PredefinedEasyAsWrittenMissingDomino()
    ensures PredefinedEasyAsWritten().solution[3].domino == "5-4"
    ensures GetDominoById(FullSet(), "5-4") == None
  {
    NoFiveFour();
  }

  lemma NoFiveFour()
    ensures GetDominoById(FullSet(), "5-4") == None
  {
    assert DominoId(5, 4) == "5-4";
    LookupReversed(5, 4);
  }

  /** The corrected easy puzzle has an even number of region cells, 14. */
  lemma PredefinedEasyEven()
    ensures |RegionCells(PredefinedEasy().regions)| == 14
  {
    var r := PredefinedEasy().regions;
    assert RegionCells(r) == r[0].cells + (r[1].cells + (r[2].cells + (r[3].cells + [])));
  }

  /** Its solution covers every region cell, and every cell a step covers is a region
      cell. */
  lemma PredefinedEasyCovered(c: Cell)
    ensures c in RegionCells(PredefinedEasy().regions) <==>
              exists j :: 0 <= j < |PredefinedEasy().solution|
                && (PredefinedEasy().solution[j].cell1 == c || PredefinedEasy().solution[j].cell2 == c)
  {
    var p := PredefinedEasy();
    var r := p.regions;
    assert RegionCells(r) == r[0].cells + (r[1].cells + (r[2].cells + (r[3].cells + [])));
    if c in RegionCells(r) {
      var cells := RegionCells(r);
      var i :| 0 <= i < |cells| && cells[i] == c;
      var j := [0, 0, 1, 1, 2, 2, 3, 4, 3, 4, 5, 6, 5, 6][i];
      assert p.solution[j].cell1 == c || p.solution[j].cell2 == c;
    }
  }

  /** An id `a-b` with digits a <= b <= 6, the form every domino of the set has. */
  predicate IsSetId(id: string)
  {
    |id| == 3 && id[1] == '-' && '0' <= id[0] <= id[2] <= '6'
  }

  /** Every id of that form names a domino of the set. */
  lemma SetIdPresent(id: string)
    requires IsSetId(id)
    ensures GetDominoById(FullSet(), id).Some?
  {
    var a := id[0] as int - '0' as int;
    var b := id[2] as int - '0' as int;
    assert DominoId(a, b) == id;
    LookupPresent(a, b);
  }

  /** Every domino its solution names is in the set. */
  lemma PredefinedEasyDominoes()
    ensures forall j :: 0 <= j < |PredefinedEasy().solution| ==>
              GetDominoById(FullSet(), PredefinedEasy().solution[j].domino).Some?
  {
    var sol := PredefinedEasy().solution;
    forall j | 0 <= j < |sol|
      ensures GetDominoById(FullSet(), sol[j].domino).Some?
    {
      assert IsSetId(sol[j].domino);
      SetIdPresent(sol[j].domino);
    }
  }
}

=== FILE: pips_regions.dfy ===
/** Pips boards: cells, regions with their rules, whole puzzles, the `Rules` factories,
    region validation, and the hand-made board shapes. */
module PipsRegions {
  import opened Wrappers

  /** A square `{ row, col }`. Cell keys `${row},${col}` are one-to-one on these. */
  datatype Cell = Cell(row: nat, col: nat)

  datatype GridSize = GridSize(rows: nat, cols: nat)

  /** The rule types: 'sum', 'match', 'min', 'max', 'different', 'none' and 'zero'. */
  datatype RuleKind = Sum | Match | Min | Max | Different | NoRule | Zero

  /** A rule `{ type, value }`; a null value is None. The label is display only. */
  datatype Rule = Rule(kind: RuleKind, value: Option<int>)

  datatype Region = Region(id: nat, cells: seq<Cell>, rule: Rule, color: string)

  /** One step of a stored solution: `{ domino, cells: [cell1, cell2], orientation }`. */
  datatype SolutionStep = SolutionStep(domino: string, cell1: Cell, cell2: Cell, orientation: string)

  datatype Puzzle = Puzzle(size: GridSize, regions: seq<Region>, solution: seq<SolutionStep>,
                           difficulty: string)

  // ---------------------------------------------------------------- the `Rules` factories

  function RuleSum(v: int): (r: Rule)
    ensures r.kind == Sum && r.value == Some(v)
  {
    Rule(Sum, Some(v))
  }

  function RuleMin(v: int): (r: Rule)
    ensures r.kind == Min && r.value == Some(v)
  {
    Rule(Min, Some(v))
  }

  function RuleMax(v: int): (r: Rule)
    ensures r.kind == Max && r.value == Some(v)
  {
    Rule(Max, Some(v))
  }

  function RuleMatch(v: int): (r: Rule)
    ensures r.kind == Match && r.value == Some(v)
  {
    Rule(Match, Some(v))
  }

  function RuleDifferent(): (r: Rule)
    ensures r.kind == Different && r.value.None?
  {
    Rule(Different, None)
  }

  /** Documented as: every cell of the region must show 0 pips, like a sum of 0. */
  function RuleZero(): (r: Rule)
    ensures r.kind == Zero && r.value == Some(0)
  {
    Rule(Zero, Some(0))
  }

  // ---------------------------------------------------------------- validation

  /** `values.reduce((a, b) => a + b, 0)`. */
  function SumOf(values: seq<int>): int
  {
    if |values| == 0 then 0 else values[0] + SumOf(values[1..])
  }

  /** A JS relational comparison with a number or null: null compares as 0. */
  function AsNumber(v: Option<int>): int
  {
    if v.Some? then v.value else 0
  }

  function ValueSet(values: seq<int>): set<int>
  {
    set v | v in values
  }

  predicate AllDistinct(values: seq<int>)
  {
    forall i, j :: 0 <= i < j < |values| ==> values[i] != values[j]
  }

  /** `new Set(values).size === values.length` says exactly that no value repeats. */
  lemma {:induction false} SetSizeDistinct(values: seq<int>)
    ensures |ValueSet(values)| <= |values|
    ensures |ValueSet(values)| == |values| <==> AllDistinct(values)
  {
    if |values| > 0 {
      var init := values[..|values| - 1];
      var last := values[|values| - 1];
      SetSizeDistinct(init);
      assert values == init + [last];
      assert ValueSet(values) == ValueSet(init) + {last};
      if last in ValueSet(init) {
        var i :| 0 <= i < |init| && init[i] == last;
        assert values[i] == values[|values| - 1];
      } else if AllDistinct(init) {
        assert forall i :: 0 <= i < |init| ==> values[i] != last;
      }
    }
  }

  /** `validateRegion` as written: wrong value count fails; 'sum' compares the total
      with `===` (a null value never matches); 'match', 'min' and 'max' test every
      value ('min' and 'max' compare a null value as 0); 'different' wants no repeats;
      'none', 'zero' and anything else pass. */
  function ValidateRegionAsWritten(region: Region, values: seq<int>): bool
  {
    if |values| != |region.cells| then false
    else match region.rule.kind
      case Sum => region.rule.value == Some(SumOf(values))
      case Match => forall i :: 0 <= i < |values| ==> Some(values[i]) == region.rule.value
      case Min => forall i :: 0 <= i < |values| ==> values[i] >= AsNumber(region.rule.value)
      case Max => forall i :: 0 <= i < |values| ==> values[i] <= AsNumber(region.rule.value)
      case Different => |ValueSet(values)| == |values|
      case NoRule => true
      case Zero => true
  }

  /** `validateRegion` with the 'zero' rule checked as documented: every value is 0.
      Every other rule is validated exactly as written. */
  function ValidateRegion(region: Region, values: seq<int>): (ok: bool)
    ensures region.rule.kind != Zero ==> ok == ValidateRegionAsWritten(region, values)
    ensures ok ==> |values| == |region.cells|
  {
    if |values| != |region.cells| then false
    else if region.rule.kind == Zero then forall i :: 0 <= i < |values| ==> values[i] == 0
    else ValidateRegionAsWritten(region, values)
  }

  /** What each factory's rule demands of a region whose every cell holds a value. */
  lemma RuleSemantics(cells: seq<Cell>, id: nat, color: string, values: seq<int>, v: int)
    requires |values| == |cells|
    ensures ValidateRegion(Region(id, cells, RuleSum(v), color), values) <==> SumOf(values) == v
    ensures ValidateRegion(Region(id, cells, RuleMatch(v), color), values) <==>
              forall i :: 0 <= i < |values| ==> values[i] == v
    ensures ValidateRegion(Region(id, cells, RuleMin(v), color), values) <==>
              forall i :: 0 <= i < |values| ==> values[i] >= v
    ensures ValidateRegion(Region(id, cells, RuleMax(v), color), values) <==>
              forall i :: 0 <= i < |values| ==> values[i] <= v
    ensures ValidateRegion(Region(id, cells, RuleDifferent(), color), values) <==> AllDistinct(values)
    ensures ValidateRegion(Region(id, cells, RuleZero(), color), values) <==>
              forall i :: 0 <= i < |values| ==> values[i] == 0
  {
    SetSizeDistinct(values);
  }

  /** The 'zero' rule as written accepts a region whose cells hold 6 and 6, although
      its documentation asks for 0 pips; the checked version refuses it. */
  lemma ZeroRuleUnchecked()
    ensures var zero := Region(3, [Cell(2, 1), Cell(2, 2)], RuleZero(), "gray");
      ValidateRegionAsWritten(zero, [6, 6]) && !ValidateRegion(zero, [6, 6])
  {
    var zero := Region(3, [Cell(2, 1), Cell(2, 2)], RuleZero(), "gray");
    assert [6, 6][0] != 0;
  }

  /** The cell under a domino's second half when its first half is on (row, col):
      to the right when 'horizontal', below for any other orientation. */
  function SecondCell(c: Cell, orientation: string): (r: Cell)
    ensures orientation == "horizontal" ==> r.row == c.row && r.col == c.col + 1
    ensures orientation != "horizontal" ==> r.row == c.row + 1 && r.col == c.col
  {
    if orientation == "horizontal" then Cell(c.row, c.col + 1) else Cell(c.row + 1, c.col)
  }

  /** The cells of all regions, region by region. */
  function RegionCells(regions: seq<Region>): seq<Cell>
  {
    if |regions| == 0 then [] else regions[0].cells + RegionCells(regions[1..])
  }

  // ---------------------------------------------------------------- board shapes

  datatype Shape = Shape(id: string, size: GridSize, regions: seq<Region>)

  /** `basicStairShape`: a 2x2 sum-6 square, a 4-cell min-3 bar, a 2x2 sum-12 square
      and a 2-cell zero region on a 5x5 grid. */
  function BasicStairShape(): Shape
  {
    Shape("basic-stair-1", GridSize(5, 5), [
      Region(0, [Cell(0, 0), Cell(0, 1), Cell(1, 0), Cell(1, 1)], RuleSum(6), "purple"),
      Region(1, [Cell(0, 3), Cell(1, 3), Cell(2, 3), Cell(3, 3)], RuleMin(3), "teal"),
      Region(2, [Cell(3, 1), Cell(3, 2), Cell(4, 1), Cell(4, 2)], RuleSum(12), "orange"),
      Region(3, [Cell(2, 1), Cell(2, 2)], RuleZero(), "gray")
    ])
  }

  /** `BOARD_SHAPES`. */
  function BoardShapes(): map<string, seq<Shape>>
  {
    map["easy" := [BasicStairShape()], "medium" := [], "hard" := []]
  }

  predicate NoRepeatedCells(cells: seq<Cell>)
  {
    forall i, j :: 0 <= i < j < |cells| ==> cells[i] != cells[j]
  }

  predicate InGrid(c: Cell, size: GridSize)
  {
    c.row < size.rows && c.col < size.cols
  }

  predicate Apart(a: seq<Cell>, b: seq<Cell>)
  {
    forall c :: c in a ==> c !in b
  }

  /** A shape's regions have no cell twice and share no cell, lie inside its grid, and
      have distinct ids. */
  predicate ShapeWellFormed(s: Shape)
  {
    (forall i :: 0 <= i < |s.regions| ==> NoRepeatedCells(s.regions[i].cells))
    && (forall i, j :: 0 <= i < j < |s.regions| ==> Apart(s.regions[i].cells, s.regions[j].cells))
    && (forall i, c :: 0 <= i < |s.regions| && c in s.regions[i].cells ==> InGrid(c, s.size))
    && forall i, j :: 0 <= i < j < |s.regions| ==> s.regions[i].id != s.regions[j].id
  }

  lemma StairApartFirst()
    ensures var r := BasicStairShape().regions;
      Apart(r[0].cells, r[1].cells) && Apart(r[0].cells, r[2].cells) && Apart(r[0].cells, r[3].cells)
  {
  }

  lemma StairApartRest()
    ensures var r := BasicStairShape().regions;
      Apart(r[1].cells, r[2].cells) && Apart(r[1].cells, r[3].cells) && Apart(r[2].cells, r[3].cells)
  {
  }

  lemma StairCellsSingle()
    ensures var r := BasicStairShape().regions;
      forall i :: 0 <= i < |r| ==> NoRepeatedCells(r[i].cells)
  {
  }

  lemma StairInGrid()
    ensures var s := BasicStairShape();
      forall i, c :: 0 <= i < |s.regions| && c in s.regions[i].cells ==> InGrid(c, s.size)
  {
  }

  lemma ShapeTable()
    ensures BoardShapes().Keys == {"easy", "medium", "hard"}
    ensures |BoardShapes()["easy"]| == 1 && BoardShapes()["medium"] == [] && BoardShapes()["hard"] == []
  {
  }

  /** The stair shape is well formed, its ids are 0..3, and only the easy level has a
      shape. */
  lemma BoardShapesFacts()
    ensures ShapeWellFormed(BasicStairShape())
    ensures forall i :: 0 <= i < |BasicStairShape().regions| ==> BasicStairShape().regions[i].id == i
    ensures BoardShapes().Keys == {"easy", "medium", "hard"}
    ensures |BoardShapes()["easy"]| == 1 && BoardShapes()["medium"] == [] && BoardShapes()["hard"] == []
  {
    StairApartFirst();
    StairApartRest();
    StairCellsSingle();
    StairInGrid();
    ShapeTable();
  }
}

=== FILE: random.dfy ===
/** `Math.random` as an oracle, and the Fisher-Yates shuffle every game uses.

    The k-th call of `Math.floor(Math.random() * n)` is modelled as `Draw(rand, k, n)`.
    Any sequence of in-range choices is expressible (take `rand(k)` to be the k-th
    choice), so a property proved for every oracle holds for every run. */
module Random {

  type Oracle = nat -> nat

  /** The k-th random choice in [0, n). */
  function Draw(rand: Oracle, k: nat, n: nat): (r: nat)
    requires n > 0
    ensures r < n
  {
    rand(k) % n
  }

  /** A coin flip `Math.random() < 0.5`: true when the k-th draw out of two is 0. */
  predicate Coin(rand: Oracle, k: nat)
  {
    Draw(rand, k, 2) == 0
  }

  function Swap<T>(a: seq<T>, i: nat, j: nat): (r: seq<T>)
    requires i < |a| && j < |a|
    ensures |r| == |a| && r[i] == a[j] && r[j] == a[i]
    ensures forall m :: 0 <= m < |a| && m != i && m != j ==> r[m] == a[m]
    ensures multiset(r) == multiset(a)
  {
    a[i := a[j]][j := a[i]]
  }

  /** Fisher-Yates steps i, i-1, ..., 1: swap a[i] with a[j], j drawn from [0, i]. */
  function ShuffleDown<T>(a: seq<T>, i: nat, rand: Oracle, k: nat): (r: seq<T>)
    requires i < |a|
    ensures |r| == |a|
    ensures multiset(r) == multiset(a)
    decreases i
  {
    if i == 0 then a
    else ShuffleDown(Swap(a, i, Draw(rand, k, i + 1)), i - 1, rand, k + 1)
  }

  /** `shuffleArray`: the loop `for (i = n - 1; i > 0; i--)`. It returns a permutation of
      its input, so no element is lost, duplicated or invented. */
  function Shuffle<T>(a: seq<T>, rand: Oracle, k: nat): (r: seq<T>)
    ensures |r| == |a|
    ensures multiset(r) == multiset(a)
  {
    if |a| <= 1 then a else ShuffleDown(a, |a| - 1, rand, k)
  }

  /** How many oracle draws one `Shuffle` of n elements consumes. */
  function ShuffleDraws(n: nat): nat
  {
    if n <= 1 then 0 else n - 1
  }

  /** The lesser of two counts (`Math.min`). */
  function Smaller(a: nat, b: nat): nat
  {
    if a <= b then a else b
  }

  /** No element occurs twice. */
  predicate NoDuplicates<T(==)>(s: seq<T>)
  {
    forall i, j :: 0 <= i < j < |s| ==> s[i] != s[j]
  }

  lemma {:induction false} NoDuplicatesCount<T>(s: seq<T>, x: T)
    requires NoDuplicates(s)
    ensures multiset(s)[x] <= 1
  {
    if |s| > 0 {
      assert s == [s[0]] + s[1..];
      assert NoDuplicates(s[1..]);
      NoDuplicatesCount(s[1..], x);
      if s[0] == x {
        assert x !in s[1..];
      }
    }
  }

  lemma RepeatCount<T>(s: seq<T>, i: nat, j: nat)
    requires i < j < |s| && s[i] == s[j]
    ensures multiset(s)[s[i]] >= 2
  {
    assert s == s[..j] + s[j..];
    assert s[i] in s[..j];
  }

  /** A sequence whose elements are drawn, without reuse, from one without repeats
      (a permutation of it, such as a shuffle, or a selection from it) has none either. */
  lemma NoDuplicatesSub<T>(a: seq<T>, b: seq<T>)
    requires multiset(b) <= multiset(a) && NoDuplicates(a)
    ensures NoDuplicates(b)
  {
    forall i, j | 0 <= i < j < |b|
      ensures b[i] != b[j]
    {
      if b[i] == b[j] {
        NoDuplicatesCount(a, b[i]);
        RepeatCount(b, i, j);
      }
    }
  }

  /** The elements of a sequence, as a set. */
  function Elems<T>(s: seq<T>): set<T>
  {
    set x | x in s
  }

  /** A subset is no larger, and one just as large is the whole set. */
  lemma SubsetCard<T>(a: set<T>, b: set<T>)
    requires a <= b
    ensures |a| <= |b| && (|a| == |b| ==> a == b)
  {
    assert b == a + (b - a);
  }

  /** A sequence has at most as many elements as entries, and exactly as many when no
      element repeats. */
  lemma {:induction false} ElemsCard<T>(s: seq<T>)
    ensures |Elems(s)| <= |s|
    ensures NoDuplicates(s) ==> |Elems(s)| == |s|
  {
    if |s| > 0 {
      ElemsCard(s[1..]);
      assert Elems(s) == {s[0]} + Elems(s[1..]);
      assert NoDuplicates(s) ==> s[0] !in Elems(s[1..]) && NoDuplicates(s[1..]);
    }
  }
}

=== FILE: strands_grid.dfy ===
/** Board geometry of the Strands game: a 6-column, 8-row board whose cells are
    numbered row by row, king-move adjacency, and the path predicates the allocator
    and the drag logic are stated with. */
module StrandsGrid {
  import opened Random

  const Cols: nat := 6
  const Rows: nat := 8
  /** `COLS * ROWS`, the `targetCells` of the allocator. */
  const CellCount: nat := 48

  function AbsDiff(a: int, b: int): nat
  {
    if a >= b then a - b else b - a
  }

  /** `isAdjacent`: row and column of the two indices differ by at most one each.
      Nothing excludes i1 == i2, whatever the source comment says. */
  predicate IsAdjacent(i1: nat, i2: nat)
  {
    AbsDiff(i1 / Cols, i2 / Cols) <= 1 && AbsDiff(i1 % Cols, i2 % Cols) <= 1
  }

  /** Adjacency is symmetric and reflexive; it never wraps from the end of one row to
      the start of the next, and never spans two rows. */
  lemma AdjacencyFacts(a: nat, b: nat)
    ensures IsAdjacent(a, b) == IsAdjacent(b, a)
    ensures IsAdjacent(a, a)
    ensures IsAdjacent(0, 7) && !IsAdjacent(0, 12) && !IsAdjacent(5, 6)
  {
  }

  /** The cell at row nr, column nc, and its row and column recovered from the index. */
  lemma CellIndex(nr: nat, nc: nat)
    requires nc < Cols
    ensures (nr * Cols + nc) / Cols == nr && (nr * Cols + nc) % Cols == nc
  {
  }

  lemma IndexSplit(n: nat)
    ensures n == (n / Cols) * Cols + n % Cols && n % Cols < Cols
  {
  }

  /** n is one of the (at most eight) board cells a king move away from idx. */
  predicate Around(idx: nat, n: nat)
  {
    n < CellCount && n != idx && IsAdjacent(idx, n)
  }

  /** Row-major position of n strictly before row r, column c. */
  predicate Before(n: nat, r: int, c: int)
  {
    n / Cols < r || (n / Cols == r && n % Cols < c)
  }

  /** `getNeighbors`: exactly the in-bounds cells at the eight king offsets, in
      increasing order, never idx itself. */
  method GetNeighbors(idx: nat) returns (ns: seq<nat>)
    ensures forall n: nat :: n in ns <==> Around(idx, n)
    ensures forall i, j :: 0 <= i < j < |ns| ==> ns[i] < ns[j]
  {
    ns := [];
    var r := idx / Cols;
    var c := idx % Cols;
    IndexSplit(idx);
    var dr := -1;
    while dr <= 1
      invariant -1 <= dr <= 2
      invariant forall n: nat :: n in ns <==> Around(idx, n) && n / Cols < r + dr
      invariant forall i, j :: 0 <= i < j < |ns| ==> ns[i] < ns[j]
    {
      var dc := -1;
      while dc <= 1
        invariant -1 <= dc <= 2
        invariant forall n: nat :: n in ns <==> Around(idx, n) && Before(n, r + dr, c + dc)
        invariant forall i, j :: 0 <= i < j < |ns| ==> ns[i] < ns[j]
      {
        var nr := r + dr;
        var nc := c + dc;
        if !(dr == 0 && dc == 0) && 0 <= nr < Rows && 0 <= nc < Cols {
          var cell := nr * Cols + nc;
          CellIndex(nr, nc);
          forall i | 0 <= i < |ns|
            ensures ns[i] < cell
          {
            var m := ns[i];
            assert m in ns;
            assert Before(m, nr, nc);
            IndexSplit(m);
            assert m == (m / 6) * 6 + m % 6;
            assert cell == nr * 6 + nc;
          }
          forall n: nat | Around(idx, n) && Before(n, r + dr, c + dc + 1)
            ensures n in ns + [cell]
          {
            IndexSplit(n);
            if !Before(n, r + dr, c + dc) {
              assert n / Cols == nr && n % Cols == nc;
            }
          }
          ns := ns + [cell];
        } else {
          forall n: nat | Around(idx, n) && Before(n, r + dr, c + dc + 1)
            ensures n in ns
          {
            IndexSplit(n);
            assert Before(n, r + dr, c + dc);
          }
        }
        dc := dc + 1;
      }
      forall n: nat | Around(idx, n) && n / Cols < r + dr + 1
        ensures Before(n, r + dr, c + 2)
      {
        IndexSplit(n);
      }
      dr := dr + 1;
    }
  }

  predicate Connected(p: seq<nat>)
  {
    forall i :: 0 <= i < |p| - 1 ==> IsAdjacent(p[i], p[i + 1])
  }

  predicate OnBoard(p: seq<nat>)
  {
    forall i :: 0 <= i < |p| ==> p[i] < CellCount
  }

  predicate Avoids(p: seq<nat>, used: set<nat>)
  {
    forall i :: 0 <= i < |p| ==> p[i] !in used
  }

  /** A word path: a self-avoiding king path of board cells, none of them in `used`. */
  predicate IsTrail(p: seq<nat>, used: set<nat>)
  {
    OnBoard(p) && NoDuplicates(p) && Connected(p) && Avoids(p, used)
  }

  /** q is a trail of length len that starts with path. */
  predicate Completes(path: seq<nat>, q: seq<nat>, len: nat, used: set<nat>)
  {
    |path| <= |q| && q[..|path|] == path && |q| == len && IsTrail(q, used)
  }

  function Reverse(p: seq<nat>): (r: seq<nat>)
    ensures |r| == |p|
    ensures forall i :: 0 <= i < |p| ==> r[i] == p[|p| - 1 - i]
  {
    seq(|p|, i requires 0 <= i < |p| => p[|p| - 1 - i])
  }

  /** Reading a trail backwards gives a trail over the same cells. */
  lemma ReverseTrail(p: seq<nat>, used: set<nat>)
    requires IsTrail(p, used)
    ensures IsTrail(Reverse(p), used) && Elems(Reverse(p)) == Elems(p)
  {
    var r := Reverse(p);
    forall i | 0 <= i < |r| - 1
      ensures IsAdjacent(r[i], r[i + 1])
    {
      assert IsAdjacent(p[|p| - 2 - i], p[|p| - 1 - i]);
    }
    forall x | x in Elems(p)
      ensures x in Elems(r)
    {
      var i :| 0 <= i < |p| && p[i] == x;
      assert r[|p| - 1 - i] == x;
    }
  }

  /** The cells numbered below n. */
  function Below(n: nat): (s: set<nat>)
    ensures forall x: nat :: x in s <==> x < n
  {
    if n == 0 then {} else Below(n - 1) + {n - 1}
  }

  /** All board cells. */
  function AllCells(): set<nat>
  {
    Below(CellCount)
  }

  lemma {:induction false} BelowCard(n: nat)
    ensures |Below(n)| == n
  {
    if n > 0 {
      BelowCard(n - 1);
      assert n - 1 !in Below(n - 1);
    }
  }

  /** A set of board cells with as many members as the board is the whole board. */
  lemma FullBoard(s: set<nat>)
    requires s <= AllCells() && |s| == CellCount
    ensures s == AllCells()
  {
    BelowCard(CellCount);
    var rest := AllCells() - s;
    assert AllCells() == s + rest && s * rest == {};
    assert |AllCells()| == |s| + |rest|;
  }
}

=== FILE: strands_layout.dfy ===
/** How the Strands board is filled from a word list (`generateGridFromWords` and its
    fallback `simpleRowLayout`). A layout is the 48-letter grid string and the map from
    each word to the cells that spell it. */
module StrandsLayout {
  import opened Wrappers
  import opened Random
  import opened StrandsGrid
  import opened StrandsSearch

  datatype Layout = Layout(grid: string, solutions: map<string, seq<nat>>)

  /** `words.reduce((sum, w) => sum + w.length, 0)`. */
  function TotalLetters(words: seq<string>): nat
  {
    if |words| == 0 then 0 else |words[0]| + TotalLetters(words[1..])
  }

  /** The words written one after the other. */
  function Concat(words: seq<string>): (r: string)
    ensures |r| == TotalLetters(words)
  {
    if |words| == 0 then "" else words[0] + Concat(words[1..])
  }

  lemma {:induction false} TotalLettersAppend(a: seq<string>, b: seq<string>)
    ensures TotalLetters(a + b) == TotalLetters(a) + TotalLetters(b)
  {
    if |a| == 0 {
      assert a + b == b;
    } else {
      assert (a + b)[1..] == a[1..] + b;
      TotalLettersAppend(a[1..], b);
    }
  }

  lemma TotalLettersRemove(b: seq<string>, j: nat)
    requires j < |b|
    ensures TotalLetters(b) == |b[j]| + TotalLetters(b[..j] + b[j + 1..])
  {
    var rest := b[j + 1..];
    assert b == b[..j] + ([b[j]] + rest);
    assert ([b[j]] + rest)[1..] == rest;
    TotalLettersAppend(b[..j], [b[j]] + rest);
    TotalLettersAppend(b[..j], rest);
  }

  /** Reordering the words does not change how many letters they hold, so a shuffled
      word list still needs exactly the same number of cells. */
  lemma {:induction false} TotalLettersPermutation(a: seq<string>, b: seq<string>)
    requires multiset(a) == multiset(b)
    ensures TotalLetters(a) == TotalLetters(b)
    decreases |a|
  {
    if |a| > 0 {
      assert a[0] in multiset(b);
      var j :| 0 <= j < |b| && b[j] == a[0];
      var b' := b[..j] + b[j + 1..];
      assert b == b[..j] + [b[j]] + b[j + 1..];
      assert a == [a[0]] + a[1..];
      calc {
        multiset(a[1..]);
        multiset(a) - multiset{a[0]};
        multiset(b) - multiset{b[j]};
        multiset(b[..j]) + multiset(b[j + 1..]);
        multiset(b');
      }
      TotalLettersPermutation(a[1..], b');
      TotalLettersRemove(b, j);
    }
  }

  // ---------------------------------------------------------------- row-wise fallback

  /** The cells start, start+1, ..., start+n-1. */
  function Run(start: nat, n: nat): (r: seq<nat>)
    ensures |r| == n && forall i :: 0 <= i < n ==> r[i] == start + i
  {
    seq(n, i requires 0 <= i < n => start + i)
  }

  /** How many of the word's letters still fit on a board of `target` cells when
      `idx` of them are taken. */
  function RunLength(w: string, idx: nat, target: nat): (n: nat)
    ensures n <= |w| && (idx <= target ==> idx + n <= target)
    ensures idx < target && |w| <= target - idx ==> n == |w|
  {
    if idx >= target then 0 else Smaller(|w|, target - idx)
  }

  /** The two loops of `simpleRowLayout`, continuing from the letters `grid` already
      written: each word takes the next cells in order until the board of `target` cells
      is full. The result is the letters written and the index lists (a later copy of a
      word replaces an earlier one, as object assignment does). */
  function RowRuns(words: seq<string>, grid: string, target: nat): (r: (string, map<string, seq<nat>>))
    requires |grid| <= target
    ensures |r.0| == |grid| + Smaller(TotalLetters(words), target - |grid|)
    ensures r.0[..|grid|] == grid
    ensures forall w :: w in r.1 <==> w in words
    decreases |words|
  {
    if |words| == 0 then (grid, map[])
    else
      var n := RunLength(words[0], |grid|, target);
      var rest := RowRuns(words[1..], grid + words[0][..n], target);
      assert rest.0[..|grid|] == (grid + words[0][..n])[..|grid|];
      (rest.0, map[words[0] := Run(|grid|, n)] + rest.1)
  }

  /** The word's index list is a run of consecutive cells, no longer than the word,
      along which the grid reads the word's first letters. */
  predicate RunSpells(grid: string, w: string, p: seq<nat>)
  {
    |p| <= |w| && forall i :: 0 <= i < |p| ==> p[i] == p[0] + i && p[i] < |grid| && grid[p[i]] == w[i]
  }

  /** The letters written are the words' letters in order, cut off at the board's end. */
  lemma {:induction false} RowRunsLetters(words: seq<string>, grid: string, target: nat)
    requires |grid| <= target
    ensures var r := RowRuns(words, grid, target);
      r.0 == grid + Concat(words)[..|r.0| - |grid|]
    decreases |words|
  {
    if |words| > 0 {
      var w0 := words[0];
      var n := RunLength(w0, |grid|, target);
      var rest := RowRuns(words[1..], grid + w0[..n], target);
      RowRunsLetters(words[1..], grid + w0[..n], target);
      assert Concat(words) == w0 + Concat(words[1..]);
      if n == |w0| {
        assert rest.0 == grid + (w0 + Concat(words[1..]))[..|rest.0| - |grid|];
      } else {
        assert |rest.0| == |grid| + n;
      }
    }
  }

  /** Every word's stored run reads the word in the letters written. */
  lemma {:induction false} RowRunsSpell(words: seq<string>, grid: string, target: nat)
    requires |grid| <= target
    ensures forall w :: w in RowRuns(words, grid, target).1 ==>
              RunSpells(RowRuns(words, grid, target).0, w, RowRuns(words, grid, target).1[w])
    decreases |words|
  {
    if |words| > 0 {
      var w0 := words[0];
      var n := RunLength(w0, |grid|, target);
      var g := grid + w0[..n];
      var rest := RowRuns(words[1..], g, target);
      RowRunsSpell(words[1..], g, target);
      var r := RowRuns(words, grid, target);
      assert r == (rest.0, map[w0 := Run(|grid|, n)] + rest.1);
      forall w | w in r.1
        ensures RunSpells(r.0, w, r.1[w])
      {
        if w in rest.1 {
          assert r.1[w] == rest.1[w];
          assert RunSpells(rest.0, w, rest.1[w]);
        } else {
          var p := Run(|grid|, n);
          assert w == w0 && r.1[w] == p;
          forall i | 0 <= i < n
            ensures rest.0[p[i]] == w0[i]
          {
            assert rest.0[p[i]] == rest.0[..|g|][p[i]];
          }
        }
      }
    }
  }

  /** A word loses letters only when the board is full. */
  lemma {:induction false} RowRunsTruncate(words: seq<string>, grid: string, target: nat)
    requires |grid| <= target
    ensures forall w :: w in RowRuns(words, grid, target).1 && |RowRuns(words, grid, target).1[w]| < |w| ==>
              |RowRuns(words, grid, target).0| == target
    decreases |words|
  {
    if |words| > 0 {
      var w0 := words[0];
      var n := RunLength(w0, |grid|, target);
      var rest := RowRuns(words[1..], grid + w0[..n], target);
      RowRunsTruncate(words[1..], grid + w0[..n], target);
      var r := RowRuns(words, grid, target);
      assert r == (rest.0, map[w0 := Run(|grid|, n)] + rest.1);
      forall w | w in r.1 && |r.1[w]| < |w|
        ensures |r.0| == target
      {
        if w in rest.1 {
          assert r.1[w] == rest.1[w];
        } else {
          assert |grid| + n == target;
        }
      }
    }
  }

  /** `simpleRowLayout`: the words written row by row from cell 0, each given its run
      of consecutive cells, the rest of the board filled with 'X'. A word is cut short
      only when the words have more letters than the board has cells. */
  function SimpleRowLayout(words: seq<string>, target: nat): (r: Layout)
    ensures |r.grid| == target
    ensures forall i :: 0 <= i < target ==>
              r.grid[i] == if i < TotalLetters(words) then Concat(words)[i] else 'X'
    ensures forall w :: w in r.solutions <==> w in words
    ensures forall w :: w in r.solutions ==> RunSpells(r.grid, w, r.solutions[w])
    ensures forall w :: w in r.solutions && |r.solutions[w]| < |w| ==> TotalLetters(words) >= target
  {
    var runs := RowRuns(words, "", target);
    RowRunsLetters(words, "", target);
    RowRunsSpell(words, "", target);
    RowRunsTruncate(words, "", target);
    var grid := runs.0 + seq(target - |runs.0|, _ => 'X');
    assert forall w :: w in runs.1 ==> RunSpells(grid, w, runs.1[w]);
    Layout(grid, runs.1)
  }

  // ---------------------------------------------------------------- placement attempts

  /** The state of one attempt: the cells taken, `gridArr` (a JS array whose holes are
      None) and `tempSolutions`. */
  datatype Attempt = Attempt(used: set<nat>, cells: seq<Option<char>>, sols: map<string, seq<nat>>)

  /** `gridArr.join('')`: a hole joins as the empty string. */
  function JoinCells(g: seq<Option<char>>): (r: string)
    ensures |r| <= |g|
    ensures (forall i :: 0 <= i < |g| ==> g[i].Some?) ==>
              |r| == |g| && forall i :: 0 <= i < |g| ==> r[i] == g[i].value
  {
    if |g| == 0 then ""
    else (if g[0].Some? then [g[0].value] else "") + JoinCells(g[1..])
  }

  /** `gridArr[finalPath[i]] = word[i]` for i = 0, 1, ... */
  function {:induction false} WriteWord(g: seq<Option<char>>, p: seq<nat>, w: string): (r: seq<Option<char>>)
    requires |p| == |w| && forall i :: 0 <= i < |p| ==> p[i] < |g|
    ensures |r| == |g|
    ensures forall c :: 0 <= c < |g| && c !in p ==> r[c] == g[c]
    ensures NoDuplicates(p) ==> forall i :: 0 <= i < |p| ==> r[p[i]] == Some(w[i])
    decreases |p|
  {
    if |p| == 0 then g
    else
      var r := WriteWord(g[p[0] := Some(w[0])], p[1..], w[1..]);
      assert forall c :: c in p[1..] ==> c in p;
      assert NoDuplicates(p) ==> p[0] !in p[1..] && NoDuplicates(p[1..]);
      r
  }

  /** The word is written along the path: one cell per letter, in order. */
  predicate WrittenAlong(cells: seq<Option<char>>, w: string, p: seq<nat>)
  {
    |p| == |w| && forall i :: 0 <= i < |p| ==> p[i] < |cells| && cells[p[i]] == Some(w[i])
  }

  predicate Disjoint(sols: map<string, seq<nat>>)
  {
    forall w1, w2 :: w1 in sols && w2 in sols && w1 != w2 ==> Elems(sols[w1]) !! Elems(sols[w2])
  }

  /** What an attempt keeps true after placing the words `placed`: the taken cells are
      exactly the written ones, as many as the placed words have letters, and every
      word's stored path is a trail of taken cells spelling it, disjoint from the others. */
  ghost predicate Consistent(a: Attempt, placed: seq<string>)
  {
    |a.cells| == CellCount
    && a.used <= AllCells()
    && (forall c :: 0 <= c < CellCount ==> (a.cells[c].Some? <==> c in a.used))
    && |a.used| == TotalLetters(placed)
    && (forall w :: w in a.sols <==> w in placed)
    && (forall w :: w in a.sols ==>
          IsTrail(a.sols[w], {}) && Elems(a.sols[w]) <= a.used && WrittenAlong(a.cells, w, a.sols[w]))
    && Disjoint(a.sols)
  }

  function Place(a: Attempt, w: string, p: seq<nat>): Attempt
    requires |a.cells| == CellCount && |p| == |w| && OnBoard(p)
  {
    Attempt(a.used + Elems(p), WriteWord(a.cells, p, w), a.sols[w := p])
  }

  lemma TrailOfNothing(p: seq<nat>, used: set<nat>)
    requires IsTrail(p, used)
    ensures IsTrail(p, {}) && Elems(p) !! used
  {
  }

  /** Placing a trail of free cells marks exactly its cells as written and taken. */
  lemma PlaceCells(a: Attempt, placed: seq<string>, w: string, p: seq<nat>)
    requires Consistent(a, placed)
    requires IsTrail(p, a.used) && |p| == |w|
    ensures var b := Place(a, w, p);
      && b.used <= AllCells() && |b.used| == |a.used| + |p|
      && forall c :: 0 <= c < CellCount ==> (b.cells[c].Some? <==> c in b.used)
  {
    var b := Place(a, w, p);
    TrailOfNothing(p, a.used);
    ElemsCard(p);
    assert |b.used| == |a.used| + |p|;
    forall c | 0 <= c < CellCount
      ensures b.cells[c].Some? <==> c in b.used
    {
      if c in p {
        var i :| 0 <= i < |p| && p[i] == c;
        assert b.cells[p[i]] == Some(w[i]);
      }
    }
  }

  /** Placing a trail of free cells keeps every stored path written and apart. */
  lemma PlaceSols(a: Attempt, placed: seq<string>, w: string, p: seq<nat>)
    requires Consistent(a, placed)
    requires IsTrail(p, a.used) && |p| == |w|
    ensures var b := Place(a, w, p);
      && (forall v :: v in b.sols ==> WrittenAlong(b.cells, v, b.sols[v]))
      && Disjoint(b.sols)
  {
    var b := Place(a, w, p);
    TrailOfNothing(p, a.used);
    forall v | v in b.sols
      ensures WrittenAlong(b.cells, v, b.sols[v])
    {
      if v != w {
        forall i | 0 <= i < |a.sols[v]|
          ensures b.cells[a.sols[v][i]] == a.cells[a.sols[v][i]]
        {
          assert a.sols[v][i] in Elems(a.sols[v]);
        }
      }
    }
  }

  /** Placing a trail of free cells keeps an attempt consistent. */
  lemma PlaceKeeps(a: Attempt, placed: seq<string>, w: string, p: seq<nat>)
    requires Consistent(a, placed)
    requires IsTrail(p, a.used) && |p| == |w|
    ensures Consistent(Place(a, w, p), placed + [w])
  {
    PlaceCells(a, placed, w, p);
    PlaceSols(a, placed, w, p);
    TrailOfNothing(p, a.used);
    TotalLettersAppend(placed, [w]);
    assert TotalLetters([w]) == |w| by {
      assert [w][1..] == [];
    }
  }

  lemma PlaceNext(a: Attempt, words: seq<string>, i: nat, p: seq<nat>)
    requires i < |words| && Consistent(a, words[..i])
    requires IsTrail(p, a.used) && |p| == |words[i]|
    ensures Consistent(Place(a, words[i], p), words[..i + 1])
  {
    var placed, w := words[..i], words[i];
    assert words[..i + 1] == placed + [w];
    PlaceKeeps(a, placed, w, p);
  }

  /** The inner loop of one attempt over the (already shuffled) words: find a trail for
      each, flip it on a coin, record it and write the letters along it. */
  method PlaceWords(words: seq<string>, rand: Oracle, k: nat) returns (ok: bool, a: Attempt, k': nat)
    ensures ok ==> Consistent(a, words)
  {
    a := Attempt({}, seq(CellCount, _ => None), map[]);
    k' := k;
    var i := 0;
    assert TotalLetters(words[..0]) == 0;
    while i < |words|
      invariant 0 <= i <= |words|
      invariant Consistent(a, words[..i])
    {
      var w := words[i];
      var found;
      found, k' := FindPathForWord(|w|, a.used, rand, k');
      if found.None? {
        return false, a, k';
      }
      var p := found.value;
      if Coin(rand, k') {
        ReverseTrail(p, a.used);
        p := Reverse(p);
      }
      k' := k' + 1;
      PlaceNext(a, words, i, p);
      a := Place(a, w, p);
      i := i + 1;
    }
    assert words[..i] == words;
    return true, a, k';
  }

  // ---------------------------------------------------------------- full layouts

  /** A solved board: 48 letters, one stored path per word, each a trail spelling its
      word, and no two paths sharing a cell. */
  ghost predicate WordPaths(words: seq<string>, r: Layout)
  {
    |r.grid| == CellCount
    && (forall w :: w in r.solutions <==> w in words)
    && (forall w :: w in r.solutions ==> IsTrail(r.solutions[w], {}) && |r.solutions[w]| == |w|)
    && (forall w, i :: w in r.solutions && 0 <= i < |r.solutions[w]| ==>
          r.grid[r.solutions[w][i]] == w[i])
    && Disjoint(r.solutions)
  }

  /** A finished attempt over all 48 letters fills every cell, so the joined grid reads
      every stored path as its word. */
  lemma FinishedAttempt(a: Attempt, words: seq<string>)
    requires Consistent(a, words) && TotalLetters(words) == CellCount
    ensures WordPaths(words, Layout(JoinCells(a.cells), a.sols))
  {
    FullBoard(a.used);
    var g := JoinCells(a.cells);
    assert forall c :: 0 <= c < CellCount ==> c in a.used;
    assert forall c :: 0 <= c < |a.cells| ==> a.cells[c].Some?;
    forall w, i | w in a.sols && 0 <= i < |a.sols[w]|
      ensures g[a.sols[w][i]] == w[i]
    {
      assert WrittenAlong(a.cells, w, a.sols[w]);
    }
  }

  /** An attempt that placed every word of a shuffled copy solves the original list. */
  lemma ShuffledAttempt(a: Attempt, words: seq<string>, shuffled: seq<string>)
    requires multiset(shuffled) == multiset(words) && TotalLetters(words) == CellCount
    requires Consistent(a, shuffled)
    ensures WordPaths(words, Layout(JoinCells(a.cells), a.sols))
  {
    TotalLettersPermutation(words, shuffled);
    FinishedAttempt(a, shuffled);
    forall w ensures w in shuffled <==> w in words {
      assert w in multiset(shuffled) <==> w in multiset(words);
    }
  }

  /** `generateGridFromWords`. A word list whose letters do not number exactly 48 gets
      the row-wise layout. Otherwise up to 40 attempts shuffle the words and place them;
      the first attempt that places every word gives a solved board, and when all 40
      fail the row-wise layout is used after all. */
  method GenerateGridFromWords(words: seq<string>, rand: Oracle, k: nat) returns (r: Layout, k': nat)
    ensures |r.grid| == CellCount
    ensures TotalLetters(words) != CellCount ==> r == SimpleRowLayout(words, CellCount)
    ensures r == SimpleRowLayout(words, CellCount) || WordPaths(words, r)
  {
    k' := k;
    if TotalLetters(words) != CellCount {
      return SimpleRowLayout(words, CellCount), k';
    }
    var attempt := 0;
    while attempt < 40
      invariant 0 <= attempt <= 40
    {
      var shuffled := Shuffle(words, rand, k');
      k' := k' + ShuffleDraws(|words|);
      var ok, a;
      ok, a, k' := PlaceWords(shuffled, rand, k');
      if ok {
        ShuffledAttempt(a, words, shuffled);
        return Layout(JoinCells(a.cells), a.sols), k';
      }
      attempt := attempt + 1;
    }
    return SimpleRowLayout(words, CellCount), k';
  }

  /** The union of the cells stored for the given words. */
  function PathCells(sols: map<string, seq<nat>>, ws: seq<string>): set<nat>
    requires forall w :: w in ws ==> w in sols
  {
    if |ws| == 0 then {} else Elems(sols[ws[0]]) + PathCells(sols, ws[1..])
  }

  lemma {:induction false} PathCellsApart(sols: map<string, seq<nat>>, ws: seq<string>, w: string)
    requires forall v :: v in ws ==> v in sols
    requires w in sols && w !in ws && Disjoint(sols)
    ensures Elems(sols[w]) !! PathCells(sols, ws)
  {
    if |ws| > 0 {
      PathCellsApart(sols, ws[1..], w);
    }
  }

  lemma {:induction false} PathCellsCard(sols: map<string, seq<nat>>, ws: seq<string>)
    requires forall v :: v in ws ==> v in sols
    requires NoDuplicates(ws) && Disjoint(sols)
    requires forall v :: v in sols ==> NoDuplicates(sols[v]) && |sols[v]| == |v|
    ensures |PathCells(sols, ws)| == TotalLetters(ws)
  {
    if |ws| > 0 {
      assert ws[0] !in ws[1..];
      PathCellsCard(sols, ws[1..]);
      PathCellsApart(sols, ws[1..], ws[0]);
      ElemsCard(sols[ws[0]]);
    }
  }

  lemma {:induction false} PathCellsOnBoard(sols: map<string, seq<nat>>, ws: seq<string>)
    requires forall v :: v in ws ==> v in sols
    requires forall v :: v in sols ==> OnBoard(sols[v])
    ensures PathCells(sols, ws) <= AllCells()
  {
    if |ws| > 0 {
      PathCellsOnBoard(sols, ws[1..]);
    }
  }

  /** With no word repeated, the stored paths of a solved board cover all 48 cells: the
      words partition the board. */
  lemma SolvedBoardCovers(words: seq<string>, r: Layout)
    requires WordPaths(words, r) && NoDuplicates(words) && TotalLetters(words) == CellCount
    ensures PathCells(r.solutions, words) == AllCells()
  {
    PathCellsCard(r.solutions, words);
    PathCellsOnBoard(r.solutions, words);
    FullBoard(PathCells(r.solutions, words));
  }
}

=== FILE: strands_play.dfy ===
/** The Strands drag logic: a press on a cell starts a path, moves extend it along unfound
    neighbouring cells or step back, and the release checks the spelled word
    forwards and backwards against the word map. */
module StrandsPlay {
  import opened Wrappers
  import opened Random
  import opened StrandsGrid
  import opened StrandsLayout

  /** The page's global state: `gridLetters`, `wordMap`, `foundWords`, `currentPath`
      and `isDragging`. */
  datatype Play = Play(grid: string, words: map<string, seq<nat>>, found: set<string>,
                       path: seq<nat>, dragging: bool)

  /** The state after `setupLevel` has installed a layout. */
  function Start(layout: Layout): (s: Play)
    ensures s.found == {} && s.path == [] && !s.dragging
    ensures s.grid == layout.grid && s.words == layout.solutions
  {
    Play(layout.grid, layout.solutions, {}, [], false)
  }

  /** `isCellFound`: the cell lies on the path of a word already found. */
  predicate IsCellFound(s: Play, idx: nat)
  {
    exists w :: w in s.found && w in s.words && idx in s.words[w]
  }

  /** `checkWin`: as many words found as the map holds. */
  predicate CheckWin(s: Play)
  {
    |s.found| == |s.words.Keys|
  }

  /** `currentPath.map(i => gridLetters[i]).join("")`; a cell past the grid's end reads
      as `undefined`, which joins as the empty string. */
  function Spell(grid: string, path: seq<nat>): (r: string)
    ensures |r| <= |path|
    ensures (forall i :: 0 <= i < |path| ==> path[i] < |grid|) ==>
              |r| == |path| && forall i :: 0 <= i < |path| ==> r[i] == grid[path[i]]
  {
    if |path| == 0 then ""
    else (if path[0] < |grid| then [grid[path[0]]] else "") + Spell(grid, path[1..])
  }

  /** `split('').reverse().join('')`. */
  function ReverseWord(w: string): (r: string)
    ensures |r| == |w| && forall i :: 0 <= i < |w| ==> r[i] == w[|w| - 1 - i]
  {
    seq(|w|, i requires 0 <= i < |w| => w[|w| - 1 - i])
  }

  /** `startDrag` on the cell `hit` (None when the cursor is not over a cell). Nothing
      happens off the grid or once every word is found; otherwise dragging starts, and
      the path restarts at the cell unless that cell is already found. */
  function StartDrag(s: Play, hit: Option<nat>): (r: Play)
    ensures r.grid == s.grid && r.words == s.words && r.found == s.found
    ensures hit.None? || CheckWin(s) ==> r == s
    ensures hit.Some? && !CheckWin(s) ==>
              r.dragging && r.path == (if IsCellFound(s, hit.value) then s.path else [hit.value])
  {
    if hit.None? || CheckWin(s) then s
    else
      var idx := hit.value;
      s.(dragging := true, path := if !IsCellFound(s, idx) then [idx] else s.path)
  }

  /** `handleMove` with the cursor over `hit`. Moving back onto the second-to-last cell
      drops the last one; moving onto a new neighbour of the last cell that is neither
      on the path nor found adds it; anything else changes nothing. */
  function HandleMove(s: Play, hit: Option<nat>): (r: Play)
    ensures r.grid == s.grid && r.words == s.words && r.found == s.found
    ensures r.dragging == s.dragging
    ensures r.path == s.path
         || (|s.path| > 1 && hit == Some(s.path[|s.path| - 2]) && r.path == s.path[..|s.path| - 1])
         || (|s.path| > 0 && hit.Some? && r.path == s.path + [hit.value] && hit.value !in s.path
             && IsAdjacent(s.path[|s.path| - 1], hit.value) && !IsCellFound(s, hit.value))
    ensures !s.dragging || hit.None? || |s.path| == 0 ==> r == s
    ensures s.dragging && hit.Some? && |s.path| > 1 && hit.value == s.path[|s.path| - 2] ==>
              r.path == s.path[..|s.path| - 1]
    ensures s.dragging && hit.Some? && |s.path| > 0
            && !(|s.path| > 1 && hit.value == s.path[|s.path| - 2])
            && hit.value !in s.path && IsAdjacent(s.path[|s.path| - 1], hit.value)
            && !IsCellFound(s, hit.value) ==>
              r.path == s.path + [hit.value]
    ensures s.dragging && hit.Some? && |s.path| > 0
            && !(|s.path| > 1 && hit.value == s.path[|s.path| - 2])
            && !(hit.value !in s.path && IsAdjacent(s.path[|s.path| - 1], hit.value)
                 && !IsCellFound(s, hit.value)) ==>
              r == s
  {
    if !s.dragging || hit.None? || |s.path| == 0 then s
    else
      var idx := hit.value;
      var last := s.path[|s.path| - 1];
      if |s.path| > 1 && idx == s.path[|s.path| - 2] then
        s.(path := s.path[..|s.path| - 1])
      else if idx != last && idx !in s.path && IsAdjacent(last, idx) && !IsCellFound(s, idx) then
        s.(path := s.path + [idx])
      else s
  }

  /** The word a release matches: the spelled word if it is in the map, else its
      reversal if that is. */
  function Matched(s: Play): (m: Option<string>)
    ensures m.Some? ==> m.value in s.words
    ensures m.Some? ==> m.value == Spell(s.grid, s.path) || m.value == ReverseWord(Spell(s.grid, s.path))
    ensures Spell(s.grid, s.path) in s.words ==> m == Some(Spell(s.grid, s.path))
    ensures m.None? <==> Spell(s.grid, s.path) !in s.words && ReverseWord(Spell(s.grid, s.path)) !in s.words
  {
    var formed := Spell(s.grid, s.path);
    if formed in s.words then Some(formed)
    else if ReverseWord(formed) in s.words then Some(ReverseWord(formed))
    else None
  }

  /** `endDrag`: a released drag adds the matched word when it is not yet found, and
      always empties the path. The test is on the word's truthiness, so a matched empty
      word is never added. */
  function EndDrag(s: Play): (r: Play)
    ensures r.grid == s.grid && r.words == s.words
    ensures !s.dragging ==> r == s
    ensures s.dragging ==> !r.dragging && r.path == []
    ensures s.dragging && Matched(s).Some? && Matched(s).value != "" ==> r.found == s.found + {Matched(s).value}
    ensures s.dragging && (Matched(s).None? || Matched(s) == Some("")) ==> r.found == s.found
  {
    if !s.dragging then s
    else
      var m := Matched(s);
      var found := if m.Some? && m.value != "" && m.value !in s.found then s.found + {m.value} else s.found;
      s.(dragging := false, found := found, path := [])
  }

  /** What every reachable state keeps: only map words are found, and the drag path is
      a self-avoiding chain of adjacent cells, none of them on a found word. */
  ghost predicate Inv(s: Play)
  {
    s.found <= s.words.Keys
    && NoDuplicates(s.path) && Connected(s.path)
    && forall i :: 0 <= i < |s.path| ==> !IsCellFound(s, s.path[i])
  }

  lemma StartInv(layout: Layout)
    ensures Inv(Start(layout))
  {
  }

  lemma StartDragInv(s: Play, hit: Option<nat>)
    requires Inv(s)
    ensures Inv(StartDrag(s, hit))
  {
  }

  lemma HandleMoveInv(s: Play, hit: Option<nat>)
    requires Inv(s)
    ensures Inv(HandleMove(s, hit))
  {
    var r := HandleMove(s, hit);
    if r.path != s.path && |s.path| > 0 && hit.Some? && r.path == s.path + [hit.value] {
      assert forall i :: 0 <= i < |s.path| ==> s.path[i] != hit.value;
    }
  }

  lemma EndDragInv(s: Play)
    requires Inv(s)
    ensures Inv(EndDrag(s))
  {
  }

  /** With only map words found, `checkWin` holds exactly when every word is found. */
  lemma WinMeansAllFound(s: Play)
    requires s.found <= s.words.Keys
    ensures CheckWin(s) <==> s.found == s.words.Keys
  {
    var rest := s.words.Keys - s.found;
    assert s.words.Keys == s.found + rest && s.found * rest == {};
    assert |s.words.Keys| == |s.found| + |rest|;
    if s.found != s.words.Keys {
      assert rest != {};
    }
  }

  /** A level whose map holds the empty word cannot be won: a release never adds it,
      and `checkWin` needs every map word found. */
  lemma EmptyWordNeverFound(s: Play)
    requires s.found <= s.words.Keys && "" in s.words && "" !in s.found
    ensures "" !in EndDrag(s).found && EndDrag(s).found <= s.words.Keys
    ensures !CheckWin(s) && !CheckWin(EndDrag(s))
  {
    WinMeansAllFound(s);
    WinMeansAllFound(EndDrag(s));
  }

  /** Cursor moves over the given cells, in order. */
  function Moves(s: Play, cells: seq<nat>): Play
    decreases |cells|
  {
    if |cells| == 0 then s else Moves(HandleMove(s, Some(cells[0])), cells[1..])
  }

  /** Dragging on along the rest of a trail of unfound cells adds each cell in turn. */
  lemma {:induction false} MovesFollow(s: Play, p: seq<nat>, i: nat)
    requires 1 <= i <= |p| && NoDuplicates(p) && Connected(p)
    requires s.dragging && s.path == p[..i]
    requires forall j :: 0 <= j < |p| ==> !IsCellFound(s, p[j])
    ensures Moves(s, p[i..]).path == p && Moves(s, p[i..]).dragging
    ensures Moves(s, p[i..]).grid == s.grid && Moves(s, p[i..]).words == s.words
    ensures Moves(s, p[i..]).found == s.found
    decreases |p| - i
  {
    if i < |p| {
      var n := p[i];
      assert n !in s.path by {
        assert forall j :: 0 <= j < i ==> s.path[j] == p[j];
      }
      if i > 1 {
        assert s.path[i - 2] == p[i - 2] != n;
      }
      assert IsAdjacent(s.path[i - 1], n);
      var t := HandleMove(s, Some(n));
      assert t.path == p[..i + 1];
      assert p[i..][1..] == p[i + 1..];
      MovesFollow(t, p, i + 1);
    } else {
      assert p[..i] == p;
    }
  }

  /** The cells of a word not yet found are not found cells, since stored paths do not
      share cells. */
  lemma UnfoundWordCells(s: Play, w: string)
    requires w in s.words && w !in s.found && Disjoint(s.words)
    ensures forall j :: 0 <= j < |s.words[w]| ==> !IsCellFound(s, s.words[w][j])
  {
    forall j | 0 <= j < |s.words[w]|
      ensures !IsCellFound(s, s.words[w][j])
    {
      assert s.words[w][j] in Elems(s.words[w]);
    }
  }

  /** On a board laid out by the allocator, pressing on the first cell of an unfound
      word, dragging along its stored path and releasing finds that word: the stored
      path reads the word forwards. */
  lemma DragFindsWord(words: seq<string>, layout: Layout, s: Play, w: string)
    requires WordPaths(words, layout) && s.grid == layout.grid && s.words == layout.solutions
    requires Inv(s) && w in s.words && w !in s.found && |w| >= 1
    ensures var p := s.words[w];
      var t := EndDrag(Moves(StartDrag(s, Some(p[0])), p[1..]));
      w in t.found && t.path == [] && t.found == s.found + {w}
  {
    var p := s.words[w];
    WinMeansAllFound(s);
    UnfoundWordCells(s, w);
    var s1 := StartDrag(s, Some(p[0]));
    assert s1.path == p[..1];
    MovesFollow(s1, p, 1);
    assert p[1..] == p[1..];
    var s2 := Moves(s1, p[1..]);
    assert Spell(s2.grid, s2.path) == w;
  }
}

=== FILE: strands_search.dfy ===
/** The randomized depth-first search that lays one word onto the free cells of the
    Strands board (`dfsExtend` and `findPathForWord`). */
module StrandsSearch {
  import opened Wrappers
  import opened Random
  import opened StrandsGrid

  /** `getNeighbors(last).filter(n => !used.has(n) && !visited.has(n))`. */
  function Unclaimed(ns: seq<nat>, used: set<nat>, visited: set<nat>): (r: seq<nat>)
    ensures forall n: nat :: n in r <==> n in ns && n !in used && n !in visited
  {
    if |ns| == 0 then []
    else (if ns[0] !in used && ns[0] !in visited then [ns[0]] else [])
         + Unclaimed(ns[1..], used, visited)
  }

  /** The `allIndices` loop: the free cells below n, ascending. */
  function FreeBelow(n: nat, used: set<nat>): (r: seq<nat>)
    ensures forall x: nat :: x in r <==> x < n && x !in used
  {
    if n == 0 then [] else FreeBelow(n - 1, used) + (if n - 1 !in used then [n - 1] else [])
  }

  /** One more free, unvisited neighbour of the last cell keeps a trail a trail. */
  lemma ExtendTrail(path: seq<nat>, n: nat, used: set<nat>)
    requires |path| >= 1 && IsTrail(path, used)
    requires Around(path[|path| - 1], n) && n !in Elems(path) && n !in used
    ensures IsTrail(path + [n], used)
  {
    assert forall t :: 0 <= t < |path| ==> path[t] in Elems(path);
  }

  /** A trail completing `path` continues through a free, unvisited neighbour of the
      last cell, and completes the path extended by that neighbour. */
  lemma NextStep(path: seq<nat>, q: seq<nat>, targetLen: nat, used: set<nat>)
    requires |path| >= 1 && |path| != targetLen
    requires Completes(path, q, targetLen, used)
    ensures |path| < |q|
    ensures Around(path[|path| - 1], q[|path|]) && q[|path|] !in used
    ensures q[|path|] !in Elems(path)
    ensures Completes(path + [q[|path|]], q, targetLen, used)
  {
    var n := q[|path|];
    assert q[|path| - 1] == path[|path| - 1];
    forall t | 0 <= t < |path|
      ensures path[t] != n
    {
      assert q[t] == path[t];
    }
    assert q[..|path| + 1] == path + [n];
  }

  /** No trail of length targetLen starts with path. */
  ghost predicate DeadEnd(path: seq<nat>, targetLen: nat, used: set<nat>)
  {
    forall q :: !Completes(path, q, targetLen, used)
  }

  /** A trail completing a longer prefix completes the shorter one too. */
  lemma CompletesPrefix(path: seq<nat>, n: nat, q: seq<nat>, targetLen: nat, used: set<nat>)
    requires Completes(path + [n], q, targetLen, used)
    ensures Completes(path, q, targetLen, used)
  {
    assert q[..|path|] == q[..|path| + 1][..|path|];
  }

  /** When every free, unvisited neighbour of the last cell has been tried without
      success, nothing completes the path. */
  lemma Exhausted(path: seq<nat>, targetLen: nat, used: set<nat>, order: seq<nat>)
    requires |path| >= 1 && |path| != targetLen
    requires forall n: nat :: n in order <==>
               Around(path[|path| - 1], n) && n !in used && n !in Elems(path)
    requires forall n :: n in order ==> DeadEnd(path + [n], targetLen, used)
    ensures DeadEnd(path, targetLen, used)
  {
    forall q
      ensures !Completes(path, q, targetLen, used)
    {
      if Completes(path, q, targetLen, used) {
        NextStep(path, q, targetLen, used);
      }
    }
  }

  /** The neighbours `dfsExtend` tries, in the order it tries them: the free,
      unvisited cells around the last one, shuffled. */
  method Candidates(last: nat, used: set<nat>, visited: set<nat>, rand: Oracle, k: nat)
    returns (order: seq<nat>, k': nat)
    ensures forall n: nat :: n in order <==> Around(last, n) && n !in used && n !in visited
  {
    var ns := GetNeighbors(last);
    var candidates := Unclaimed(ns, used, visited);
    order := Shuffle(candidates, rand, k);
    k' := k + ShuffleDraws(|candidates|);
    forall n: nat
      ensures n in order <==> Around(last, n) && n !in used && n !in visited
    {
      assert n in multiset(order) <==> n in candidates;
    }
  }

  /** One step of the search: the extended path is a trail, its visited set grows by the
      new cell, and the set of unvisited cells shrinks. */
  lemma StepFacts(path: seq<nat>, visited: set<nat>, n: nat, used: set<nat>)
    requires |path| >= 1 && IsTrail(path, used) && visited == Elems(path)
    requires Around(path[|path| - 1], n) && n !in used && n !in visited
    ensures IsTrail(path + [n], used) && visited + {n} == Elems(path + [n])
    ensures AllCells() - (visited + {n}) < AllCells() - visited
  {
    ExtendTrail(path, n, used);
    assert n in AllCells() - visited;
  }

  /** `dfsExtend`. On success the returned path starts with the given one, has exactly
      targetLen cells and is a trail avoiding `used`, and `visited'` holds its cells.
      On failure the path and the visited set come back as they went in, and no trail
      of length targetLen extends the given path: the search is exhaustive. */
  method DfsExtend(path: seq<nat>, visited: set<nat>, targetLen: nat, used: set<nat>,
                   rand: Oracle, k: nat)
    returns (found: bool, path': seq<nat>, visited': set<nat>, k': nat)
    requires |path| >= 1 && IsTrail(path, used) && visited == Elems(path)
    ensures found ==> Completes(path, path', targetLen, used) && visited' == Elems(path')
    ensures !found ==> path' == path && visited' == visited
    ensures !found ==> DeadEnd(path, targetLen, used)
    decreases AllCells() - visited
  {
    if |path| == targetLen {
      return true, path, visited, k;
    }
    var last := path[|path| - 1];
    var order;
    order, k' := Candidates(last, used, visited, rand, k);
    var i := 0;
    while i < |order|
      invariant 0 <= i <= |order|
      invariant forall j :: 0 <= j < i ==> DeadEnd(path + [order[j]], targetLen, used)
    {
      var n := order[i];
      StepFacts(path, visited, n, used);
      var ok, p2, v2, k2 := DfsExtend(path + [n], visited + {n}, targetLen, used, rand, k');
      k' := k2;
      if ok {
        CompletesPrefix(path, n, p2, targetLen, used);
        return true, p2, v2, k';
      }
      i := i + 1;
    }
    Exhausted(path, targetLen, used, order);
    return false, path, visited, k';
  }

  /** The start cells `findPathForWord` tries, in the order it tries them: every free
      cell, shuffled. */
  method Starts(used: set<nat>, rand: Oracle, k: nat) returns (starts: seq<nat>, k': nat)
    ensures forall n: nat :: n in starts <==> n < CellCount && n !in used
  {
    var free := FreeBelow(CellCount, used);
    starts := Shuffle(free, rand, k);
    k' := k + ShuffleDraws(|free|);
    forall n: nat
      ensures n in starts <==> n < CellCount && n !in used
    {
      assert n in multiset(starts) <==> n in free;
    }
  }

  /** When the search from every free start cell failed, no trail of that length exists. */
  lemma NoTrail(length: nat, used: set<nat>, starts: seq<nat>)
    requires length >= 1
    requires forall n: nat :: n in starts <==> n < CellCount && n !in used
    requires forall n :: n in starts ==> DeadEnd([n], length, used)
    ensures forall q :: !(|q| == length && IsTrail(q, used))
  {
    forall q | |q| == length && IsTrail(q, used)
      ensures false
    {
      assert q[0] in starts;
      assert q[..1] == [q[0]];
      assert Completes([q[0]], q, length, used);
    }
  }

  /** `findPathForWord`: a trail of exactly `length` free cells, or None when there is
      none at all (the starts are tried in random order, each searched exhaustively).
      A zero-length request always fails: a search starts from a one-cell path. */
  method FindPathForWord(length: nat, used: set<nat>, rand: Oracle, k: nat)
    returns (r: Option<seq<nat>>, k': nat)
    ensures r.Some? ==> |r.value| == length && IsTrail(r.value, used)
    ensures r.None? && length >= 1 ==> forall q :: !(|q| == length && IsTrail(q, used))
    ensures length == 0 ==> r.None?
  {
    var starts;
    starts, k' := Starts(used, rand, k);
    var i := 0;
    while i < |starts|
      invariant 0 <= i <= |starts|
      invariant forall j :: 0 <= j < i ==> DeadEnd([starts[j]], length, used)
    {
      var start := starts[i];
      assert start in starts;
      assert Elems([start]) == {start};
      var ok, p, v, k2 := DfsExtend([start], {start}, length, used, rand, k');
      k' := k2;
      if ok {
        return Some(p), k';
      }
      i := i + 1;
    }
    if length >= 1 {
      NoTrail(length, used, starts);
    }
    return None, k';
  }
}

=== FILE: text.dfy ===
/** The string primitives the games use: `toUpperCase`, `toLowerCase`, `trim` and
    `split` on a single separator character, with `join` as the inverse of `split`. */
module Text {

  /** Upper-casing of one character (ASCII letters only). */
  function UpperChar(c: char): (r: char)
  {
    if 'a' <= c <= 'z' then (c as int - 32) as char else c
  }

  function LowerChar(c: char): (r: char)
  {
    if 'A' <= c <= 'Z' then (c as int + 32) as char else c
  }

  predicate IsUpperLetter(c: char)
  {
    'A' <= c <= 'Z'
  }

  function ToUpper(s: string): (r: string)
    ensures |r| == |s|
    ensures forall i :: 0 <= i < |s| ==> r[i] == UpperChar(s[i])
    ensures forall i :: 0 <= i < |s| ==> ('a' <= s[i] <= 'z' ==> IsUpperLetter(r[i]))
    ensures forall i :: 0 <= i < |s| ==> (!('a' <= s[i] <= 'z') ==> r[i] == s[i])
  {
    seq(|s|, i requires 0 <= i < |s| => UpperChar(s[i]))
  }

  function ToLower(s: string): (r: string)
    ensures |r| == |s|
    ensures forall i :: 0 <= i < |s| ==> r[i] == LowerChar(s[i])
  {
    seq(|s|, i requires 0 <= i < |s| => LowerChar(s[i]))
  }

  /** Upper-casing twice is upper-casing once. */
  lemma ToUpperIdempotent(s: string)
    ensures ToUpper(ToUpper(s)) == ToUpper(s)
  {
    assert forall i :: 0 <= i < |s| ==> UpperChar(UpperChar(s[i])) == UpperChar(s[i]);
  }

  /** The characters `String.prototype.trim` strips: WhiteSpace and LineTerminator of
      section 12.2 and 12.3 of ECMA-262 (the Unicode Zs category spelled out). */
  predicate IsSpace(c: char)
  {
    || c == '\t' || c == '\n' || c == '\U{000B}' || c == '\U{000C}' || c == '\r'
    || c == ' ' || c == '\U{00A0}' || c == '\U{1680}' || ('\U{2000}' <= c <= '\U{200A}')
    || c == '\U{2028}' || c == '\U{2029}' || c == '\U{202F}' || c == '\U{205F}'
    || c == '\U{3000}' || c == '\U{FEFF}'
  }

  function TrimStart(s: string): (r: string)
    ensures |r| <= |s| && r == s[|s| - |r|..]
    ensures forall i :: 0 <= i < |s| - |r| ==> IsSpace(s[i])
    ensures |r| > 0 ==> !IsSpace(r[0])
    decreases |s|
  {
    if |s| > 0 && IsSpace(s[0]) then TrimStart(s[1..]) else s
  }

  function TrimEnd(s: string): (r: string)
    ensures |r| <= |s| && r == s[..|r|]
    ensures forall i :: |r| <= i < |s| ==> IsSpace(s[i])
    ensures |r| > 0 ==> !IsSpace(r[|r| - 1])
    decreases |s|
  {
    if |s| > 0 && IsSpace(s[|s| - 1]) then TrimEnd(s[..|s| - 1]) else s
  }

  /** How many white-space characters `trim` removes from the front of s. */
  function Lead(s: string): (a: nat)
    ensures a <= |s|
  {
    |s| - |TrimStart(s)|
  }

  /** `trim`: the infix left after removing leading and trailing white space. */
  function Trim(s: string): (r: string)
    ensures Lead(s) + |r| <= |s| && r == s[Lead(s)..Lead(s) + |r|]
    ensures forall i :: 0 <= i < Lead(s) ==> IsSpace(s[i])
    ensures forall i :: Lead(s) + |r| <= i < |s| ==> IsSpace(s[i])
    ensures |r| > 0 ==> !IsSpace(r[0]) && !IsSpace(r[|r| - 1])
  {
    TrimEnd(TrimStart(s))
  }

  /** The first position of c in s. */
  function IndexOf(s: string, c: char): (i: nat)
    requires c in s
    ensures i < |s| && s[i] == c && c !in s[..i]
  {
    if s[0] == c then 0 else IndexOf(s[1..], c) + 1
  }

  /** `parts.join(sep)`. */
  function Join(parts: seq<string>, sep: char): string
  {
    if |parts| == 0 then ""
    else if |parts| == 1 then parts[0]
    else parts[0] + [sep] + Join(parts[1..], sep)
  }

  /** `s.split(sep)` for a one-character separator: at least one piece, no piece holds
      the separator, and joining the pieces back gives s. */
  function Split(s: string, sep: char): (r: seq<string>)
    ensures |r| >= 1
    ensures forall i :: 0 <= i < |r| ==> sep !in r[i]
    ensures Join(r, sep) == s
    decreases |s|
  {
    if sep !in s then [s]
    else
      var i := IndexOf(s, sep);
      var rest := Split(s[i + 1..], sep);
      assert s == s[..i] + [sep] + s[i + 1..];
      [s[..i]] + rest
  }
}

=== FILE: wordle_game.dfy ===
/** Wordle's word list and input state: `loadWords`, `selectRandomWord`, `isValidWord`,
    `getHint`, the key handler with its letter buffer, submission, the reveal's row
    progression and keyboard colouring, and `resetGame`. Animation delays are taken as
    immediate. */
module WordleGame {
  import opened Wrappers
  import opened Text
  import opened Random
  import opened WordleScore

  const MaxGuesses := 6
  const WordLength := 5

  // ---------------------------------------------------------------- the word list

  /** A line of the word file as the list holds it: trimmed and upper-cased. */
  function Normalize(line: string): string
  {
    ToUpper(Trim(line))
  }

  /** `map(normalize).filter(word => word.length === 5)`. */
  function KeepFive(lines: seq<string>): (r: seq<string>)
    ensures |r| <= |lines|
    ensures forall w :: w in r ==> |w| == WordLength
  {
    if |lines| == 0 then []
    else if |Normalize(lines[0])| == WordLength then [Normalize(lines[0])] + KeepFive(lines[1..])
    else KeepFive(lines[1..])
  }

  /** Some line normalizes to w. */
  predicate Yields(lines: seq<string>, w: string)
  {
    exists line :: line in lines && Normalize(line) == w
  }

  lemma YieldsFirst(lines: seq<string>, w: string)
    requires |lines| > 0
    ensures Yields(lines, w) <==> Normalize(lines[0]) == w || Yields(lines[1..], w)
  {
    if Yields(lines, w) {
      var line :| line in lines && Normalize(line) == w;
      if line != lines[0] {
        assert line in lines[1..];
      }
    }
    if Yields(lines[1..], w) {
      var line :| line in lines[1..] && Normalize(line) == w;
      assert line in lines;
    }
  }

  /** The list holds exactly the normalized lines of five letters. */
  lemma {:induction false} KeepFiveExact(lines: seq<string>, w: string)
    ensures w in KeepFive(lines) <==> |w| == WordLength && Yields(lines, w)
  {
    if |lines| > 0 {
      KeepFiveExact(lines[1..], w);
      YieldsFirst(lines, w);
    }
  }

  /** The list `loadWords` keeps from the file text: exactly the lines that are five
      letters long once trimmed, upper-cased. */
  function LoadWords(text: string): (words: seq<string>)
    ensures forall w :: w in words ==> |w| == WordLength && ToUpper(w) == w
  {
    var words := KeepFive(Split(text, '\n'));
    forall w | w in words
      ensures ToUpper(w) == w
    {
      KeepFiveExact(Split(text, '\n'), w);
      var line :| line in Split(text, '\n') && Normalize(line) == w;
      ToUpperIdempotent(Trim(line));
    }
    words
  }

  /** A word is in the list exactly when some line of the file normalizes to it and it
      has five letters. */
  lemma LoadWordsExact(text: string, w: string)
    ensures w in LoadWords(text) <==>
              |w| == WordLength && Yields(Split(text, '\n'), w)
  {
    KeepFiveExact(Split(text, '\n'), w);
  }

  /** `selectRandomWord`: `wordList[floor(random * length)]`, which is `undefined` (None)
      on an empty list. */
  function SelectRandomWord(words: seq<string>, rand: Oracle, k: nat): (r: Option<string>)
    ensures r.Some? <==> |words| > 0
    ensures r.Some? ==> r.value in words
  {
    if |words| == 0 then None else Some(words[Draw(rand, k, |words|)])
  }

  /** Every word of the list can be the one drawn. */
  lemma EveryWordDrawable(words: seq<string>, i: nat, k: nat)
    requires i < |words|
    ensures SelectRandomWord(words, _ => i, k) == Some(words[i])
  {
  }

  /** `isValidWord`: the upper-cased word is in the list. */
  predicate IsValidWord(words: seq<string>, w: string)
  {
    ToUpper(w) in words
  }

  /** Membership ignores case: a word and its upper-cased form are both valid or both not,
      and an upper-case word is valid exactly when the list holds it. */
  lemma ValidIgnoresCase(words: seq<string>, w: string)
    ensures IsValidWord(words, ToUpper(w)) == IsValidWord(words, w)
    ensures ToUpper(w) == w ==> (IsValidWord(words, w) <==> w in words)
  {
    ToUpperIdempotent(w);
  }

  // ---------------------------------------------------------------- hints

  /** What `getHint` returns: null, a bare letter string, or `{ letter, position }`. */
  datatype HintResult = NoHint | BareLetter(c: char) | LetterAt(letter: char, position: nat)

  /** The target letters not among the revealed ones, in target order. */
  function Unrevealed(target: string, revealed: set<char>): (r: seq<char>)
    ensures forall c :: c in r <==> c in target && c !in revealed
  {
    if |target| == 0 then []
    else (if target[0] !in revealed then [target[0]] else []) + Unrevealed(target[1..], revealed)
  }

  /** The letters on filled tiles that occur in the target. */
  function Revealed(target: string, filled: seq<char>): (r: set<char>)
    ensures forall c :: c in r <==> c in filled && c in target
  {
    set c | c in filled && c in target
  }

  /** `getHint` as written, with the letters of the filled tiles passed in. With no
      target (empty or `undefined`) there is no hint; with every target letter revealed
      it returns the bare first letter; otherwise a random unrevealed letter and its
      first position, counted from 1. */
  function GetHintAsWritten(target: Option<string>, filled: seq<char>, rand: Oracle, k: nat): (h: HintResult)
  {
    if target.None? || target.value == "" then NoHint
    else
      var t := target.value;
      var un := Unrevealed(t, Revealed(t, filled));
      if |un| == 0 then BareLetter(t[0])
      else
        var letter := un[Draw(rand, k, |un|)];
        LetterAt(letter, IndexOf(t, letter) + 1)
  }

  /** `getHint` returning `{ letter: targetWord[0], position: 1 }` when every letter is
      revealed, so every hint is a letter with its position. */
  function GetHint(target: Option<string>, filled: seq<char>, rand: Oracle, k: nat): (h: HintResult)
    ensures h.NoHint? <==> target.None? || target.value == ""
    ensures !h.BareLetter?
    ensures h.LetterAt? ==> 1 <= h.position <= |target.value| && target.value[h.position - 1] == h.letter
    ensures h.LetterAt? ==> h.letter !in target.value[..h.position - 1]
    ensures h.LetterAt? && h.position > 1 ==> h.letter !in filled
    ensures h.LetterAt? && h != GetHintAsWritten(target, filled, rand, k) ==>
              h == LetterAt(target.value[0], 1) && GetHintAsWritten(target, filled, rand, k) == BareLetter(h.letter)
  {
    match GetHintAsWritten(target, filled, rand, k)
    case BareLetter(c) => LetterAt(c, 1)
    case h => h
  }

  /** The letter and position the hint button shows: `hint.letter` and `hint.position`,
      each `undefined` (None) when the hint is a bare string; None for "No hints
      available!". */
  function HintShown(h: HintResult): (r: Option<(Option<char>, Option<nat>)>)
    ensures r.None? <==> h.NoHint?
  {
    match h
    case NoHint => None
    case BareLetter(_) => Some((None, None))
    case LetterAt(letter, position) => Some((Some(letter), Some(position)))
  }

  /** Once every letter of the target is on a filled tile, the hint as written shows
      `undefined` for both letter and position; the corrected hint names the first letter
      at position 1. */
  lemma HintAllRevealed()
    ensures GetHintAsWritten(Some("CRANE"), "CRANE", _ => 0, 0) == BareLetter('C')
    ensures HintShown(GetHintAsWritten(Some("CRANE"), "CRANE", _ => 0, 0)) == Some((None, None))
    ensures HintShown(GetHint(Some("CRANE"), "CRANE", _ => 0, 0)) == Some((Some('C'), Some(1)))
  {
    assert Unrevealed("CRANE", Revealed("CRANE", "CRANE")) == [];
  }

  /** Any hint shown for a non-empty target names a target letter and a position holding
      it. */
  lemma HintShownNamesTarget(target: string, filled: seq<char>, rand: Oracle, k: nat)
    requires target != ""
    ensures var r := HintShown(GetHint(Some(target), filled, rand, k));
      r.Some? && r.value.0.Some? && r.value.1.Some?
      && 1 <= r.value.1.value <= |target| && target[r.value.1.value - 1] == r.value.0.value
  {
  }

  // ---------------------------------------------------------------- the keyboard

  /** A key's colour class: none yet, or the mark of a tile. */
  datatype KeyColor = Plain | Colored(mark: Mark)

  /** Priority correct > present > absent > none. */
  function Rank(k: KeyColor): nat
  {
    match k
    case Plain => 0
    case Colored(Absent) => 1
    case Colored(Present) => 2
    case Colored(Correct) => 3
  }

  /** `updateKeyboard` on one key: a correct key keeps its colour, a present key ignores
      'absent', and otherwise the key takes the new state. */
  function UpdateKey(current: KeyColor, state: Mark): (r: KeyColor)
    ensures r == current || r == Colored(state)
    ensures Rank(r) == if Rank(current) >= Rank(Colored(state)) then Rank(current) else Rank(Colored(state))
  {
    if current == Colored(Correct) then current
    else if current == Colored(Present) && state == Absent then current
    else Colored(state)
  }

  /** The page's keys by letter; a letter with no key is ignored. */
  type Keyboard = map<char, KeyColor>

  function UpdateKeyboard(kb: Keyboard, letter: char, state: Mark): (r: Keyboard)
    ensures r.Keys == kb.Keys
    ensures forall c :: c in kb && c != letter ==> r[c] == kb[c]
    ensures letter in kb ==> r[letter] == UpdateKey(kb[letter], state)
  {
    if letter !in kb then kb else kb[letter := UpdateKey(kb[letter], state)]
  }

  /** The reveal's `updateKeyboard(letter, result[i])` calls, in tile order. */
  function ApplyMarks(kb: Keyboard, guess: string, marks: seq<Mark>): (r: Keyboard)
    requires |marks| == |guess|
    ensures r.Keys == kb.Keys
    decreases |guess|
  {
    if |guess| == 0 then kb
    else ApplyMarks(UpdateKeyboard(kb, guess[0], marks[0]), guess[1..], marks[1..])
  }

  /** The keyboard never downgrades a key, and after a reveal each guessed letter's key
      ranks at least as high as every mark that letter received. */
  lemma {:induction false} ApplyMarksMonotone(kb: Keyboard, guess: string, marks: seq<Mark>)
    requires |marks| == |guess|
    ensures forall c :: c in kb ==> Rank(ApplyMarks(kb, guess, marks)[c]) >= Rank(kb[c])
    ensures forall i :: 0 <= i < |guess| && guess[i] in kb ==>
              Rank(ApplyMarks(kb, guess, marks)[guess[i]]) >= Rank(Colored(marks[i]))
    decreases |guess|
  {
    if |guess| > 0 {
      var kb1 := UpdateKeyboard(kb, guess[0], marks[0]);
      ApplyMarksMonotone(kb1, guess[1..], marks[1..]);
      var r := ApplyMarks(kb, guess, marks);
      forall i | 0 <= i < |guess| && guess[i] in kb
        ensures Rank(r[guess[i]]) >= Rank(Colored(marks[i]))
      {
        if i > 0 {
          assert guess[1..][i - 1] == guess[i] && marks[1..][i - 1] == marks[i];
        }
      }
    }
  }

  // ---------------------------------------------------------------- the game

  /** `currentRow`, `currentTile`, `currentGuess`, `gameOver`, with the word list, the
      target word (None for `undefined`) and the keyboard colours. */
  datatype Game = Game(words: seq<string>, target: Option<string>, row: nat, tile: int,
                       guess: string, over: bool, keys: Keyboard)

  /** The state after `loadWords`: the word list from the file; a target is drawn only
      when the list is not empty, otherwise `targetWord` keeps its initial ''. */
  function Load(text: string, keys: Keyboard, rand: Oracle, k: nat): (g: Game)
    ensures g.words == LoadWords(text) && g.row == 0 && g.tile == 0 && g.guess == "" && !g.over
    ensures |g.words| == 0 ==> g.target == Some("")
    ensures |g.words| > 0 ==> g.target.Some? && g.target.value in g.words
  {
    var words := LoadWords(text);
    Game(words, if |words| == 0 then Some("") else SelectRandomWord(words, rand, k), 0, 0, "", false, keys)
  }

  /** `addLetter`: appends while the guess is shorter than five letters. */
  function AddLetter(g: Game, letter: char): (r: Game)
    ensures |g.guess| < WordLength ==> r == g.(guess := g.guess + [letter], tile := g.tile + 1)
    ensures |g.guess| >= WordLength ==> r == g
  {
    if |g.guess| < WordLength then g.(guess := g.guess + [letter], tile := g.tile + 1) else g
  }

  /** `deleteLetter`: drops the last letter of a non-empty guess. */
  function DeleteLetter(g: Game): (r: Game)
    ensures |g.guess| == 0 ==> r == g
    ensures |g.guess| > 0 ==> r.guess + [g.guess[|g.guess| - 1]] == g.guess && r.tile + 1 == g.tile
    ensures r.words == g.words && r.target == g.target && r.row == g.row && r.over == g.over && r.keys == g.keys
  {
    if |g.guess| > 0 then g.(tile := g.tile - 1, guess := g.guess[..|g.guess| - 1])
    else g
  }

  /** The reveal: colour the tiles and keys, then win on the target, lose on the last row,
      or move to the next row with an empty guess. An `undefined` target fails at
      `targetWord.split` and changes nothing. */
  function Reveal(g: Game): (r: Game)
    ensures r.words == g.words && r.target == g.target
  {
    if g.target.None? then g
    else
      var t := g.target.value;
      var keys := ApplyMarks(g.keys, g.guess, Score(g.guess, t));
      if g.guess == t then g.(keys := keys, over := true)
      else if g.row == MaxGuesses - 1 then g.(keys := keys, over := true)
      else g.(keys := keys, row := g.row + 1, tile := 0, guess := "")
  }

  /** `submitGuess`: reveals only a five-letter guess that is in the list. */
  function Submit(g: Game): (r: Game)
    ensures |g.guess| != WordLength || !IsValidWord(g.words, g.guess) ==> r == g
    ensures |g.guess| == WordLength && IsValidWord(g.words, g.guess) ==> r == Reveal(g)
  {
    if |g.guess| != WordLength then g
    else if !IsValidWord(g.words, g.guess) then g
    else Reveal(g)
  }

  /** A one-letter key A-Z, after upper-casing (`/^[A-Z]$/`). */
  predicate IsLetterKey(key: string)
  {
    |key| == 1 && IsUpperLetter(key[0])
  }

  /** `handleKeyPress`: nothing once the game is over; Enter submits, Backspace deletes,
      and a letter is added while the guess has fewer than five. */
  function HandleKey(g: Game, key: string): (r: Game)
    ensures g.over ==> r == g
    ensures !g.over && ToUpper(key) == "ENTER" ==> r == Submit(g)
    ensures !g.over && ToUpper(key) == "BACKSPACE" ==> r == DeleteLetter(g)
    ensures !g.over && IsLetterKey(ToUpper(key)) && |g.guess| < WordLength ==>
              r == g.(guess := g.guess + ToUpper(key), tile := g.tile + 1)
    ensures (!g.over && ToUpper(key) != "ENTER" && ToUpper(key) != "BACKSPACE"
              && !(IsLetterKey(ToUpper(key)) && |g.guess| < WordLength)) ==> r == g
  {
    if g.over then g
    else
      var k := ToUpper(key);
      if k == "ENTER" then Submit(g)
      else if k == "BACKSPACE" then DeleteLetter(g)
      else if IsLetterKey(k) && |g.guess| < WordLength then AddLetter(g, k[0])
      else g
  }

  /** `resetGame`: row, tile, guess and game-over cleared, a new target drawn and every
      key's colour removed. */
  function ResetGame(g: Game, rand: Oracle, k: nat): (r: Game)
    ensures r.row == 0 && r.tile == 0 && r.guess == "" && !r.over && r.words == g.words
    ensures r.keys.Keys == g.keys.Keys && forall c :: c in r.keys ==> r.keys[c] == Plain
    ensures r.target.Some? ==> r.target.value in g.words
  {
    Game(g.words, SelectRandomWord(g.words, rand, k), 0, 0, "", false, map c | c in g.keys :: Plain)
  }

  /** The hint button: nothing once the game is over, otherwise the hint for the current
      target and filled tiles. */
  function HintClick(g: Game, filled: seq<char>, rand: Oracle, k: nat): (r: Option<(Option<char>, Option<nat>)>)
    ensures g.over ==> r.None?
    ensures !g.over && g.target.Some? && g.target.value != "" ==>
              r.Some? && r.value.0.Some? && r.value.1.Some?
              && 1 <= r.value.1.value <= |g.target.value|
              && g.target.value[r.value.1.value - 1] == r.value.0.value
  {
    if g.over then None else HintShown(GetHint(g.target, filled, rand, k))
  }

  // ---------------------------------------------------------------- what play keeps

  /** The tile cursor is the guess length, at most five; the row is one of the six; the
      listed words are five upper-case letters; and a drawn target is a listed word. */
  predicate Inv(g: Game)
  {
    && g.tile == |g.guess| <= WordLength
    && g.row < MaxGuesses
    && (forall w :: w in g.words ==> |w| == WordLength && ToUpper(w) == w)
    && (g.target.Some? && g.target.value != "" ==> g.target.value in g.words)
  }

  lemma LoadInv(text: string, keys: Keyboard, rand: Oracle, k: nat)
    ensures Inv(Load(text, keys, rand, k))
  {
  }

  lemma HandleKeyInv(g: Game, key: string)
    requires Inv(g)
    ensures Inv(HandleKey(g, key))
  {
  }

  lemma ResetInv(g: Game, rand: Oracle, k: nat)
    requires Inv(g)
    ensures Inv(ResetGame(g, rand, k))
  {
  }

  /** A submission that reveals ends in exactly one of three ways: won with the target,
      lost on the sixth row, or on to the next row with the guess and tile cleared. Every
      tile is 'correct' exactly in the won case. */
  lemma RevealOutcome(g: Game)
    requires Inv(g) && !g.over && g.target.Some?
    requires |g.guess| == WordLength && IsValidWord(g.words, g.guess)
    ensures var r := HandleKey(g, "Enter");
      && r == Reveal(g)
      && ((r.over && g.guess == g.target.value)
          || (r.over && g.guess != g.target.value && g.row == MaxGuesses - 1)
          || (!r.over && g.guess != g.target.value && r.row == g.row + 1 && r.guess == "" && r.tile == 0))
      && ((forall i :: 0 <= i < WordLength ==> Score(g.guess, g.target.value)[i] == Correct)
          <==> g.guess == g.target.value)
  {
    assert ToUpper("Enter") == "ENTER";
    ValidIgnoresCase(g.words, g.guess);
    var t := g.target.value;
    if t != "" {
      AllCorrect(g.guess, t);
    } else {
      assert Score(g.guess, t)[0] != Correct;
    }
  }

  // ---------------------------------------------------------------- the reveal window, as written

  /** The timer a reveal leaves behind: the guess and its colours are fixed when Enter is
      pressed, while `currentRow` and `targetWord` are read only when it fires, 1.2 s later. */
  datatype RevealTimer = RevealTimer(guess: string, marks: seq<Mark>)

  /** `submitGuess` as written, before its timer fires: nothing changes at once, so
      `gameOver` stays false and the five-letter guess stays in place, and a second
      Enter in the window reveals the same guess again. */
  function SubmitNow(g: Game): (r: (Game, seq<RevealTimer>))
    ensures r.0 == g
    ensures forall i :: 0 <= i < |r.1| ==> |r.1[i].marks| == |r.1[i].guess|
    ensures |g.guess| == WordLength && IsValidWord(g.words, g.guess) && g.target.Some? ==>
              r.1 == [RevealTimer(g.guess, Score(g.guess, g.target.value))]
    ensures !(|g.guess| == WordLength && IsValidWord(g.words, g.guess) && g.target.Some?) ==> r.1 == []
  {
    if |g.guess| != WordLength || !IsValidWord(g.words, g.guess) || g.target.None? then (g, [])
    else (g, [RevealTimer(g.guess, Score(g.guess, g.target.value))])
  }

  /** The reveal timer firing: colour the keys, then win on the target, lose when the
      current row is the last, or move to the next row. */
  function FireReveal(g: Game, t: RevealTimer): (r: Game)
    requires |t.marks| == |t.guess|
    ensures r.words == g.words && r.target == g.target
    ensures g.target == Some(t.guess) ==> r.over
    ensures g.target != Some(t.guess) && g.row < MaxGuesses - 1 ==> r.row == g.row + 1 && r.over == g.over
  {
    var keys := ApplyMarks(g.keys, t.guess, t.marks);
    if g.target == Some(t.guess) then g.(keys := keys, over := true)
    else if g.row == MaxGuesses - 1 then g.(keys := keys, over := true)
    else g.(keys := keys, row := g.row + 1, tile := 0, guess := "")
  }

  function FireReveals(g: Game, ts: seq<RevealTimer>): (r: Game)
    requires forall i :: 0 <= i < |ts| ==> |ts[i].marks| == |ts[i].guess|
    ensures r.words == g.words && r.target == g.target
    decreases |ts|
  {
    if |ts| == 0 then g else FireReveals(FireReveal(g, ts[0]), ts[1..])
  }

  /** With no key pressed while the reveal runs, the program as written ends where
      `Submit` does: the corrected model is the as-written one with the window closed. */
  lemma SubmitSettles(g: Game)
    ensures FireReveals(SubmitNow(g).0, SubmitNow(g).1) == Submit(g)
  {
    var (h, ts) := SubmitNow(g);
    if |ts| > 0 {
      assert FireReveals(h, ts) == FireReveals(FireReveal(h, ts[0]), []);
    }
  }

  /** Enter pressed twice within the reveal, as written: a wrong guess is revealed twice
      and both timers advance the row, so a row is skipped. On the fifth row this ends
      the game lost with the sixth guess never entered. */
  lemma DoubleEnterSkipsRow(g: Game)
    requires Inv(g) && !g.over && g.target.Some? && g.guess != g.target.value
    requires |g.guess| == WordLength && IsValidWord(g.words, g.guess)
    ensures var first := SubmitNow(g);
      var second := SubmitNow(first.0);
      var r := FireReveals(second.0, first.1 + second.1);
      && !second.0.over && |second.1| == 1
      && (g.row + 2 < MaxGuesses ==> !r.over && r.row == g.row + 2)
      && (g.row + 2 == MaxGuesses ==> r.over && r.row == MaxGuesses - 1)
  {
    var first := SubmitNow(g);
    var second := SubmitNow(first.0);
    var t := first.1[0];
    assert first.1 + second.1 == [t, t];
    assert FireReveals(g, [t, t]) == FireReveals(FireReveal(g, t), [t]);
    assert FireReveals(FireReveal(g, t), [t]) == FireReveals(FireReveal(FireReveal(g, t), t), []);
  }
}

=== FILE: wordle_score.dfy ===
/** Wordle's tile colouring (`revealGuess`): a first pass marks the letters in the right
    place 'correct' and consumes those target positions; a second pass, left to right,
    marks a letter 'present' when some unconsumed target position holds it, consuming
    the leftmost such position. Every other tile stays 'absent'. */
module WordleScore {
  import opened Wrappers
  import opened Random

  datatype Mark = Correct | Present | Absent

  /** The guess has the target's letter at position i. */
  predicate Agrees(guess: string, target: string, i: int)
  {
    0 <= i < |guess| && i < |target| && guess[i] == target[i]
  }

  /** The first pass: 'correct' where the letters agree, 'absent' elsewhere. */
  function FirstPass(guess: string, target: string): (r: seq<Mark>)
    ensures |r| == |guess|
    ensures forall i :: 0 <= i < |guess| ==> (r[i] == Correct <==> Agrees(guess, target, i))
    ensures forall i :: 0 <= i < |guess| ==> r[i] != Present
  {
    seq(|guess|, i requires 0 <= i < |guess| => if Agrees(guess, target, i) then Correct else Absent)
  }

  /** The target positions the first pass consumes. */
  function CorrectIndices(guess: string, target: string): set<int>
  {
    set i | 0 <= i < |guess| && Agrees(guess, target, i)
  }

  /** The inner `for` loop: the first target position at or after j that is not yet
      consumed and holds c, or None when there is none. */
  function FreeIndex(target: string, used: set<int>, c: char, j: nat): (r: Option<nat>)
    ensures r.Some? ==> j <= r.value < |target| && r.value !in used && target[r.value] == c
    ensures r.Some? ==> forall m :: j <= m < r.value ==> m in used || target[m] != c
    ensures r.None? <==> forall m :: j <= m < |target| ==> m in used || target[m] != c
    decreases |target| - j
  {
    if j >= |target| then None
    else if j !in used && target[j] == c then Some(j)
    else FreeIndex(target, used, c, j + 1)
  }

  /** The second pass from guess position i on, with the marks and consumed target
      positions so far. */
  function SecondPass(guess: string, target: string, marks: seq<Mark>, used: set<int>, i: nat)
    : (r: (seq<Mark>, set<int>))
    requires |marks| == |guess| && i <= |guess|
    ensures |r.0| == |marks|
    ensures forall p :: 0 <= p < |marks| ==> (r.0[p] == Correct <==> marks[p] == Correct)
    ensures forall p :: 0 <= p < i ==> r.0[p] == marks[p]
    ensures forall p :: 0 <= p < |marks| && r.0[p] == Present ==> marks[p] == Present || guess[p] in target
    ensures used <= r.1
    ensures forall j :: j in r.1 ==> j in used || 0 <= j < |target|
    decreases |guess| - i
  {
    if i == |guess| then (marks, used)
    else if marks[i] == Correct then SecondPass(guess, target, marks, used, i + 1)
    else match FreeIndex(target, used, guess[i], 0)
      case None => SecondPass(guess, target, marks, used, i + 1)
      case Some(j) => SecondPass(guess, target, marks[i := Present], used + {j}, i + 1)
  }

  /** `revealGuess`'s colouring of guess against target. */
  function Score(guess: string, target: string): (r: seq<Mark>)
    ensures |r| == |guess|
    ensures forall i :: 0 <= i < |guess| ==> (r[i] == Correct <==> Agrees(guess, target, i))
    ensures forall i :: 0 <= i < |guess| && r[i] == Present ==> guess[i] in target
  {
    SecondPass(guess, target, FirstPass(guess, target), CorrectIndices(guess, target), 0).0
  }

  /** Every tile is 'correct' exactly when the guess is the target (of the same length). */
  lemma AllCorrect(guess: string, target: string)
    requires |guess| == |target|
    ensures (forall i :: 0 <= i < |guess| ==> Score(guess, target)[i] == Correct) <==> guess == target
  {
    var r := Score(guess, target);
    if forall i :: 0 <= i < |guess| ==> r[i] == Correct {
      assert forall i :: 0 <= i < |guess| ==> guess[i] == target[i];
    }
  }

  // ---------------------------------------------------------------- counting letters

  /** The positions of s that hold c. */
  function Occ(s: string, c: char): set<int>
  {
    set i | 0 <= i < |s| && s[i] == c
  }

  /** The guess positions with letter c that are coloured 'correct' or 'present'. */
  function Marked(guess: string, marks: seq<Mark>, c: char): set<int>
    requires |marks| == |guess|
  {
    set p | 0 <= p < |guess| && marks[p] != Absent && guess[p] == c
  }

  /** The consumed target positions that hold c. */
  function UsedOf(target: string, used: set<int>, c: char): set<int>
  {
    set j | j in used && 0 <= j < |target| && target[j] == c
  }

  /** The positions holding c are as many as the occurrences of c. */
  lemma {:induction false} OccCount(s: string, c: char)
    ensures |Occ(s, c)| == multiset(s)[c]
  {
    if |s| > 0 {
      var init := s[..|s| - 1];
      OccCount(init, c);
      assert s == init + [s[|s| - 1]];
      if s[|s| - 1] == c {
        assert Occ(s, c) == Occ(init, c) + {|s| - 1};
      } else {
        assert Occ(s, c) == Occ(init, c);
      }
    }
  }

  /** Colouring an 'absent' tile i adds i to the marked positions of its own letter only. */
  lemma MarkStep(guess: string, marks: seq<Mark>, i: nat, c: char)
    requires |marks| == |guess| && i < |guess| && marks[i] == Absent
    ensures Marked(guess, marks[i := Present], c)
         == Marked(guess, marks, c) + (if guess[i] == c then {i} else {})
    ensures i !in Marked(guess, marks, c)
  {
  }

  /** Consuming a fresh target position j adds j to the consumed positions of its own
      letter only. */
  lemma UseStep(target: string, used: set<int>, j: nat, c: char)
    requires j < |target| && j !in used
    ensures UsedOf(target, used + {j}, c) == UsedOf(target, used, c) + (if target[j] == c then {j} else {})
    ensures j !in UsedOf(target, used, c)
  {
  }

  /** One 'present' mark at i consuming target position j adds one position with letter c
      to each side exactly when the letter is c. */
  lemma PresentStep(guess: string, target: string, marks: seq<Mark>, used: set<int>, i: nat, j: nat, c: char)
    requires |marks| == |guess| && i < |guess| && marks[i] == Absent
    requires j < |target| && j !in used && target[j] == guess[i]
    ensures |Marked(guess, marks[i := Present], c)| - |Marked(guess, marks, c)|
         == |UsedOf(target, used + {j}, c)| - |UsedOf(target, used, c)|
  {
    MarkStep(guess, marks, i, c);
    UseStep(target, used, j, c);
  }

  /** The second pass keeps the marked positions of each letter as many as the consumed
      target positions of that letter. */
  lemma {:induction false} SecondPassCount(guess: string, target: string, marks: seq<Mark>, used: set<int>,
                                           i: nat, c: char)
    requires |marks| == |guess| && i <= |guess|
    requires forall p :: i <= p < |guess| ==> marks[p] != Present
    requires |Marked(guess, marks, c)| == |UsedOf(target, used, c)|
    ensures var r := SecondPass(guess, target, marks, used, i);
      |Marked(guess, r.0, c)| == |UsedOf(target, r.1, c)|
    decreases |guess| - i
  {
    if i < |guess| && marks[i] != Correct {
      match FreeIndex(target, used, guess[i], 0)
      case None =>
        SecondPassCount(guess, target, marks, used, i + 1, c);
      case Some(j) =>
        PresentStep(guess, target, marks, used, i, j, c);
        SecondPassCount(guess, target, marks[i := Present], used + {j}, i + 1, c);
    } else if i < |guess| {
      SecondPassCount(guess, target, marks, used, i + 1, c);
    }
  }

  /** Once a tile with letter c stays 'absent', every target position holding c has been
      consumed, and consumed positions stay consumed. */
  lemma {:induction false} SecondPassSaturates(guess: string, target: string, marks: seq<Mark>,
                                               used: set<int>, i: nat)
    requires |marks| == |guess| && i <= |guess|
    requires forall p :: i <= p < |guess| ==> marks[p] != Present
    requires forall p, m :: 0 <= p < i && marks[p] == Absent && 0 <= m < |target| && target[m] == guess[p]
               ==> m in used
    ensures var r := SecondPass(guess, target, marks, used, i);
      forall p, m :: 0 <= p < |guess| && r.0[p] == Absent && 0 <= m < |target| && target[m] == guess[p]
        ==> m in r.1
    decreases |guess| - i
  {
    if i < |guess| && marks[i] != Correct {
      match FreeIndex(target, used, guess[i], 0)
      case None =>
        SecondPassSaturates(guess, target, marks, used, i + 1);
      case Some(j) =>
        SecondPassSaturates(guess, target, marks[i := Present], used + {j}, i + 1);
    } else if i < |guess| {
      SecondPassSaturates(guess, target, marks, used, i + 1);
    }
  }

  /** Before the second pass, the correct positions of each letter are exactly the
      consumed target positions of that letter. */
  lemma FirstPassCount(guess: string, target: string, c: char)
    ensures Marked(guess, FirstPass(guess, target), c) == UsedOf(target, CorrectIndices(guess, target), c)
  {
  }

  /** Each target position is consumed at most once, so the tiles of letter c coloured
      'correct' or 'present' are exactly as many as the smaller of c's count in the guess
      and c's count in the target. */
  lemma ScoreCount(guess: string, target: string, c: char)
    ensures |Marked(guess, Score(guess, target), c)| == Smaller(multiset(guess)[c], multiset(target)[c])
  {
    var m0, u0 := FirstPass(guess, target), CorrectIndices(guess, target);
    var r := SecondPass(guess, target, m0, u0, 0);
    FirstPassCount(guess, target, c);
    SecondPassCount(guess, target, m0, u0, 0, c);
    SecondPassSaturates(guess, target, m0, u0, 0);
    OccCount(guess, c);
    OccCount(target, c);
    var marked := Marked(guess, r.0, c);
    var usedC := UsedOf(target, r.1, c);
    assert marked <= Occ(guess, c);
    assert usedC <= Occ(target, c) by {
      forall j | j in usedC ensures j in Occ(target, c) { }
    }
    SubsetCard(marked, Occ(guess, c));
    SubsetCard(usedC, Occ(target, c));
    if exists p :: 0 <= p < |guess| && r.0[p] == Absent && guess[p] == c {
      assert usedC == Occ(target, c);
    } else {
      assert marked == Occ(guess, c);
    }
  }

  /** 'present' marks go left to right: once a tile with letter c stays 'absent', no later
      tile with c is 'present'. */
  lemma PresentLeftmost(guess: string, target: string, p: nat, q: nat)
    requires p < q < |guess| && guess[p] == guess[q]
    requires Score(guess, target)[p] == Absent
    ensures Score(guess, target)[q] != Present
  {
    var m0, u0 := FirstPass(guess, target), CorrectIndices(guess, target);
    PresentLeftmostFrom(guess, target, m0, u0, 0, p, q);
  }

  lemma {:induction false} PresentLeftmostFrom(guess: string, target: string, marks: seq<Mark>,
                                               used: set<int>, i: nat, p: nat, q: nat)
    requires |marks| == |guess| && i <= |guess| && p < q < |guess| && guess[p] == guess[q]
    requires forall x :: i <= x < |guess| ==> marks[x] != Present
    requires p < i ==> marks[p] == Absent && forall m :: 0 <= m < |target| && target[m] == guess[p] ==> m in used
    requires q < i ==> marks[q] != Present
    requires SecondPass(guess, target, marks, used, i).0[p] == Absent
    ensures SecondPass(guess, target, marks, used, i).0[q] != Present
    decreases |guess| - i
  {
    if i < |guess| {
      if marks[i] == Correct {
        PresentLeftmostFrom(guess, target, marks, used, i + 1, p, q);
      } else {
        match FreeIndex(target, used, guess[i], 0)
        case None =>
          PresentLeftmostFrom(guess, target, marks, used, i + 1, p, q);
        case Some(j) =>
          PresentLeftmostFrom(guess, target, marks[i := Present], used + {j}, i + 1, p, q);
      }
    }
  }
}

=== FILE: wrappers.dfy ===
/** Failure-compatible wrapper shared by every game model: `None` stands for the
    source's `null` / `undefined` results. */
module Wrappers {

  datatype Option<+T> = None | Some(value: T) {

    predicate IsFailure() {
      None?
    }

    function PropagateFailure<U>(): Option<U>
      requires None?
    {
      None
    }

    function Extract(): T
      requires Some?
    {
      value
    }
  }
}
